=== FILE: README.md ===
# bobcat wireless-mesh algorithms in Dafny

This project models the core of bobcat, a simulator of wireless mesh networks with relays and subscribers. The core has four parts:

- **Joint routing and channel selection** (joint_routing_channel_selection.py). For one path through the network it works out the links each hop can use. A link is one edge on one frequency band and one channel. It then computes the bridging sets between hops. It estimates a path's throughput from interference cliques. It then picks channels in one of two ways: a dynamic program over the subsets of every bridging set (`select_channels`), or a greedy pass (`select_channels_greedy`). Subsets are indexed by a bit encoding (`encode_set` / `decode_set`).
- **The base network** (network.py). This covers:
  - the rate tiers a pathloss maps to;
  - the per-edge channel tables (`init_edge`) and what they add up to (`bottleneck_capacity`, `bottleneck_weight`);
  - pruning of dead edges and isolated nodes (`prune_dead_edges`, `initialize_edges`);
  - the beamsets of each relay: the subscribers inside a beam of width theta at each whole bearing (`beamsets`);
  - the sector a bearing falls in (`beam_index`).
- **Beam scheduling** (beam_scheduling.py). Two greedy allocators, `greedy1` and `greedy2`. Each lets relays claim subscribers, chooses each relay's best bearing, drops or rescues subscribers outside that beam, and returns the objective served in one slot.
- **The directional antenna algorithm** `KNN` (directional_antenna.py). Every node keeps only its K nearest neighbours, points one active beam at each of them and removes its other edges.

The model takes the form of the source:

- Code that computes a value becomes functions over datatypes, with lemmas stating what each one promises.
- Loops become methods whose `ensures` ties their result to those functions.
- The network object, which the source mutates in place, is a class `NetworkBase.Network` whose methods say how its adjacency, channel tables, active beams and beamsets change.
- The node attributes the beam schedulers write form the class `BeamScheduler.Nodes`.

Sets the program iterates over are sequences of distinct elements, because their iteration order decides the result. The model takes the following as given functions of the nodes: pathloss, bearing, distance, queue lengths and rates. Where the program iterates a Python 2 dict or set of nodes, the model takes a given sequence. Where it iterates a set of links or a dict of values, the model fixes one order, and "## Left out" lists each such order.

## Model

| member | source | states |
|---|---|---|
| Links.LinkEq | joint_routing_channel_selection.py:37-40 | two links are equal exactly when edge, band and channel agree |
| Links.HashKeyAgreesWithEq | joint_routing_channel_selection.py:37-43 | `__hash__` and `__eq__` agree: equal links have the same hash key, distinct links distinct keys |
| Links.CheckInterference | joint_routing_channel_selection.py:75-80 | true only for a key present in the interference table, and then the table's value; a missing band or channel gives false |
| Links.BandLinks | joint_routing_channel_selection.py:68-70 | a link is listed exactly when it is on the edge and band and its channel is below the bound and has positive capacity |
| Links.HopLinks | joint_routing_channel_selection.py:67-70 | a hop's links are exactly its positive-capacity links on all three bands and every channel |
| Links.FindAvailableLinks | joint_routing_channel_selection.py:62-73 | one entry per hop; a link is available at hop i exactly when it is on hop i's edge, its channel is in range and its capacity is positive |
| Links.BandLinksDistinct | joint_routing_channel_selection.py:68-70 | a band's links are listed once each, as in a set |
| Links.HopLinksDistinct | joint_routing_channel_selection.py:67-70 | a hop's links are listed once each |
| Links.AvailableLinksDistinct | joint_routing_channel_selection.py:62-73 | every hop's available links form a set |
| Links.AvailableLinksAreReal | joint_routing_channel_selection.py:66-70 | every available link carries a node-pair edge, never a hop index |
| Links.SelfConflicting | joint_routing_channel_selection.py:93-96 | the pairs the double loop adds are left links that also occur on the right and interfere with themselves, at most one per left link |
| Links.SelfConflictingMembers | joint_routing_channel_selection.py:93-96 | a link is added exactly when it is on both sides and its own interference entry is true |
| Links.SelfConflictingDistinct | joint_routing_channel_selection.py:93-96 | the added links are a set |
| Links.BridgingSet | joint_routing_channel_selection.py:82-98 | the bridging set starts with the hop's own available links |
| Links.BridgingSetDistinct | joint_routing_channel_selection.py:82-98 | a bridging set lists each link once |
| Links.BridgingSetMembers | joint_routing_channel_selection.py:82-98 | a link is in bridging set idx exactly when it is available at idx, or it is at a hop up to idx and at a hop after idx and interferes with itself |
| SubsetCodec.Pow2 | joint_routing_channel_selection.py:187 | `pow(2, n)` is positive |
| SubsetCodec.Encode | joint_routing_channel_selection.py:100-107 | an index stays below 2^\|set_in\| |
| SubsetCodec.Decode | joint_routing_channel_selection.py:109-117 | a decoded subset is no longer than the enumeration |
| SubsetCodec.DecodeMembers | joint_routing_channel_selection.py:109-117 | a decoded subset draws only from the enumeration |
| SubsetCodec.DecodeEncode | joint_routing_channel_selection.py:100-117 | decoding an encoding gives back the part of the subset inside the enumeration |
| SubsetCodec.EncodeCongruent | joint_routing_channel_selection.py:100-107 | the encoding depends only on which enumerated elements the subset holds |
| SubsetCodec.EncodeDecode | joint_routing_channel_selection.py:100-117 | over a duplicate-free enumeration every index below 2^n is the encoding of its own decoding |
| SubsetCodec.EncodeSet | joint_routing_channel_selection.py:100-107 | the `1 << k` loop computes the encoding, which is below 2^n |
| SubsetCodec.DecodeSet | joint_routing_channel_selection.py:109-117 | the bit-testing loop computes the decoding |
| Clique.RunEnd | joint_routing_channel_selection.py:123-125 | the inner scan ends between its start and the end of the list |
| Clique.MaxCliqueUpToIsMax | joint_routing_channel_selection.py:119-130 | the scan returns 0 exactly when no run is eligible; otherwise it returns the size of an eligible run, which is at least that of every eligible run and at most len + 1 |
| Clique.MaxCliqueBounds | joint_routing_channel_selection.py:119-130 | `max_clique` terminates; it is 0 exactly when no run ends at or before loc, and otherwise it is the largest eligible run size, between 2 and len + 1 |
| Clique.ScanRun | joint_routing_channel_selection.py:122-125 | the `while` loop walking j forward finds the run's end |
| Clique.MaxCliqueScan | joint_routing_channel_selection.py:119-130 | the nested loops compute the maximum run size |
| Throughput.Path.constructor | joint_routing_channel_selection.py:17-23 | a `Path` holds the selections and throughput it was given |
| Throughput.Min | joint_routing_channel_selection.py:171 | `min` is one of its arguments and no larger than either |
| Throughput.Max | joint_routing_channel_selection.py:168 | `max` is one of its arguments and no smaller than either |
| Throughput.BaseClique | joint_routing_channel_selection.py:133-146 | the starting clique size is 1 to 3, and at least 2 on a path of more than one hop |
| Throughput.ProbesNeverMatch | joint_routing_channel_selection.py:152-160 | a probe link `Link(j, f, c)` never matches a selected link with a node-pair edge, so no earlier hop is added |
| Throughput.Divisor | joint_routing_channel_selection.py:164-168 | a link's divisor is at least 1 and at least the base clique size |
| Throughput.SharesBounds | joint_routing_channel_selection.py:148-169 | on nonnegative capacities a hop's score is between 0 and the sum of its raw capacities |
| Throughput.CliqueCandidates | joint_routing_channel_selection.py:151-166 | the loops build the clique-candidate list: probe hops, then the hop, then a bridging-set match per link |
| Throughput.LinkShare | joint_routing_channel_selection.py:168-169 | a link contributes its capacity divided by its divisor |
| Throughput.ThroughputForPath | joint_routing_channel_selection.py:132-171 | the path's throughput becomes the smaller of its old value and the last hop's score, so it never rises |
| SubsetDp.Offer | joint_routing_channel_selection.py:225-227 | after an offer the cell exists and is at least as good as both the offer and the old cell |
| SubsetDp.OfferCells | joint_routing_channel_selection.py:225-227 | an offer fills an empty cell, replaces a cell only on a strictly higher throughput, and touches no other cell |
| SubsetDp.FreshCells | joint_routing_channel_selection.py:193-194 | hop 0's table has exactly the cells 0..n-1, each a fresh path |
| SubsetDp.Terminals | joint_routing_channel_selection.py:255-264 | there is one terminal candidate per state of the last table, scored by the terminal rule |
| SubsetDp.OfferAllSnoc | joint_routing_channel_selection.py:225-249 | offering one more candidate is one more cell update |
| SubsetDp.HopStops | joint_routing_channel_selection.py:207 | a missing previous state (the KeyError) ends the hop, and later states change nothing |
| SubsetDp.TableStops | joint_routing_channel_selection.py:198-207 | once a hop stops on a missing state, every later hop stops there too |
| SubsetDp.BestStops | joint_routing_channel_selection.py:255-257 | once the final scan stops on a missing state, scanning further changes nothing |
| SubsetDp.OfferAllDominates | joint_routing_channel_selection.py:225-249 | offers keep every cell and never make a cell worse; each offered key ends at least as good as its offer |
| SubsetDp.OfferAllOrigin | joint_routing_channel_selection.py:225-249 | every cell afterwards holds its old candidate or one offered under its own key |
| SubsetDp.HopKeysInRange | joint_routing_channel_selection.py:205-249 | a built hop's keys index that hop's subsets |
| SubsetDp.TableKeysInRange | joint_routing_channel_selection.py:191-249 | every table is keyed by its hop's subset indices |
| SubsetDp.HopCapped | joint_routing_channel_selection.py:205-249 | when every offer is capped by the starting throughput, so is every cell of the hop |
| SubsetDp.TableCapped | joint_routing_channel_selection.py:191-249 | every cell of every table is capped by the starting throughput |
| SubsetDp.BestIsMax | joint_routing_channel_selection.py:252-271 | the scan finds nothing only on no states; it fails exactly at the first missing state; otherwise it returns a candidate attained by some state and at least every state's |
| SubsetDp.RunOptimum | joint_routing_channel_selection.py:252-271 | a successful run returns the largest terminal candidate over the last table, capped by the starting throughput |
| ChannelSelection.MakeSetup | joint_routing_channel_selection.py:177-187 | the setup has one hop per path edge, the bridging sets, and only positive-capacity available links |
| ChannelSelection.HopScoreNonnegative | joint_routing_channel_selection.py:148-169 | a hop score over nonnegative capacities is nonnegative |
| ChannelSelection.MakeSetupScores | joint_routing_channel_selection.py:177-187 | the setup scores with `throughput_for_path`, and its scores are nonnegative |
| ChannelSelection.MakeSetupDistinct | joint_routing_channel_selection.py:185-187 | every bridging set is a set |
| ChannelSelection.NewSuccessors | joint_routing_channel_selection.py:229-232 | one successor per subset index of the new part |
| ChannelSelection.MakeProgram | joint_routing_channel_selection.py:185-249 | hop i has 2^\|bridging set i\| states; the start throughput is the fresh path's |
| ChannelSelection.MakeProgramImplements | joint_routing_channel_selection.py:185-249 | the program's offers and terminal scores are the source's rules |
| ChannelSelection.NewSuccessorsAt | joint_routing_channel_selection.py:229-232 | successor l is the l-th subset of the new part joined with the old part |
| ChannelSelection.StateOfferKeys | joint_routing_channel_selection.py:210-232 | every successor key indexes a subset of the next bridging set |
| ChannelSelection.ExtendCapped | joint_routing_channel_selection.py:219-244 | a candidate never scores above the fresh-path throughput, and equals it when that is not positive |
| ChannelSelection.StateOffersCapped | joint_routing_channel_selection.py:205-249 | all of a state's offers are capped |
| ChannelSelection.TerminalCapped | joint_routing_channel_selection.py:255-264 | a terminal candidate never exceeds its state's throughput cap |
| ChannelSelection.MakeProgramKeys | joint_routing_channel_selection.py:205-249 | every offer is keyed within its hop |
| ChannelSelection.MakeProgramCapped | joint_routing_channel_selection.py:205-264 | all offers and terminal scores are capped |
| ChannelSelection.SelectChannelsOptimum | joint_routing_channel_selection.py:173-271 | on a nonempty path a successful `select_channels` returns the best terminal candidate over all states of the last hop, never above the starting throughput |
| ChannelSelection.ScoreCandidate | joint_routing_channel_selection.py:239-244 | a test path holds the previous selections plus the decoded subset's available links, scored by `throughput_for_path` |
| ChannelSelection.OnlyOffer | joint_routing_channel_selection.py:210-227 | without new links a state makes one offer, keyed by the surviving old part |
| ChannelSelection.NextOffer | joint_routing_channel_selection.py:229-249 | the l-th offer of a state with new links |
| ChannelSelection.StateOffersNew | joint_routing_channel_selection.py:228-232 | with new links a state makes 2^\|new part\| offers |
| ChannelSelection.OfferNew | joint_routing_channel_selection.py:229-249 | the loop over l offers every successor in order |
| ChannelSelection.OfferState | joint_routing_channel_selection.py:205-249 | the body over k offers all of the state's successors |
| ChannelSelection.BuildHop | joint_routing_channel_selection.py:198-249 | a hop's table is built from every previous state in index order, failing on a missing state |
| ChannelSelection.FreshTable | joint_routing_channel_selection.py:193-194 | hop 0 gets a fresh `Path` per state |
| ChannelSelection.TerminalScore | joint_routing_channel_selection.py:256-264 | a terminal candidate starts from the state's throughput and is scored with an empty bridging set |
| ChannelSelection.LastTable | joint_routing_channel_selection.py:189-249 | the hop loop produces the last hop's table |
| ChannelSelection.BestTerminal | joint_routing_channel_selection.py:252-266 | only a strictly higher candidate replaces the best so far |
| ChannelSelection.RunRules | joint_routing_channel_selection.py:189-271 | the method runs the dynamic program of the rules |
| ChannelSelection.SelectChannels | joint_routing_channel_selection.py:173-271 | 0.0 on an empty path, otherwise the dynamic program's result |
| GreedyChannels.RemoveSet | joint_routing_channel_selection.py:280-285 | one probe per previous link, each with the hop index as its edge |
| GreedyChannels.GreedySelection | joint_routing_channel_selection.py:277-291 | one selection per hop |
| GreedyChannels.GreedyHopChoice | joint_routing_channel_selection.py:286-291 | every hop's choice is within its available links |
| GreedyChannels.GreedyHopKeepsAll | joint_routing_channel_selection.py:283-291 | since probes never match real links, each hop keeps all its available links |
| GreedyChannels.GreedySelectionWithin | joint_routing_channel_selection.py:277-291 | every selected link is available at its hop |
| GreedyChannels.GreedySelectionIsAvailable | joint_routing_channel_selection.py:277-291 | the greedy selection equals the available links of every hop |
| GreedyChannels.GreedyThroughputIsMin | joint_routing_channel_selection.py:293-326 | the throughput is the minimum of the start and every hop's capacity sum |
| GreedyChannels.SelectChannelsGreedyBound | joint_routing_channel_selection.py:273-327 | on a nonempty path the result is the smallest of the start and each hop's total available capacity |
| GreedyChannels.ProbeLinks | joint_routing_channel_selection.py:280-285 | the loop builds the probe set |
| GreedyChannels.GreedySelect | joint_routing_channel_selection.py:279-291 | the first pass appends the greedy selection of every later hop |
| GreedyChannels.HopCapacity | joint_routing_channel_selection.py:309-325 | the inner loop sums the raw capacities |
| GreedyChannels.GreedyScore | joint_routing_channel_selection.py:293-326 | the second pass lowers the throughput to every hop's sum |
| GreedyChannels.SelectChannelsGreedy | joint_routing_channel_selection.py:273-327 | the method is the greedy selection, and an empty path is the missing-first-hop error |
| Sorting.SortPermutes | beam_scheduling.py:27 | `sorted` returns a permutation of its input |
| Sorting.SortOrdered | beam_scheduling.py:27 | `sorted` returns its input in key order, descending with `reverse=True` |
| Sorting.SortStable | beam_scheduling.py:27 | `sorted` is stable: pairs with equal keys keep their input order |
| Sorting.SortDistinct | directional_antenna.py:17 | sorting distinct pairs yields distinct pairs |
| BeamRules.ClearedCells | beam_scheduling.py:7-8 | after the reset every subscriber prefers no relay, and other entries are unchanged |
| BeamRules.Margins | beam_scheduling.py:14-24 | `vv` has one entry per subscriber |
| BeamRules.Claimed | beam_scheduling.py:26-30 | a pass claims at most `channels` subscribers |
| BeamRules.AssignCells | beam_scheduling.py:27-30 | claimed subscribers prefer the relay, and nothing else changes |
| BeamRules.ClaimStep | beam_scheduling.py:10-30 | a relay's pass keeps every preference a relay |
| BeamRules.ClaimAll | beam_scheduling.py:10-30 | after phase 1 every processed relay has a counter and every preference is a relay |
| BeamRules.CoveredBeams | beam_scheduling.py:37-41 | every beamset member has a `preferred_relay` entry, so the beam scan never fails on it |
| BeamRules.BearingAll | beam_scheduling.py:33-46 | the bearing phase leaves preferences alone and resets each relay's counter to 0 |
| BeamRules.ClaimChooseAll | beam_scheduling.py:98-132 | greedy2's relay loop keeps preferences relays and resets every counter to 0 |
| BeamRules.Settle | beam_scheduling.py:49-56 | settling one subscriber keeps the attributes well shaped |
| BeamRules.SettleAll | beam_scheduling.py:48-56 | phase 3 keeps the attributes well shaped |
| BeamRules.Offers | beam_scheduling.py:62-69 | a successful offer list has one entry per relay, and every relay has a best bearing |
| BeamRules.Pick | beam_scheduling.py:71-77 | the picked relay is one of the sorted offers |
| BeamRules.OffersAreRelays | beam_scheduling.py:62-69 | entry i is relay i with its offer |
| BeamRules.SortedOffersAreRelays | beam_scheduling.py:71 | sorting the offers keeps each entry a relay |
| BeamRules.Rescue | beam_scheduling.py:59-77 | a second chance keeps the attributes well shaped |
| BeamRules.RescueAll | beam_scheduling.py:58-77 | phase 4 keeps the attributes well shaped |
| BeamRules.ResetShaped | beam_scheduling.py:7-8 | after the reset every subscriber's preference is well shaped |
| BeamProperties.MarginsAt | beam_scheduling.py:14-24 | entry i pairs subscriber i with r's value less the value of its current relay, if it has one |
| BeamProperties.ClaimedTopPrefix | beam_scheduling.py:26-30 | on a descending order a pass claims a prefix of positive values, and it stops short of `channels` only when no positive value is left |
| BeamProperties.ClaimStepTakesBest | beam_scheduling.py:10-30 | a relay claims at most `channels` subscribers, all with positive marginal value, and none it leaves is worth more than one it takes |
| BeamProperties.ChooseLastMax | beam_scheduling.py:36-46 | the beam scan returns the last beam of largest value that reaches the bound, or the old best when none does (the two cases of `ScanResult`) |
| BeamProperties.LastMaxShift | beam_scheduling.py:44-46 | a last maximum of the tail is a last maximum of the whole beam list |
| BeamProperties.BearingStepBest | beam_scheduling.py:33-46 | the best bearing becomes the last beam of largest nonnegative value with that value; it is unchanged when no beam reaches 0; the counter resets to 0 |
| BeamProperties.Holders | beam_scheduling.py:54 | the count of a relay's subscribers is at most the number of subscribers |
| BeamProperties.SettleAllCells | beam_scheduling.py:48-56 | phase 3 keeps a subscriber's relay exactly when the subscriber is in its best beam, and raises each counter by the subscribers kept; it fails exactly on a relay without a best bearing |
| BeamProperties.PickFirstFit | beam_scheduling.py:71-77 | the scan takes the first relay with a positive offer and a spare channel, and finds none only when none fits |
| BeamProperties.SortedOffers | beam_scheduling.py:61-71 | the sorted offers are exactly every relay's offer |
| BeamProperties.OffersFail | beam_scheduling.py:62-64 | building offers fails only at a relay without a best bearing |
| BeamProperties.NoRelayFits | beam_scheduling.py:71-77 | an unpicked subscriber has no relay with a positive offer and a spare channel |
| BeamProperties.PickedRelayBest | beam_scheduling.py:71-77 | the picked relay fits and offers at least as much as every relay that fits |
| BeamProperties.RescueFails | beam_scheduling.py:62-64 | a failed rescue names a relay with no best bearing |
| BeamProperties.RescueStays | beam_scheduling.py:71-77 | a subscriber left unassigned by the rescue leaves the attributes unchanged, and then no relay offers it a positive value with a spare channel |
| BeamProperties.RescueTakes | beam_scheduling.py:71-77 | a subscriber the rescue assigns takes a fitting relay with the largest offer among fitting relays, and only that relay's counter grows, by one |
| BeamProperties.RescueChoice | beam_scheduling.py:58-77 | a rescue fails exactly on a missing best bearing; otherwise the subscriber stays unassigned only when no relay fits, or takes the best-offering fitting relay, whose counter alone grows by one |
| BeamTotals.ClaimAllBounded | beam_scheduling.py:10-30 | after phase 1 no relay is preferred by more than `channels` subscribers |
| BeamTotals.RescueBounded | beam_scheduling.py:74-76 | a rescue keeps every counter at most `channels` |
| BeamTotals.RescueTallied | beam_scheduling.py:74-76 | a rescue keeps every counter equal to the relay's number of subscribers |
| BeamTotals.RescueAllBounded | beam_scheduling.py:58-77 | phase 4 keeps every counter at most `channels` |
| BeamTotals.RescueAllTallied | beam_scheduling.py:58-77 | phase 4 keeps counters equal to subscriber counts |
| BeamTotals.Greedy1Capacity | beam_scheduling.py:6-92 | greedy1 leaves each relay's `allocated_channels` equal to the subscribers preferring it and at most `channels` |
| BeamTotals.Greedy2Capacity | beam_scheduling.py:94-168 | greedy2 leaves each relay's `allocated_channels` at most `channels` |
| BeamTotals.ValueNonnegative | beam_scheduling.py:18-20 | `ql * min(ql, rate * slot)` is nonnegative on nonnegative inputs |
| BeamTotals.ObjectiveNonnegative | beam_scheduling.py:80-92 | the objective is nonnegative on nonnegative inputs |
| BeamTotals.GreedyObjectiveNonnegative | beam_scheduling.py:6-168 | both allocators return a nonnegative objective |
| BeamScheduler.SettleAllStops | beam_scheduling.py:52 | a KeyError in phase 3 ends the run |
| BeamScheduler.RescueAllStops | beam_scheduling.py:64 | a KeyError in phase 4 ends the run |
| BeamScheduler.ObjectiveStops | beam_scheduling.py:85 | a KeyError in the objective ends the run |
| BeamScheduler.OffersStop | beam_scheduling.py:64 | a KeyError while building offers ends the run |
| BeamScheduler.Nodes.constructor | beam_scheduling.py:7-13 | the node attributes start as given |
| BeamScheduler.Nodes.ResetPreferred | beam_scheduling.py:7-8 | the loop clears every subscriber's preference |
| BeamScheduler.Nodes.MarginalValues | beam_scheduling.py:14-24 | the loop computes `vv` |
| BeamScheduler.Nodes.ClaimSubscribers | beam_scheduling.py:26-30 | the loop assigns the claimed subscribers |
| BeamScheduler.Nodes.ClaimPass | beam_scheduling.py:10-30 | one relay iteration performs the claim step |
| BeamScheduler.Nodes.ClaimPhase | beam_scheduling.py:10-30 | the relay loop performs phase 1 |
| BeamScheduler.Nodes.BeamsetValue | beam_scheduling.py:38-43 | the loop sums a beamset's value |
| BeamScheduler.Nodes.ChooseBearing | beam_scheduling.py:34-46 | one relay's bearing choice |
| BeamScheduler.Nodes.BearingPhase | beam_scheduling.py:33-46 | the relay loop performs phase 2 |
| BeamScheduler.Nodes.ClaimChooseRelay | beam_scheduling.py:98-132 | one relay's turn of greedy2's loop: its claims, then its bearing, as one more step of the rules |
| BeamScheduler.Nodes.ClaimChoosePhase | beam_scheduling.py:98-132 | greedy2's combined relay loop |
| BeamScheduler.Nodes.SettlePhase | beam_scheduling.py:48-56 | the subscriber loop performs phase 3, or reports its KeyError |
| BeamScheduler.Nodes.RescueOffers | beam_scheduling.py:61-69 | the loop builds each relay's offer |
| BeamScheduler.Nodes.TakeFirstFit | beam_scheduling.py:71-77 | the loop with `break` assigns the first fitting relay and bumps only its counter |
| BeamScheduler.Nodes.RescueSubscriber | beam_scheduling.py:59-77 | one subscriber's second chance |
| BeamScheduler.Nodes.RescuePhase | beam_scheduling.py:58-77 | the subscriber loop performs phase 4 |
| BeamScheduler.Nodes.ObjectiveSum | beam_scheduling.py:80-92 | the loop sums the objective |
| BeamScheduler.Nodes.FinishPhases | beam_scheduling.py:58-92 | phases 4 and 5 |
| BeamScheduler.Nodes.Greedy1 | beam_scheduling.py:6-92 | `greedy1` returns the objective and leaves the node attributes as its rules say |
| BeamScheduler.Nodes.Greedy2 | beam_scheduling.py:94-168 | `greedy2` likewise |
| NetworkRules.RateTier | network.py:211-227 | the rate is one of the six tiers, between 0 and 45 Mbit/s, and 0 exactly when pathloss exceeds 126 dB |
| NetworkRules.RateTierMonotone | network.py:214-225 | more pathloss never gives a higher rate |
| NetworkRules.RowSumWithin | network.py:243-244 | a band of entries within [0, hi] sums to within [0, n·hi] |
| NetworkRules.TableSumWithin | network.py:239-245 | a table with entries in [0, hi] sums to between 0 and hi per entry |
| NetworkRules.UniformRowSum | network.py:152-153 | a band filled at one rate sums to the channel count times that rate |
| NetworkRules.InitialTableSum | network.py:146-153 | a fresh edge's capacity is `channels` times each band's rate, over the three bands, and the table has 3·channels entries |
| NetworkRules.Weight | network.py:247-251 | the weight and the capacity add up to the peak capacity 45e6 · 3 · channels |
| NetworkRules.WeightWithin | network.py:247-251 | a table of 3·channels entries within [0, peak] has a weight between 0 and the peak capacity |
| NetworkRules.InitialWeightWithin | network.py:143-153 | a freshly initialised edge has a weight between 0 and the peak capacity |
| NetworkRules.Put | network.py:316 | after `d[k] = v` on an OrderedDict the key maps to v and other keys are unchanged; a new key is appended at the end, and a present key is replaced where it stands, every key keeping its position |
| NetworkRules.GetFound | network.py:316 | a lookup that succeeds finds an item of the dictionary |
| NetworkRules.GetPresent | network.py:316 | a key that has an item is found |
| NetworkRules.Mod360 | network.py:321-322 | Python's float `% 360` lies in [0, 360) and differs from its argument by a whole multiple of 360 |
| NetworkRules.BeamOfInRange | network.py:330-333 | `beam_index` puts a bearing in [0, 360) in one of the sectors 1..beams |
| NetworkRules.BeamOfNorth | network.py:330-333 | an input bearing of exactly 360 gets sector beams + 1, one past the last |
| NetworkRules.WindowHas | network.py:323-326 | the window holds exactly the recorded subscribers whose bearing is strictly between left and right |
| NetworkRules.NorthWindowEmpty | network.py:320-326 | a beam straddling north (bearing below theta/2 or above 360 - theta/2) has an empty window |
| NetworkRules.BearingsSound | network.py:308-316 | every recorded subscriber is reached at a positive rate and filed under its own bearing, and every such subscriber's bearing is recorded |
| NetworkRules.StoreWindowsAt | network.py:320-328 | after a relay's turn, bearing k holds its window exactly when that window is nonempty, and otherwise keeps what it had |
| NetworkRules.StoreWindowsOthers | network.py:320-328 | a relay's turn leaves every other relay's beamsets alone |
| NetworkRules.WindowSound | network.py:311-326 | members of a window are reachable subscribers |
| NetworkRules.StoreSound | network.py:327-328 | storing a sound beamset keeps all beamsets sound |
| NetworkRules.StoreWindowsSound | network.py:320-328 | a relay's turn keeps the beamsets sound |
| NetworkRules.AllBeamsetsAt | network.py:307-328 | every relay ends with each nonempty window of its bearings stored under that bearing |
| NetworkRules.AllBeamsetsSound | network.py:307-328 | all beamsets are sound: nonempty windows of bearings in [0, 360) of reachable subscribers |
| Graphs.Pairs | network.py:134 | a node lists exactly its neighbours not seen earlier |
| Graphs.EdgeListMembers | network.py:134 | an edge is listed exactly when it runs from a node to a neighbour that does not precede it |
| Graphs.EdgeListDistinct | network.py:134 | `edges()` names no edge twice |
| Graphs.EdgeListOriented | network.py:134 | `edges()` never names an edge in both directions |
| Graphs.EdgeListLinked | network.py:134 | every listed edge is an edge of the graph |
| Graphs.UnlinkEdges | network.py:136 | removing an edge keeps the graph undirected over the same nodes and drops exactly that edge in its two directions |
| Graphs.UnlinkAllEdges | directional_antenna.py:24-26 | removing the edges from n to each node of a list keeps the graph undirected over the same nodes and drops exactly those edges, in both directions |
| Graphs.DropIsolated | network.py:139-141 | removing a node without neighbours keeps the graph undirected over the remaining nodes |
| Graphs.EdgeListCovers | network.py:134-136 | every edge of the graph is listed in one of its directions |
| NetworkBase.Network.constructor | network.py:80-89 | every node starts with no active beams and no beamsets |
| NetworkBase.Network.Throughput | network.py:211-227 | the rate is 0 exactly when the pathloss exceeds 126 dB, and it never exceeds the peak |
| NetworkBase.Network.InitEdge | network.py:143-153 | the edge gets a fresh table of each band's rate on every channel, in both directions, and no other edge changes |
| NetworkBase.Network.BottleneckCapacity | network.py:239-245 | the total is the sum of every entry, and between 0 and the peak per entry when the entries are |
| NetworkBase.Network.BottleneckWeight | network.py:247-251 | weight plus capacity is the peak capacity, and the weight lies in [0, peak] on a well-formed table |
| NetworkBase.Network.RemoveEdge | network.py:136 | exactly the edge in both directions disappears, and no node and no other edge |
| NetworkBase.Network.PruneEdge | network.py:156-158 | one turn of the dead-edge loop: the edge goes exactly when its capacity is zero, the earlier edges stay settled and the later ones stay present |
| NetworkBase.Network.PrunedAll | network.py:155-158 | once every listed edge is settled, every edge of the starting graph remains exactly when it is live |
| NetworkBase.Network.PruneDeadEdges | network.py:155-158 | afterwards an edge remains exactly when it existed and its capacity is nonzero |
| NetworkBase.Network.RemoveNode | network.py:141 | a node without neighbours leaves the node list, the graph and the beam counts, and the network stays valid |
| NetworkBase.Network.PruneIsolatedNodes | network.py:139-141 | exactly the nodes with no neighbours disappear, and the others keep their neighbours and beams |
| NetworkBase.Network.InitializeEdges | network.py:130-141 | the live edges remain, a node remains exactly when it had a live edge, and every remaining node keeps its active beams |
| NetworkBase.Network.RelayBearings | network.py:308-316 | the loop records the bearings of the reachable subscribers |
| NetworkBase.Network.WindowMembers | network.py:323-326 | the loop collects the window |
| NetworkBase.Network.StoreWindow | network.py:321-328 | one bearing's window is stored when it is nonempty |
| NetworkBase.Network.RelayBeamsets | network.py:310-328 | one relay's turn over the 360 bearings |
| NetworkBase.Network.Beamsets | network.py:307-328 | `beamsets` stores every nonempty window of every relay and keeps the beamsets sound |
| DirectionalAntenna.Prefix | directional_antenna.py:17 | `xs[0:K]` is the first K elements, fewer when the list is short, and all but the last -K for negative K |
| DirectionalAntenna.Distances | directional_antenna.py:16 | each neighbour is paired with its distance, in neighbour order |
| DirectionalAntenna.ByDistanceEntry | directional_antenna.py:16-17 | every sorted pair is a neighbour with its own distance |
| DirectionalAntenna.ByDistanceHas | directional_antenna.py:16-17 | every neighbour appears in the sorted list |
| DirectionalAntenna.NearestMembers | directional_antenna.py:14-17 | the kept nodes are distinct neighbours, as many as the slice allows |
| DirectionalAntenna.NearestAscending | directional_antenna.py:17 | kept neighbours come nearest first |
| DirectionalAntenna.NearestFirst | directional_antenna.py:17 | no dropped neighbour is nearer than a kept one |
| DirectionalAntenna.BeamsTowardMembers | directional_antenna.py:20-21 | the added beams are exactly the sectors of the kept neighbours |
| DirectionalAntenna.AddBeams | directional_antenna.py:20-21 | the node's active beams gain exactly the kept neighbours' sectors |
| DirectionalAntenna.DropEdges | directional_antenna.py:24-26 | exactly the edges from n to the removed nodes disappear; the new adjacency is Graphs.UnlinkAll of the old one |
| DirectionalAntenna.KnnStep | directional_antenna.py:14-26 | the node keeps exactly its K nearest neighbours as edges and gains their beams; the new adjacency is KnnAdj of the old one |
| DirectionalAntenna.KnnTurn | directional_antenna.py:14-26 | one node's turn sets the adjacency to KnnAdj (the node unlinked from every neighbour outside its K nearest) and adds to its beams the beams toward its K nearest; the state is that of KnnRun one turn further |
| DirectionalAntenna.Knn | directional_antenna.py:8-29 | the final adjacency and active beams are exactly KnnRun over all nodes: every node in turn keeps its K nearest neighbours in the graph as the earlier turns left it, and gains a beam toward each; KNN only removes edges and only adds beams, and afterwards, for K >= 0, no node has more than K neighbours |
| DirectionalAntenna.KnnAdjEdges | directional_antenna.py:14-26 | one turn on values keeps the graph undirected over the same nodes with distinct neighbour lists, drops exactly the edges between the node and its neighbours outside the K nearest, and leaves the node at most K neighbours |
| DirectionalAntenna.KnnTurnBounds | directional_antenna.py:14-26 | one turn on values keeps a reachable state reachable and extends the degree bound to the node whose turn it was |
| DirectionalAntenna.KnnRunBounds | directional_antenna.py:12-26 | for every starting undirected graph, every prefix of KNN's turns keeps the graph undirected over the same nodes, only removes edges, only adds beams, and leaves each node that had its turn at most K neighbours |

## Left out

- Printing: the `print` and `pprint` calls are diagnostics only and are not modelled.
- `rcs_path`, `combinations` and `PCS` are not modelled. They are unfinished in the source: `combinations` reads an undefined name, and `rcs_path` uses `add` on a list.
- `rcs_add_edge_weights` is not modelled. It reads an undefined `d` and is not part of channel selection.
- The capacity and interference tables are given values. A capacity lookup of an edge or band missing from the table (a KeyError) is outside the model.
- `select_channels` builds its test paths as `[previous_best.selected[:]]`, a list nested inside another list. The model appends to a flat copy of the previous selections. The `.selected` read on a set (line 220) is modelled as the set itself. Both follow the evident intent.
- On an empty path `select_channels_greedy` raises a KeyError when it reads the first hop. The model returns the error outcome `NoFirstHop` rather than the 0.0 that `select_channels` returns.
- The clique sizes `select_channels_greedy` computes (lines 294-324) are never used: it adds raw capacities. So the model does not compute them.
- Python 2 compares every tuple as greater than every integer. The model states this as `GreaterThanHop(Pair, i) = true`.
- Pathloss, bearing, distance, queue lengths and rates are given functions of the nodes. The logarithms, square roots and trigonometry behind them are floating point and are not modelled. Reals stand for floats throughout, with no rounding.
- The model's `bearing` is any given function, so its values can lie anywhere. The source's formula (network.py:194-195) takes the acos of (y2-y1)/(distance*1000), where distance is the Euclidean distance itself. Its values therefore stay within about 0.06 degrees of 90 or 270, and NetworkRules.BeamOfNorth is about an input the formula does not produce.
- Knn: requires `beams != 0`. The source divides by `beams` inside `beam_index` (network.py:332) and raises ZeroDivisionError only when some node keeps a neighbour. With `beams == 0` and no neighbour kept (K = 0, or no node with more than -K neighbours for a negative K), the source completes, and the model does not cover that run.
- `beam_index` is modelled in degrees: the bearing is divided by 360/beams. The source works in radians through `math.radians` and `math.pi`, which can round differently at a sector boundary.
- `primary_interference` and the random parts of the `Network` constructor are not modelled. These are node placement, relay choice and random interference. The model's `initialize_edges` is therefore the two pruning loops on a given network. The constructor's graph building is not modelled either: the source links every pair of nodes (network.py:53-57), or in radial mode only node 0 to each relay (network.py:122-124), and gives every edge its `init_edge` table (network.py:127-128). The model accepts any undirected adjacency and any tables, which covers those graphs.
- The `distance` attribute `init_edge` writes is not modelled. Only the channel table is.
- In the beam schedulers, the final `add_edge` / `init_edge` calls (lines 89-90 and 165-166) are not modelled. They only touch the graph.
- `update_throughput_for_nodes` is not modelled. Its result is what `KNN` returns, so `Knn` returns nothing.
- `MST` is not modelled. It relies on networkx's minimum spanning tree.
- The CPLEX-based optimal allocator (beam_scheduling.py from line 170) is not modelled. It calls into an external solver.
- `beam_covers` is not modelled: it reads an undefined `thata` and has no caller. `interference`, `draw` and `save` are not modelled either. They compute the interference table the model takes as given, or do plotting and file I/O.
- The iteration order of Python 2 dicts and sets of nodes is given as a sequence: nodes, neighbours, relays, subscribers and the members of a beamset.
- Each relay's beamsets (`self.beamset[relay]`, a plain dict from network.py:80) are kept in ascending-bearing order, the order `beamsets` stores them in. The source iterates that dict in hash order. `greedy1` and `greedy2` scan it with a `>=` tie-break (beam_scheduling.py:37-46 and 123-132), so among bearings of equal value the model's order decides which one becomes the best bearing.
- `KNN` removes the nodes of `to_remove` in neighbour order in the model. The source uses set order. The edges that remain are the same for every order, as DirectionalAntenna.KnnAdjEdges states.
- The sets of links have one fixed order in the model, not Python's hash order. Available links go by band (700 MHz, then 2.4 GHz, then 5.8 GHz) and then by channel, ascending (joint_routing_channel_selection.py:62-70).
- A bridging set lists the hop's own available links first, then the self-conflicting links (joint_routing_channel_selection.py:82-98).
- `new_part` and `old_part` keep the order of bridging set i (joint_routing_channel_selection.py:200-201).
- These link orders decide which bit of `encode_set` and `decode_set` stands for which link. Under another order the same subsets get other indices.
- They also decide which candidate wins a tie in `select_channels`, because a later candidate replaces a stored one only on a strictly greater throughput (lines 225-227 and 247-249). Where the source's hash order differs, it can keep a different candidate of equal throughput.
- The `vv` dicts of `greedy1` and `greedy2` (beam_scheduling.py:27 and 71) are listed in subscriber order and in relay order. `sorted` is stable, so among equal values the model's order decides who is served first. The source follows the dict's hash order there.
- A beam that straddles north has its left edge past its right edge in `beamsets`, so its window is always empty. This happens at a bearing below theta/2 or above 360 - theta/2. The model keeps this behaviour as written, and NetworkRules.NorthWindowEmpty states it.
- BeamTotals.Greedy2Capacity: it bounds greedy2's counters by `channels` but does not equate them with subscriber counts. greedy2 resets a relay's counter after its own claims, so the two differ.
- Reading a missing key of a `defaultdict` inserts an empty entry in the source. The model reads such a key as empty without inserting it.

=== FILE: antenna.dfy ===
/** The directional antenna algorithm of directional_antenna.py: each node
    keeps its K nearest neighbours, points a beam at each of them and drops
    its other edges. */
module DirectionalAntenna {
  import opened SeqSets
  import opened Links
  import opened Sorting
  import opened NetworkRules
  import opened NetworkBase
  import Graphs

  /** Python's slice `xs[0:k]`: the first k elements, or, for a negative k,
      all but the last -k. */
  function Prefix<T>(xs: seq<T>, k: int): (r: seq<T>)
    ensures |r| == if k >= 0 then (if k < |xs| then k else |xs|) else (if |xs| + k > 0 then |xs| + k else 0)
    ensures r == xs[..|r|]
  {
    if k >= |xs| then xs
    else if k >= 0 then xs[..k]
    else if |xs| + k >= 0 then xs[..|xs| + k]
    else []
  }

  /** Each neighbour with its distance from n, in neighbour order. */
  function Distances(n: Node, nbrs: seq<Node>, distance: (Node, Node) -> real): (r: seq<(Node, real)>)
    ensures |r| == |nbrs|
    ensures forall i :: 0 <= i < |nbrs| ==> r[i] == (nbrs[i], distance(n, nbrs[i]))
  {
    if nbrs == [] then [] else [(nbrs[0], distance(n, nbrs[0]))] + Distances(n, nbrs[1..], distance)
  }

  /** The neighbours of n sorted by distance, nearest first, equal
      distances in neighbour order. */
  function ByDistance(n: Node, nbrs: seq<Node>, distance: (Node, Node) -> real): seq<(Node, real)> {
    SortBy(Distances(n, nbrs, distance), false)
  }

  /** The K nearest neighbours that KNN keeps for n. */
  function Nearest(n: Node, nbrs: seq<Node>, distance: (Node, Node) -> real, k: int): seq<Node> {
    Prefix(Items(ByDistance(n, nbrs, distance)), k)
  }

  /** A pair of the sorted list is a neighbour with its own distance. */
  lemma ByDistanceEntry(n: Node, nbrs: seq<Node>, distance: (Node, Node) -> real, e: (Node, real))
    requires e in ByDistance(n, nbrs, distance)
    ensures e.0 in nbrs && e.1 == distance(n, e.0)
  {
    SortPermutes(Distances(n, nbrs, distance), false);
    assert e in multiset(Distances(n, nbrs, distance));
  }

  /** Every neighbour has its place in the sorted list. */
  lemma ByDistanceHas(n: Node, nbrs: seq<Node>, distance: (Node, Node) -> real, m: Node)
    requires m in nbrs
    ensures exists q :: 0 <= q < |nbrs| && ByDistance(n, nbrs, distance)[q] == (m, distance(n, m))
  {
    var ds := Distances(n, nbrs, distance);
    SortPermutes(ds, false);
    var i :| 0 <= i < |nbrs| && nbrs[i] == m;
    assert ds[i] == (m, distance(n, m));
    assert (m, distance(n, m)) in multiset(ByDistance(n, nbrs, distance));
  }

  /** The kept neighbours are distinct neighbours of n, and as many as the
      slice asks for. */
  lemma {:induction false} NearestMembers(n: Node, nbrs: seq<Node>, distance: (Node, Node) -> real, k: int)
    requires Distinct(nbrs)
    ensures var r := Nearest(n, nbrs, distance, k);
            Distinct(r) && (forall m :: m in r ==> m in nbrs)
            && |r| == if k >= 0 then (if k < |nbrs| then k else |nbrs|) else (if |nbrs| + k > 0 then |nbrs| + k else 0)
  {
    var ds := Distances(n, nbrs, distance);
    var ys := ByDistance(n, nbrs, distance);
    var items := Items(ys);
    assert Distinct(ds) by {
      forall i, j | 0 <= i < j < |ds|
        ensures ds[i] != ds[j]
      {
        assert ds[i].0 == nbrs[i] && ds[j].0 == nbrs[j];
      }
    }
    SortDistinct(ds, false);
    forall i, j | 0 <= i < j < |items|
      ensures items[i] != items[j]
    {
      ByDistanceEntry(n, nbrs, distance, ys[i]);
      ByDistanceEntry(n, nbrs, distance, ys[j]);
    }
    var r := Nearest(n, nbrs, distance, k);
    forall m | m in r
      ensures m in nbrs
    {
      var p :| 0 <= p < |r| && r[p] == m;
      assert items[p] == m;
      ByDistanceEntry(n, nbrs, distance, ys[p]);
    }
    forall i, j | 0 <= i < j < |r|
      ensures r[i] != r[j]
    {
      assert r[i] == items[i] && r[j] == items[j];
    }
  }

  /** The kept neighbours come nearest first. */
  lemma NearestAscending(n: Node, nbrs: seq<Node>, distance: (Node, Node) -> real, k: int, i: nat, j: nat)
    requires i < j < |Nearest(n, nbrs, distance, k)|
    ensures var r := Nearest(n, nbrs, distance, k);
            distance(n, r[i]) <= distance(n, r[j])
  {
    var ys := ByDistance(n, nbrs, distance);
    SortOrdered(Distances(n, nbrs, distance), false);
    assert !Ahead(ys[j].1, ys[i].1, false);
    ByDistanceEntry(n, nbrs, distance, ys[i]);
    ByDistanceEntry(n, nbrs, distance, ys[j]);
  }

  /** No dropped neighbour is nearer than a kept one. */
  lemma NearestFirst(n: Node, nbrs: seq<Node>, distance: (Node, Node) -> real, k: int, x: Node, m: Node)
    requires x in Nearest(n, nbrs, distance, k) && m in nbrs && m !in Nearest(n, nbrs, distance, k)
    ensures distance(n, x) <= distance(n, m)
  {
    var ys := ByDistance(n, nbrs, distance);
    var r := Nearest(n, nbrs, distance, k);
    var p :| 0 <= p < |r| && r[p] == x;
    ByDistanceHas(n, nbrs, distance, m);
    var q :| 0 <= q < |nbrs| && ys[q] == (m, distance(n, m));
    assert forall t :: 0 <= t < |r| ==> r[t] == Items(ys)[t];
    assert Items(ys)[q] == m;
    assert p < |r| <= q;
    SortOrdered(Distances(n, nbrs, distance), false);
    assert !Ahead(ys[q].1, ys[p].1, false);
    ByDistanceEntry(n, nbrs, distance, ys[p]);
  }

  /** The beams n points at the given neighbours. */
  function BeamsToward(net: Network, n: Node, kept: seq<Node>, beams: int): set<int>
    requires beams != 0
  {
    if kept == [] then {}
    else BeamsToward(net, n, kept[..|kept| - 1], beams) + {BeamOf(net.bearing(n, kept[|kept| - 1]), beams)}
  }

  /** The beams toward the kept neighbours are exactly the beams of their
      bearings. */
  lemma {:induction false} BeamsTowardMembers(net: Network, n: Node, kept: seq<Node>, beams: int, b: int)
    requires beams != 0
    ensures b in BeamsToward(net, n, kept, beams) <==> exists m :: m in kept && b == BeamOf(net.bearing(n, m), beams)
  {
    if kept != [] {
      var front := kept[..|kept| - 1];
      var last := kept[|kept| - 1];
      BeamsTowardMembers(net, n, front, beams, b);
      assert forall m :: m in kept <==> m in front || m == last;
    }
  }

  /** The beam loop of KNN: n gains a beam toward each kept neighbour. */
  method AddBeams(net: Network, n: Node, kept: seq<Node>, beams: int)
    requires n in net.activeBeams && beams != 0
    modifies net`activeBeams
    ensures net.activeBeams == old(net.activeBeams)[n := old(net.activeBeams[n]) + BeamsToward(net, n, kept, beams)]
  {
    assert old(net.activeBeams)[n] + {} == old(net.activeBeams)[n];
    assert kept[..0] == [];
    var i := 0;
    while i < |kept|
      invariant 0 <= i <= |kept|
      invariant net.activeBeams == old(net.activeBeams)[n := old(net.activeBeams[n]) + BeamsToward(net, n, kept[..i], beams)]
    {
      assert kept[..i + 1][..i] == kept[..i];
      assert BeamsToward(net, n, kept[..i + 1], beams) == BeamsToward(net, n, kept[..i], beams) + {BeamOf(net.bearing(n, kept[i]), beams)};
      ghost var prev := net.activeBeams;
      net.activeBeams := net.activeBeams[n := net.activeBeams[n] + {BeamOf(net.bearing(n, kept[i]), beams)}];
      assert prev[n] == old(net.activeBeams[n]) + BeamsToward(net, n, kept[..i], beams);
      assert net.activeBeams[n] == old(net.activeBeams[n]) + BeamsToward(net, n, kept[..i + 1], beams);
      i := i + 1;
    }
    assert kept[..i] == kept;
  }

  /** The removal loop of KNN: n loses its edge to each node of toRemove. */
  method DropEdges(net: Network, n: Node, toRemove: seq<Node>)
    requires net.Valid() && Distinct(toRemove) && forall m :: m in toRemove ==> net.Linked(n, m)
    modifies net`adj
    ensures net.Valid() && net.adj.Keys == old(net.adj.Keys)
    ensures forall a, b :: net.Linked(a, b) <==>
              old(net.Linked(a, b)) && (a == n ==> b !in toRemove) && (b == n ==> a !in toRemove)
    ensures forall p :: p in net.adj ==> |net.adj[p]| <= |old(net.adj[p])|
    ensures net.adj == Graphs.UnlinkAll(old(net.adj), n, toRemove)
  {
    var j := 0;
    while j < |toRemove|
      invariant 0 <= j <= |toRemove|
      invariant net.Valid() && net.adj.Keys == old(net.adj.Keys)
      invariant net.adj == Graphs.UnlinkAll(old(net.adj), n, toRemove[..j])
      invariant forall a, b :: net.Linked(a, b) <==>
                  old(net.Linked(a, b)) && (a == n ==> b !in toRemove[..j]) && (b == n ==> a !in toRemove[..j])
      invariant forall p :: p in net.adj ==> |net.adj[p]| <= |old(net.adj[p])|
    {
      var m := toRemove[j];
      assert m !in toRemove[..j] by {
        forall q | 0 <= q < j
          ensures toRemove[..j][q] != m
        {
          assert toRemove[q] != toRemove[j];
        }
      }
      assert net.Linked(n, m);
      net.RemoveEdge(n, m);
      assert toRemove[..j + 1] == toRemove[..j] + [m];
      assert toRemove[..j + 1][..j] == toRemove[..j];
      j := j + 1;
    }
    assert toRemove[..j] == toRemove;
  }

  /** One node's turn of `KNN`: n keeps its K nearest neighbours, gains a
      beam toward each of them, and loses its edges to all the others. */
  method KnnStep(net: Network, n: Node, k: int, beams: int) returns (kept: seq<Node>)
    requires net.Valid() && n in net.adj && beams != 0
    modifies net`adj, net`activeBeams
    ensures kept == Nearest(n, old(net.adj[n]), net.distance, k)
    ensures net.Valid() && net.adj.Keys == old(net.adj.Keys)
    ensures net.adj == KnnAdj(old(net.adj), n, net.distance, k)
    ensures net.activeBeams == old(net.activeBeams)[n := old(net.activeBeams[n]) + BeamsToward(net, n, kept, beams)]
    ensures forall a, b :: net.Linked(a, b) <==> old(net.Linked(a, b)) && (a == n ==> b in kept) && (b == n ==> a in kept)
    ensures forall p :: p in old(net.adj) ==> |net.adj[p]| <= |old(net.adj)[p]|
    ensures Within(net.adj, old(net.adj))
    ensures |net.adj[n]| <= |kept|
    ensures k >= 0 ==> |net.adj[n]| <= k
  {
    var nbrs := net.adj[n];
    kept := Prefix(Items(SortBy(Distances(n, nbrs, net.distance), false)), k);
    NearestMembers(n, nbrs, net.distance, k);
    AddBeams(net, n, kept, beams);
    var toRemove := Minus(net.adj[n], kept);
    MinusMembers(net.adj[n], kept);
    MinusDistinct(net.adj[n], kept);
    DropEdges(net, n, toRemove);
    forall b | b in net.adj[n]
      ensures b in kept
    {
      assert net.Linked(n, b);
    }
    DistinctShorter(net.adj[n], kept);
    forall a | a in net.adj
      ensures a in old(net.adj) && forall b :: b in net.adj[a] ==> b in old(net.adj)[a]
    {
      forall b | b in net.adj[a]
        ensures b in old(net.adj)[a]
      {
        assert net.Linked(a, b);
      }
    }
  }

  /** Every edge of the first adjacency is an edge of the second. */
  ghost predicate Within(adj: map<Node, seq<Node>>, adj0: map<Node, seq<Node>>) {
    forall a :: a in adj ==> a in adj0 && forall b :: b in adj[a] ==> b in adj0[a]
  }

  /** The adjacency after n's turn of `KNN`: n is unlinked from every
      neighbour outside its K nearest. */
  function KnnAdj(adj: map<Node, seq<Node>>, n: Node, distance: (Node, Node) -> real, k: int): map<Node, seq<Node>> {
    if n in adj then Graphs.UnlinkAll(adj, n, Minus(adj[n], Nearest(n, adj[n], distance, k))) else adj
  }

  /** n's turn of `KNN` on an undirected graph keeps it undirected over
      the same nodes, drops exactly the edges between n and the neighbours
      outside its K nearest, and leaves n at most K neighbours. */
  lemma KnnAdjEdges(nodes: seq<Node>, adj: map<Node, seq<Node>>, n: Node, distance: (Node, Node) -> real, k: int)
    requires Graphs.Undirected(nodes, adj) && n in adj && forall a :: a in adj ==> Distinct(adj[a])
    ensures var r := KnnAdj(adj, n, distance, k);
      var kept := Nearest(n, adj[n], distance, k);
      && Graphs.Undirected(nodes, r) && r.Keys == adj.Keys
      && (forall a :: a in r ==> Distinct(r[a]) && |r[a]| <= |adj[a]|)
      && (forall a, b :: Graphs.HasEdge(r, a, b) <==>
            Graphs.HasEdge(adj, a, b) && (a == n ==> b in kept) && (b == n ==> a in kept))
      && (k >= 0 ==> |r[n]| <= k)
  {
    var kept := Nearest(n, adj[n], distance, k);
    var toRemove := Minus(adj[n], kept);
    MinusMembers(adj[n], kept);
    Graphs.UnlinkAllEdges(nodes, adj, n, toRemove);
    var r := KnnAdj(adj, n, distance, k);
    assert r == Graphs.UnlinkAll(adj, n, toRemove);
    forall a, b
      ensures Graphs.HasEdge(r, a, b) <==>
                Graphs.HasEdge(adj, a, b) && (a == n ==> b in kept) && (b == n ==> a in kept)
    {
      if b == n && Graphs.HasEdge(adj, a, b) {
        assert a in adj[n];
      }
    }
    forall b | b in r[n]
      ensures b in kept
    {
      assert Graphs.HasEdge(r, n, b);
    }
    DistinctShorter(r[n], kept);
  }

  /** A state `KNN` can reach from adj0 and beams0 after the first i turns
      over the nodes ns of an undirected graph: still undirected over the
      same nodes with distinct neighbour lists, and within the bounds
      `KnnBounds` states. */
  ghost predicate KnnState(adj0: map<Node, seq<Node>>, beams0: map<Node, set<int>>,
                           adj: map<Node, seq<Node>>, bm: map<Node, set<int>>, ns: seq<Node>, k: int, i: nat)
  {
    && Graphs.Undirected(ns, adj) && adj.Keys == adj0.Keys
    && (forall a :: a in adj ==> Distinct(adj[a]))
    && KnnBounds(adj0, beams0, adj, bm, ns, k, i)
  }

  /** Node ns[i]'s turn of `KNN`, on values, keeps the state reachable. */
  lemma KnnTurnBounds(net: Network, adj0: map<Node, seq<Node>>, beams0: map<Node, set<int>>,
                      r: (map<Node, seq<Node>>, map<Node, set<int>>), ns: seq<Node>, k: int, beams: int, i: nat)
    requires i < |ns| && beams != 0 && KnnState(adj0, beams0, r.0, r.1, ns, k, i)
    ensures var r' := KnnNext(net, r, ns[i], k, beams); KnnState(adj0, beams0, r'.0, r'.1, ns, k, i + 1)
  {
    var (adj, bm) := r;
    var n := ns[i];
    assert n in adj && n in bm;
    KnnAdjEdges(ns, adj, n, net.distance, k);
    var adj' := KnnAdj(adj, n, net.distance, k);
    var bm' := bm[n := bm[n] + BeamsToward(net, n, Nearest(n, adj[n], net.distance, k), beams)];
    assert KnnNext(net, r, n, k, beams) == (adj', bm');
    forall a | a in adj'
      ensures a in adj && forall b :: b in adj'[a] ==> b in adj[a]
    {
      forall b | b in adj'[a]
        ensures b in adj[a]
      {
        assert Graphs.HasEdge(adj', a, b);
      }
    }
    KnnBoundsStep(adj0, beams0, adj, bm, adj', bm', ns, k, i);
  }

  /** Every prefix of the turns of `KNN` over the nodes of an undirected
      graph reaches a `KnnState`: edges only removed, beams only added, at
      most K neighbours for each node that had its turn. */
  lemma {:induction false} KnnRunBounds(net: Network, adj0: map<Node, seq<Node>>, beams0: map<Node, set<int>>,
                                        ns: seq<Node>, k: int, beams: int, i: nat)
    requires i <= |ns| && beams != 0
    requires Graphs.Undirected(ns, adj0) && forall a :: a in adj0 ==> Distinct(adj0[a]) && a in beams0
    ensures var r := KnnRun(net, adj0, beams0, ns, k, beams, i);
      KnnState(adj0, beams0, r.0, r.1, ns, k, i)
  {
    if i == 0 {
      KnnStateStart(adj0, beams0, ns, k);
    } else {
      KnnRunBounds(net, adj0, beams0, ns, k, beams, i - 1);
      var r := KnnRun(net, adj0, beams0, ns, k, beams, i - 1);
      KnnTurnBounds(net, adj0, beams0, r, ns, k, beams, i - 1);
      assert KnnRun(net, adj0, beams0, ns, k, beams, i) == KnnNext(net, r, ns[i - 1], k, beams);
    }
  }

  /** Before any turn, the starting graph is a reachable state. */
  lemma KnnStateStart(adj0: map<Node, seq<Node>>, beams0: map<Node, set<int>>, ns: seq<Node>, k: int)
    requires Graphs.Undirected(ns, adj0) && forall a :: a in adj0 ==> Distinct(adj0[a]) && a in beams0
    ensures KnnState(adj0, beams0, adj0, beams0, ns, k, 0)
  {
  }

  /** The adjacency and the active beams after the first i nodes of ns
      took their turns of `KNN`, starting from adj0 and beams0: each node
      in turn gains a beam toward each of its K nearest neighbours in the
      graph as the earlier turns left it, and drops its other edges. */
  function KnnRun(net: Network, adj0: map<Node, seq<Node>>, beams0: map<Node, set<int>>, ns: seq<Node>,
                  k: int, beams: int, i: nat): (map<Node, seq<Node>>, map<Node, set<int>>)
    requires i <= |ns| && beams != 0
  {
    if i == 0 then (adj0, beams0) else KnnNext(net, KnnRun(net, adj0, beams0, ns, k, beams, i - 1), ns[i - 1], k, beams)
  }

  /** The adjacency and the active beams after n's turn of `KNN`: n gains a
      beam toward each of its K nearest neighbours and drops its other
      edges. */
  function KnnNext(net: Network, r: (map<Node, seq<Node>>, map<Node, set<int>>), n: Node, k: int, beams: int)
    : (map<Node, seq<Node>>, map<Node, set<int>>)
    requires beams != 0
  {
    var (adj, bm) := r;
    if n in adj && n in bm then
      (KnnAdj(adj, n, net.distance, k), bm[n := bm[n] + BeamsToward(net, n, Nearest(n, adj[n], net.distance, k), beams)])
    else r
  }

  /** `KNN`: every node in turn keeps only its K nearest neighbours and
      points a beam at each. Edges are only ever removed, beams only ever
      added, and afterwards no node has more than K neighbours. */
  method Knn(net: Network, k: int, beams: int)
    requires net.Valid() && beams != 0
    modifies net`adj, net`activeBeams
    ensures net.Valid() && net.adj.Keys == old(net.adj.Keys)
    ensures forall a, b :: net.Linked(a, b) ==> old(net.Linked(a, b))
    ensures forall p :: p in net.adj ==> old(net.activeBeams[p]) <= net.activeBeams[p]
    ensures k >= 0 ==> forall p :: p in net.adj ==> |net.adj[p]| <= k
    ensures (net.adj, net.activeBeams)
              == KnnRun(net, old(net.adj), old(net.activeBeams), net.nodes, k, beams, |net.nodes|)
  {
    ghost var adj0 := net.adj;
    ghost var beams0 := net.activeBeams;
    var ns := net.nodes;
    var i := 0;
    while i < |ns|
      invariant 0 <= i <= |ns|
      invariant net.adj.Keys == old(net.adj.Keys)
      invariant KnnUpTo(net, adj0, beams0, ns, k, beams, i)
    {
      KnnTurn(net, k, beams, adj0, beams0, ns, i);
      i := i + 1;
    }
    forall a, b | net.Linked(a, b)
      ensures old(net.Linked(a, b))
    {
      assert b in net.adj[a];
    }
    forall p | p in net.adj && k >= 0
      ensures |net.adj[p]| <= k
    {
      var q :| 0 <= q < |ns| && ns[q] == p;
    }
  }

  /** Progress of `KNN` after the first i nodes of ns took their turns:
      the network is valid, and its adjacency and active beams are those of
      the first i turns, within the bounds `KnnBounds` states. */
  ghost predicate KnnUpTo(net: Network, adj0: map<Node, seq<Node>>, beams0: map<Node, set<int>>, ns: seq<Node>,
                          k: int, beams: int, i: nat)
    reads net
  {
    && i <= |ns| && beams != 0 && net.Valid() && net.nodes == ns
    && (net.adj, net.activeBeams) == KnnRun(net, adj0, beams0, ns, k, beams, i)
    && KnnBounds(adj0, beams0, net.adj, net.activeBeams, ns, k, i)
  }

  /** After the first i turns: the edges are within the starting ones, no
      node lost an active beam, and each node that had its turn has at most
      K neighbours. */
  ghost predicate KnnBounds(adj0: map<Node, seq<Node>>, beams0: map<Node, set<int>>,
                            adj: map<Node, seq<Node>>, bm: map<Node, set<int>>, ns: seq<Node>, k: int, i: nat)
  {
    && Within(adj, adj0)
    && (forall p :: p in adj ==> p in beams0 && p in bm && beams0[p] <= bm[p])
    && (k >= 0 ==> forall q :: 0 <= q < i && q < |ns| ==> ns[q] in adj && |adj[ns[q]]| <= k)
  }

  /** A turn that only shortens neighbour lists, only adds beams, and
      leaves its own node with at most K neighbours extends the bounds by
      that node. */
  lemma KnnBoundsStep(adj0: map<Node, seq<Node>>, beams0: map<Node, set<int>>,
                      adj: map<Node, seq<Node>>, bm: map<Node, set<int>>,
                      adj': map<Node, seq<Node>>, bm': map<Node, set<int>>, ns: seq<Node>, k: int, i: nat)
    requires i < |ns| && KnnBounds(adj0, beams0, adj, bm, ns, k, i)
    requires adj'.Keys == adj.Keys && Within(adj', adj) && ns[i] in adj
    requires forall p :: p in adj ==> |adj'[p]| <= |adj[p]|
    requires forall p :: p in bm ==> p in bm' && bm[p] <= bm'[p]
    requires k >= 0 ==> |adj'[ns[i]]| <= k
    ensures KnnBounds(adj0, beams0, adj', bm', ns, k, i + 1)
  {
    forall q | 0 <= q < i + 1 && k >= 0
      ensures ns[q] in adj' && |adj'[ns[q]]| <= k
    {
      if q < i {
        var p := ns[q];
        assert p in adj && |adj[p]| <= k;
        assert |adj'[p]| <= |adj[p]|;
      }
    }
  }

  /** Node ns[i]'s turn of `KNN`: the adjacency and the beams become those
      of one more turn, which keeps the progress of the earlier turns. */
  method KnnTurn(net: Network, k: int, beams: int, ghost adj0: map<Node, seq<Node>>, ghost beams0: map<Node, set<int>>, ns: seq<Node>, i: nat)
    requires i < |ns| && KnnUpTo(net, adj0, beams0, ns, k, beams, i)
    modifies net`adj, net`activeBeams
    ensures net.adj.Keys == old(net.adj.Keys) && KnnUpTo(net, adj0, beams0, ns, k, beams, i + 1)
    ensures (net.adj, net.activeBeams)
              == (KnnAdj(old(net.adj), ns[i], net.distance, k),
                  old(net.activeBeams)[ns[i] := old(net.activeBeams[ns[i]])
                    + BeamsToward(net, ns[i], Nearest(ns[i], old(net.adj[ns[i]]), net.distance, k), beams)])
  {
    assert ns[i] in net.nodes;
    ghost var before := net.adj;
    ghost var beamsBefore := net.activeBeams;
    var kept := KnnStep(net, ns[i], k, beams);
    assert KnnRun(net, adj0, beams0, ns, k, beams, i + 1)
        == (KnnAdj(before, ns[i], net.distance, k), beamsBefore[ns[i] := beamsBefore[ns[i]] + BeamsToward(net, ns[i], kept, beams)]);
    KnnBoundsStep(adj0, beams0, before, beamsBefore, net.adj, net.activeBeams, ns, k, i);
  }
}

=== FILE: beam.dfy ===
/** `greedy1` and `greedy2` as the source runs them: loops that write the
    node attributes in place, each proved to follow the rules of BeamRules. */
module BeamScheduler {
  import opened SeqSets
  import opened Options
  import opened Sorting
  import opened BeamRules

  /** Once a phase fails, it stays failed over the later subscribers or
      relays. */
  lemma {:induction false} SettleAllStops(inst: Instance, a: Attrs, m: nat, n: nat)
    requires m <= n <= |inst.subscribers| && Shaped(inst, a) && SettleAll(inst, a, m).NoBestBearing?
    ensures SettleAll(inst, a, n) == SettleAll(inst, a, m)
  {
    if n > m {
      SettleAllStops(inst, a, m, n - 1);
    }
  }

  lemma {:induction false} RescueAllStops(inst: Instance, a: Attrs, m: nat, n: nat)
    requires m <= n <= |inst.subscribers| && Shaped(inst, a) && RescueAll(inst, a, m).NoBestBearing?
    ensures RescueAll(inst, a, n) == RescueAll(inst, a, m)
  {
    if n > m {
      RescueAllStops(inst, a, m, n - 1);
    }
  }

  lemma {:induction false} ObjectiveStops(inst: Instance, a: Attrs, m: nat, n: nat)
    requires m <= n <= |inst.subscribers| && Covers(a.preferred, inst.subscribers) && Objective(inst, a, m).NoBestBearing?
    ensures Objective(inst, a, n) == Objective(inst, a, m)
  {
    if n > m {
      ObjectiveStops(inst, a, m, n - 1);
    }
  }

  lemma {:induction false} OffersStop(inst: Instance, a: Attrs, s: Node, m: nat, n: nat)
    requires m <= n <= |inst.relays| && Offers(inst, a, s, m).NoBestBearing?
    ensures Offers(inst, a, s, n) == Offers(inst, a, s, m)
  {
    if n > m {
      OffersStop(inst, a, s, m, n - 1);
    }
  }

  /** The attributes of the network's nodes that the allocators write. */
  class Nodes {
    var preferred: map<Node, Option<Node>>
    var allocatedChannels: map<Node, int>
    var bestBearing: map<Node, (int, real)>

    constructor (preferred: map<Node, Option<Node>>, allocatedChannels: map<Node, int>, bestBearing: map<Node, (int, real)>)
      ensures this.preferred == preferred && this.allocatedChannels == allocatedChannels && this.bestBearing == bestBearing
    {
      this.preferred := preferred;
      this.allocatedChannels := allocatedChannels;
      this.bestBearing := bestBearing;
    }

    function State(): Attrs
      reads this
    {
      Attrs(preferred, allocatedChannels, bestBearing)
    }

    // -------------------------------------------------------------------
    // Phase 0

    method ResetPreferred(subs: seq<Node>)
      modifies this`preferred
      ensures preferred == Cleared(old(preferred), subs)
    {
      var i := 0;
      while i < |subs|
        invariant 0 <= i <= |subs|
        invariant preferred == Cleared(old(preferred), subs[..i])
      {
        assert subs[..i + 1][..i] == subs[..i];
        preferred := preferred[subs[i] := None];
        i := i + 1;
      }
      assert subs[..i] == subs;
    }

    // -------------------------------------------------------------------
    // Phase 1

    /** The `vv` of relay r's pass: every subscriber's marginal value. */
    method MarginalValues(inst: Instance, r: Node) returns (vv: seq<(Node, real)>)
      requires Covers(preferred, inst.subscribers)
      ensures vv == Margins(inst, preferred, r, inst.subscribers)
    {
      var subs := inst.subscribers;
      vv := [];
      var i := 0;
      while i < |subs|
        invariant 0 <= i <= |subs|
        invariant Covers(preferred, subs[..i])
        invariant vv == Margins(inst, preferred, r, subs[..i])
      {
        var sub := subs[i];
        var rtput := Value(inst, r, sub);
        assert subs[..i + 1][..i] == subs[..i];
        if preferred[sub] == None {
          vv := vv + [(sub, rtput)];
        } else {
          var spr := preferred[sub].value;
          vv := vv + [(sub, rtput - Value(inst, spr, sub))];
        }
        i := i + 1;
      }
      assert subs[..i] == subs;
    }

    /** The scan of relay r's pass over the descending order. */
    method ClaimSubscribers(r: Node, order: seq<(Node, real)>, channels: int)
      modifies this`preferred
      ensures preferred == Assign(old(preferred), Claimed(order, channels), r)
    {
      var count := 0;
      var k := 0;
      while k < |order|
        invariant 0 <= k <= |order|
        invariant Assign(preferred, Claimed(order[k..], channels - count), r) == Assign(old(preferred), Claimed(order, channels), r)
      {
        assert order[k..][1..] == order[k + 1..];
        var (s, v) := order[k];
        if v > 0.0 && count < channels {
          assert Claimed(order[k..], channels - count) == [s] + Claimed(order[k + 1..], channels - (count + 1));
          assert ([s] + Claimed(order[k + 1..], channels - (count + 1)))[1..] == Claimed(order[k + 1..], channels - (count + 1));
          preferred := preferred[s := Some(r)];
          count := count + 1;
        }
        k := k + 1;
      }
    }

    /** One iteration of phase 1's relay loop. */
    method ClaimPass(inst: Instance, r: Node)
      requires PrefShaped(inst, preferred) && r in inst.relays
      modifies this`preferred, this`allocatedChannels
      ensures State() == ClaimStep(inst, old(State()), r)
    {
      allocatedChannels := allocatedChannels[r := 0];
      var vv := MarginalValues(inst, r);
      var order := SortBy(vv, true);
      ClaimSubscribers(r, order, inst.channels);
    }

    method ClaimPhase(inst: Instance)
      requires PrefShaped(inst, preferred)
      modifies this`preferred, this`allocatedChannels
      ensures State() == ClaimAll(inst, old(State()), |inst.relays|)
    {
      var i := 0;
      while i < |inst.relays|
        invariant 0 <= i <= |inst.relays|
        invariant State() == ClaimAll(inst, old(State()), i)
      {
        ClaimPass(inst, inst.relays[i]);
        i := i + 1;
      }
    }

    // -------------------------------------------------------------------
    // Phase 2

    /** The value of one beamset for relay r. */
    method BeamsetValue(inst: Instance, r: Node, members: seq<Node>) returns (v: real)
      requires Covers(preferred, members)
      ensures v == BeamValue(inst, preferred, r, members)
    {
      v := 0.0;
      var i := 0;
      while i < |members|
        invariant 0 <= i <= |members|
        invariant v == BeamValue(inst, preferred, r, members[..i])
      {
        assert members[..i + 1][..i] == members[..i];
        var sub := members[i];
        if preferred[sub] == Some(r) {
          v := v + Value(inst, r, sub);
        }
        i := i + 1;
      }
      assert members[..i] == members;
    }

    /** One relay's bearing choice. */
    method ChooseBearing(inst: Instance, r: Node)
      requires BeamsCovered(inst, preferred)
      modifies this`allocatedChannels, this`bestBearing
      ensures State() == BearingStep(inst, old(State()), r)
    {
      allocatedChannels := allocatedChannels[r := 0];
      var best := 0.0;
      var beams := Beams(inst, r);
      ghost var found: Option<(int, real)> := None;
      var k := 0;
      while k < |beams|
        invariant 0 <= k <= |beams|
        invariant Choose(inst, preferred, r, beams[k..], found, best) == Choose(inst, preferred, r, beams, None, 0.0)
        invariant allocatedChannels == old(allocatedChannels)[r := 0]
        invariant bestBearing == if found.Some? then old(bestBearing)[r := found.value] else old(bestBearing)
      {
        assert beams[k..][1..] == beams[k + 1..];
        var (bearing, subscribers) := beams[k];
        var v := BeamsetValue(inst, r, subscribers);
        if v >= best {
          bestBearing := bestBearing[r := (bearing, v)];
          best := v;
          found := Some((bearing, v));
        }
        k := k + 1;
      }
      assert beams[k..] == [];
    }

    method BearingPhase(inst: Instance)
      requires BeamsCovered(inst, preferred)
      modifies this`allocatedChannels, this`bestBearing
      ensures State() == BearingAll(inst, old(State()), |inst.relays|)
    {
      var i := 0;
      while i < |inst.relays|
        invariant 0 <= i <= |inst.relays|
        invariant State() == BearingAll(inst, old(State()), i)
      {
        ChooseBearing(inst, inst.relays[i]);
        i := i + 1;
      }
    }

    /** greedy2's relay loop: each relay's claims, then its bearing. */
    method ClaimChoosePhase(inst: Instance)
      requires WellFormed(inst) && PrefShaped(inst, preferred)
      modifies this`preferred, this`allocatedChannels, this`bestBearing
      ensures State() == ClaimChooseAll(inst, old(State()), |inst.relays|)
    {
      ghost var a0 := State();
      var i := 0;
      while i < |inst.relays|
        invariant 0 <= i <= |inst.relays|
        invariant State() == ClaimChooseAll(inst, a0, i)
      {
        ClaimChooseRelay(inst, a0, i);
        i := i + 1;
      }
    }

    /** One turn of greedy2's relay loop: relay i's claims, then its bearing. */
    method ClaimChooseRelay(inst: Instance, ghost a0: Attrs, i: nat)
      requires WellFormed(inst) && i < |inst.relays| && PrefShaped(inst, a0.preferred)
      requires State() == ClaimChooseAll(inst, a0, i)
      modifies this`preferred, this`allocatedChannels, this`bestBearing
      ensures State() == ClaimChooseAll(inst, a0, i + 1)
    {
      ClaimPass(inst, inst.relays[i]);
      CoveredBeams(inst, preferred);
      ChooseBearing(inst, inst.relays[i]);
    }

    // -------------------------------------------------------------------
    // Phase 3

    method SettlePhase(inst: Instance) returns (o: Outcome<()>)
      requires Shaped(inst, State())
      modifies this`preferred, this`allocatedChannels
      ensures o == Status(SettleAll(inst, old(State()), |inst.subscribers|))
      ensures o.Done? ==> State() == SettleAll(inst, old(State()), |inst.subscribers|).value
    {
      var subs := inst.subscribers;
      var i := 0;
      while i < |subs|
        invariant 0 <= i <= |subs|
        invariant SettleAll(inst, old(State()), i) == Done(State())
      {
        var s := subs[i];
        if preferred[s] != None {
          var r := preferred[s].value;
          if r !in bestBearing {
            SettleAllStops(inst, old(State()), i + 1, |subs|);
            return NoBestBearing(r);
          }
          var beamset := Lookup(Beams(inst, r), bestBearing[r].0);
          if s in beamset {
            allocatedChannels := allocatedChannels[r := allocatedChannels[r] + 1];
          } else {
            preferred := preferred[s := None];
          }
        }
        i := i + 1;
      }
      o := Done(());
    }

    // -------------------------------------------------------------------
    // Phase 4

    /** The `vv` of s's second chance: every relay's offer. */
    method RescueOffers(inst: Instance, s: Node) returns (o: Outcome<seq<(Node, real)>>)
      ensures o == Offers(inst, State(), s, |inst.relays|)
    {
      var vv := [];
      var i := 0;
      while i < |inst.relays|
        invariant 0 <= i <= |inst.relays|
        invariant Offers(inst, State(), s, i) == Done(vv)
      {
        var r := inst.relays[i];
        if r !in bestBearing {
          OffersStop(inst, State(), s, i + 1, |inst.relays|);
          return NoBestBearing(r);
        }
        var beamset := Lookup(Beams(inst, r), bestBearing[r].0);
        assert BestBeam(inst, State(), r) == beamset;
        if s in beamset {
          vv := vv + [(r, Value(inst, r, s))];
        } else {
          vv := vv + [(r, 0.0)];
        }
        assert Offers(inst, State(), s, i + 1) == Done(vv);
        i := i + 1;
      }
      o := Done(vv);
    }

    /** The scan over the descending offers, which stops at the first relay
        with a positive offer and a spare channel. */
    method TakeFirstFit(inst: Instance, s: Node, order: seq<(Node, real)>)
      requires forall i :: 0 <= i < |order| ==> order[i].0 in allocatedChannels
      modifies this`preferred, this`allocatedChannels
      ensures match Pick(order, old(allocatedChannels), inst.channels)
        case None => State() == old(State())
        case Some(r) => preferred == old(preferred)[s := Some(r)] && allocatedChannels == old(allocatedChannels)[r := old(allocatedChannels)[r] + 1]
    {
      var k := 0;
      while k < |order|
        invariant 0 <= k <= |order|
        invariant State() == old(State())
        invariant Pick(order[k..], allocatedChannels, inst.channels) == Pick(order, allocatedChannels, inst.channels)
      {
        assert order[k..][1..] == order[k + 1..];
        var (r, value) := order[k];
        if value > 0.0 && allocatedChannels[r] < inst.channels {
          preferred := preferred[s := Some(r)];
          allocatedChannels := allocatedChannels[r := allocatedChannels[r] + 1];
          return;
        }
        k := k + 1;
      }
    }

    /** The second chance of subscriber s. */
    method RescueSubscriber(inst: Instance, s: Node) returns (o: Outcome<()>)
      requires Shaped(inst, State()) && s in inst.subscribers
      modifies this`preferred, this`allocatedChannels
      ensures o == Status(Rescue(inst, old(State()), s))
      ensures o.Done? ==> State() == Rescue(inst, old(State()), s).value
    {
      if preferred[s] != None {
        return Done(());
      }
      var offers := RescueOffers(inst, s);
      if offers.NoBestBearing? {
        return NoBestBearing(offers.relay);
      }
      var vv := offers.value;
      var order := SortBy(vv, true);
      SortedOffersAreRelays(inst, State(), s, vv);
      assert forall i :: 0 <= i < |order| ==> order[i].0 in allocatedChannels by {
        forall i | 0 <= i < |order|
          ensures order[i].0 in allocatedChannels
        {
          var q := order[i].0;
          assert q in inst.relays;
        }
      }
      TakeFirstFit(inst, s, order);
      o := Done(());
    }

    method RescuePhase(inst: Instance) returns (o: Outcome<()>)
      requires Shaped(inst, State())
      modifies this`preferred, this`allocatedChannels
      ensures o == Status(RescueAll(inst, old(State()), |inst.subscribers|))
      ensures o.Done? ==> State() == RescueAll(inst, old(State()), |inst.subscribers|).value
    {
      var subs := inst.subscribers;
      var i := 0;
      while i < |subs|
        invariant 0 <= i <= |subs|
        invariant RescueAll(inst, old(State()), i) == Done(State())
        invariant Shaped(inst, State())
      {
        var r := RescueSubscriber(inst, subs[i]);
        if r.NoBestBearing? {
          RescueAllStops(inst, old(State()), i + 1, |subs|);
          return r;
        }
        i := i + 1;
      }
      o := Done(());
    }

    // -------------------------------------------------------------------
    // Phase 5

    method ObjectiveSum(inst: Instance) returns (o: Outcome<real>)
      requires Covers(preferred, inst.subscribers)
      ensures o == Objective(inst, State(), |inst.subscribers|)
    {
      var subs := inst.subscribers;
      var objective := 0.0;
      var i := 0;
      while i < |subs|
        invariant 0 <= i <= |subs|
        invariant Objective(inst, State(), i) == Done(objective)
      {
        var s := subs[i];
        if preferred[s] != None {
          var pri := preferred[s].value;
          if pri !in bestBearing {
            ObjectiveStops(inst, State(), i + 1, |subs|);
            return NoBestBearing(pri);
          }
          var beamset := Lookup(Beams(inst, pri), bestBearing[pri].0);
          assert BestBeam(inst, State(), pri) == beamset;
          if s in beamset {
            objective := objective + Value(inst, pri, s);
          }
        }
        i := i + 1;
      }
      o := Done(objective);
    }

    // -------------------------------------------------------------------
    // The allocators

    /** Phases 4 and 5. */
    method FinishPhases(inst: Instance) returns (o: Outcome<real>)
      requires Shaped(inst, State())
      modifies this`preferred, this`allocatedChannels
      ensures match Finish(inst, old(State()))
        case Done(res) => o == Done(res.1) && State() == res.0
        case NoBestBearing(q) => o == NoBestBearing(q)
    {
      var rescued := RescuePhase(inst);
      if rescued.NoBestBearing? {
        return NoBestBearing(rescued.relay);
      }
      o := ObjectiveSum(inst);
    }

    /** `greedy1`: returns the objective; the node attributes are left as
        Greedy1Spec says. */
    method Greedy1(inst: Instance) returns (o: Outcome<real>)
      requires WellFormed(inst)
      modifies this
      ensures match Greedy1Spec(inst, old(State()))
        case Done(res) => o == Done(res.1) && State() == res.0
        case NoBestBearing(q) => o == NoBestBearing(q)
    {
      ResetPreferred(inst.subscribers);
      ResetShaped(inst, old(State()));
      ClaimPhase(inst);
      CoveredBeams(inst, preferred);
      BearingPhase(inst);
      var settled := SettlePhase(inst);
      if settled.NoBestBearing? {
        return NoBestBearing(settled.relay);
      }
      o := FinishPhases(inst);
    }

    /** `greedy2`. */
    method Greedy2(inst: Instance) returns (o: Outcome<real>)
      requires WellFormed(inst)
      modifies this
      ensures match Greedy2Spec(inst, old(State()))
        case Done(res) => o == Done(res.1) && State() == res.0
        case NoBestBearing(q) => o == NoBestBearing(q)
    {
      ResetPreferred(inst.subscribers);
      ResetShaped(inst, old(State()));
      ClaimChoosePhase(inst);
      o := FinishPhases(inst);
    }
  }
}

=== FILE: beam_props.dfy ===
/** What the beam-scheduling allocators promise, proved about the rules in
    BeamRules. */
module BeamProperties {
  import opened SeqSets
  import opened Options
  import opened Sorting
  import opened BeamRules
  import Throughput

  // ---------------------------------------------------------------------
  // Phase 1

  /** Entry i of a relay's `vv` pairs subscriber i with its marginal value:
      r's value, less the value of the relay it currently prefers. */
  lemma {:induction false} MarginsAt(inst: Instance, pref: map<Node, Option<Node>>, r: Node, subs: seq<Node>)
    requires Covers(pref, subs)
    ensures forall i :: 0 <= i < |subs| ==>
      && Margins(inst, pref, r, subs)[i].0 == subs[i]
      && Margins(inst, pref, r, subs)[i].1 == Value(inst, r, subs[i]) - (if pref[subs[i]].Some? then Value(inst, pref[subs[i]].value, subs[i]) else 0.0)
  {
    if subs != [] {
      MarginsAt(inst, pref, r, subs[..|subs| - 1]);
    }
  }

  /** On a descending order, a relay's pass claims a prefix of it: only
      positive values, at most `spare` of them, and it stops short of
      `spare` only when no positive value is left. */
  lemma {:induction false} ClaimedTopPrefix(order: seq<(Node, real)>, spare: int)
    requires Ordered(order, true)
    ensures var c := Claimed(order, spare);
      && |c| <= |order|
      && c == Items(order[..|c|])
      && (forall i :: 0 <= i < |c| ==> order[i].1 > 0.0)
      && (|c| < spare ==> forall i :: |c| <= i < |order| ==> order[i].1 <= 0.0)
  {
    if order != [] {
      var spare' := if order[0].1 > 0.0 && spare > 0 then spare - 1 else spare;
      var rest := Claimed(order[1..], spare');
      ClaimedTopPrefix(order[1..], spare');
      if order[0].1 > 0.0 && spare > 0 {
        assert Claimed(order, spare) == [order[0].0] + rest;
        ItemsCons(order, rest);
      } else if order[0].1 <= 0.0 {
        assert Claimed(order, spare) == rest;
        forall i | 0 <= i < |order| - 1
          ensures order[1..][i].1 <= 0.0
        {
          assert !Ahead(order[i + 1].1, order[0].1, true);
        }
        assert |rest| == 0;
      } else {
        assert Claimed(order, spare) == rest;
        assert |rest| == 0;
      }
    }
  }

  /** The items of a prefix of the tail, behind the head's item, are the
      items of the one-longer prefix. */
  lemma ItemsCons(order: seq<(Node, real)>, rest: seq<Node>)
    requires |rest| < |order| && rest == Items(order[1..][..|rest|])
    ensures [order[0].0] + rest == Items(order[..|rest| + 1])
  {
    var xs := order[..|rest| + 1];
    forall i | 0 <= i < |rest| + 1
      ensures ([order[0].0] + rest)[i] == Items(xs)[i]
    {
      if i > 0 {
        assert rest[i - 1] == order[1..][..|rest|][i - 1].0;
      }
    }
  }

  /** What relay r's pass claims, in terms of its subscribers: the entries
      of the descending order that it takes all have a positive marginal
      value, and at most `channels` of them, and no entry it leaves has a
      larger value than one it takes. */
  lemma ClaimStepTakesBest(inst: Instance, pref: map<Node, Option<Node>>, r: Node)
    requires Covers(pref, inst.subscribers)
    ensures var order := SortBy(Margins(inst, pref, r, inst.subscribers), true);
      var c := ClaimedBy(inst, pref, r);
      && |c| <= (if inst.channels > 0 then inst.channels else 0)
      && |c| <= |order|
      && multiset(order) == multiset(Margins(inst, pref, r, inst.subscribers))
      && c == Items(order[..|c|])
      && (forall i :: 0 <= i < |c| ==> order[i].1 > 0.0)
      && (forall i, j :: 0 <= i < |c| <= j < |order| ==> order[j].1 <= order[i].1)
      && (|c| < inst.channels ==> forall j :: |c| <= j < |order| ==> order[j].1 <= 0.0)
  {
    var vv := Margins(inst, pref, r, inst.subscribers);
    SortOrdered(vv, true);
    SortPermutes(vv, true);
    ClaimedTopPrefix(SortBy(vv, true), inst.channels);
  }

  // ---------------------------------------------------------------------
  // Phase 2

  /** What the beam scan may return: `best` when no beam reaches `bound`;
      otherwise the bearing and value of a beam whose value reaches `bound`
      and is the largest, with no later beam as large. */
  ghost predicate ScanResult(inst: Instance, pref: map<Node, Option<Node>>, r: Node, beams: seq<Beam>,
                             best: Option<(int, real)>, bound: real, res: Option<(int, real)>)
    requires forall b :: b in beams ==> Covers(pref, b.1)
  {
    && ((forall i :: 0 <= i < |beams| ==> BeamValue(inst, pref, r, beams[i].1) < bound) ==> res == best)
    && ((exists i :: 0 <= i < |beams| && BeamValue(inst, pref, r, beams[i].1) >= bound) ==>
          exists j :: 0 <= j < |beams| && LastMax(inst, pref, r, beams, j, bound) && res == Some((beams[j].0, BeamValue(inst, pref, r, beams[j].1))))
  }

  /** The beam scan returns what ScanResult allows. */
  lemma {:induction false} ChooseLastMax(inst: Instance, pref: map<Node, Option<Node>>, r: Node, beams: seq<Beam>,
                                         best: Option<(int, real)>, bound: real)
    requires forall b :: b in beams ==> Covers(pref, b.1)
    ensures ScanResult(inst, pref, r, beams, best, bound, Choose(inst, pref, r, beams, best, bound))
  {
    if beams != [] {
      var v := BeamValue(inst, pref, r, beams[0].1);
      var tail := beams[1..];
      if v >= bound {
        ChooseLastMax(inst, pref, r, tail, Some((beams[0].0, v)), v);
        ScanTakesHead(inst, pref, r, beams, best, bound);
      } else {
        ChooseLastMax(inst, pref, r, tail, best, bound);
        ScanSkipsHead(inst, pref, r, beams, best, bound);
      }
    }
  }

  /** A first beam reaching the bound becomes the candidate to beat. */
  lemma ScanTakesHead(inst: Instance, pref: map<Node, Option<Node>>, r: Node, beams: seq<Beam>,
                      best: Option<(int, real)>, bound: real)
    requires beams != [] && forall b :: b in beams ==> Covers(pref, b.1)
    requires var v := BeamValue(inst, pref, r, beams[0].1);
      && v >= bound
      && ScanResult(inst, pref, r, beams[1..], Some((beams[0].0, v)), v,
                    Choose(inst, pref, r, beams[1..], Some((beams[0].0, v)), v))
    ensures ScanResult(inst, pref, r, beams, best, bound, Choose(inst, pref, r, beams, best, bound))
  {
    var v := BeamValue(inst, pref, r, beams[0].1);
    var tail := beams[1..];
    var res := Choose(inst, pref, r, tail, Some((beams[0].0, v)), v);
    assert Choose(inst, pref, r, beams, best, bound) == res;
    if exists i :: 0 <= i < |tail| && BeamValue(inst, pref, r, tail[i].1) >= v {
      var j :| 0 <= j < |tail| && LastMax(inst, pref, r, tail, j, v) && res == Some((tail[j].0, BeamValue(inst, pref, r, tail[j].1)));
      LastMaxShift(inst, pref, r, beams, j, bound, v);
      assert tail[j] == beams[j + 1];
    } else {
      forall i | 1 <= i < |beams|
        ensures BeamValue(inst, pref, r, beams[i].1) < v
      {
        assert tail[i - 1] == beams[i];
      }
      assert LastMax(inst, pref, r, beams, 0, bound);
    }
  }

  /** A first beam below the bound is passed over. */
  lemma ScanSkipsHead(inst: Instance, pref: map<Node, Option<Node>>, r: Node, beams: seq<Beam>,
                      best: Option<(int, real)>, bound: real)
    requires beams != [] && forall b :: b in beams ==> Covers(pref, b.1)
    requires BeamValue(inst, pref, r, beams[0].1) < bound
    requires ScanResult(inst, pref, r, beams[1..], best, bound, Choose(inst, pref, r, beams[1..], best, bound))
    ensures ScanResult(inst, pref, r, beams, best, bound, Choose(inst, pref, r, beams, best, bound))
  {
    var tail := beams[1..];
    var res := Choose(inst, pref, r, tail, best, bound);
    assert Choose(inst, pref, r, beams, best, bound) == res;
    if exists i :: 0 <= i < |beams| && BeamValue(inst, pref, r, beams[i].1) >= bound {
      var i :| 0 <= i < |beams| && BeamValue(inst, pref, r, beams[i].1) >= bound;
      assert tail[i - 1] == beams[i];
      var j :| 0 <= j < |tail| && LastMax(inst, pref, r, tail, j, bound) && res == Some((tail[j].0, BeamValue(inst, pref, r, tail[j].1)));
      LastMaxShift(inst, pref, r, beams, j, bound, bound);
      assert tail[j] == beams[j + 1];
    } else {
      forall i | 0 <= i < |tail|
        ensures BeamValue(inst, pref, r, tail[i].1) < bound
      {
        assert tail[i] == beams[i + 1];
      }
    }
  }

  /** Beam j reaches `bound`, no beam is worth more, and every later beam is
      worth less. */
  ghost predicate LastMax(inst: Instance, pref: map<Node, Option<Node>>, r: Node, beams: seq<Beam>, j: nat, bound: real)
    requires j < |beams| && forall b :: b in beams ==> Covers(pref, b.1)
  {
    var vj := BeamValue(inst, pref, r, beams[j].1);
    && vj >= bound
    && (forall i :: 0 <= i < |beams| ==> BeamValue(inst, pref, r, beams[i].1) <= vj)
    && (forall i :: j < i < |beams| ==> BeamValue(inst, pref, r, beams[i].1) < vj)
  }

  /** A last maximum of the tail reaching the first beam's value (or the
      bound it failed) is one of the whole sequence. */
  lemma LastMaxShift(inst: Instance, pref: map<Node, Option<Node>>, r: Node, beams: seq<Beam>, j: nat, bound: real, v: real)
    requires |beams| > 0 && j < |beams| - 1 && forall b :: b in beams ==> Covers(pref, b.1)
    requires v >= bound && (BeamValue(inst, pref, r, beams[0].1) >= bound ==> v == BeamValue(inst, pref, r, beams[0].1))
    requires BeamValue(inst, pref, r, beams[0].1) < bound ==> v == bound
    requires LastMax(inst, pref, r, beams[1..], j, v)
    ensures LastMax(inst, pref, r, beams, j + 1, bound)
  {
    assert beams[1..][j] == beams[j + 1];
    forall i | 0 <= i < |beams|
      ensures BeamValue(inst, pref, r, beams[i].1) <= BeamValue(inst, pref, r, beams[j + 1].1)
    {
      if i > 0 {
        assert beams[1..][i - 1] == beams[i];
      }
    }
    forall i | j + 1 < i < |beams|
      ensures BeamValue(inst, pref, r, beams[i].1) < BeamValue(inst, pref, r, beams[j + 1].1)
    {
      assert beams[1..][i - 1] == beams[i];
    }
  }

  /** Relay r's bearing choice: when some beamset of r is worth 0.0 or more,
      r's best bearing becomes that of a beamset of largest value, the last
      one of that value in iteration order, paired with that value;
      otherwise it stays as it was. Its counter is reset either way. */
  lemma BearingStepBest(inst: Instance, a: Attrs, r: Node)
    requires BeamsCovered(inst, a.preferred)
    ensures var beams := Beams(inst, r);
      var b := BearingStep(inst, a, r);
      && b.preferred == a.preferred
      && b.allocatedChannels == a.allocatedChannels[r := 0]
      && ((forall i :: 0 <= i < |beams| ==> BeamValue(inst, a.preferred, r, beams[i].1) < 0.0) ==> b.bestBearing == a.bestBearing)
      && ((exists i :: 0 <= i < |beams| && BeamValue(inst, a.preferred, r, beams[i].1) >= 0.0) ==>
            exists j :: 0 <= j < |beams| && LastMax(inst, a.preferred, r, beams, j, 0.0)
              && b.bestBearing == a.bestBearing[r := (beams[j].0, BeamValue(inst, a.preferred, r, beams[j].1))])
  {
    ChooseLastMax(inst, a.preferred, r, Beams(inst, r), None, 0.0);
  }

  // ---------------------------------------------------------------------
  // Phase 3

  /** What phase 3 leaves as s's preferred relay: the relay it had, when s
      lies in that relay's best beam, and otherwise none. */
  function Kept(inst: Instance, a: Attrs, s: Node): Option<Node>
    requires s in a.preferred
  {
    match a.preferred[s]
    case None => None
    case Some(r) => if r in a.bestBearing && s in BestBeam(inst, a, r) then Some(r) else None
  }

  /** The subscribers among `subs` that prefer r. */
  function Holders(subs: seq<Node>, pref: map<Node, Option<Node>>, r: Node): (h: nat)
    requires Covers(pref, subs)
    ensures h <= |subs|
  {
    if subs == [] then 0
    else Holders(subs[..|subs| - 1], pref, r) + (if pref[subs[|subs| - 1]] == Some(r) then 1 else 0)
  }

  /** Counting the holders of r over subs[..n + 1]. */
  lemma HoldersSnoc(subs: seq<Node>, pref: map<Node, Option<Node>>, r: Node, n: nat)
    requires n < |subs| && Covers(pref, subs)
    ensures Holders(subs[..n + 1], pref, r) == Holders(subs[..n], pref, r) + (if pref[subs[n]] == Some(r) then 1 else 0)
  {
    assert subs[..n + 1][..n] == subs[..n];
  }

  /** The count of r's holders reads each subscriber only through whether it
      prefers r, and is no larger when fewer of them do. */
  lemma {:induction false} HoldersMono(subs: seq<Node>, pref: map<Node, Option<Node>>, pref': map<Node, Option<Node>>, r: Node)
    requires Covers(pref, subs) && Covers(pref', subs)
    requires forall i :: 0 <= i < |subs| && pref'[subs[i]] == Some(r) ==> pref[subs[i]] == Some(r)
    ensures Holders(subs, pref', r) <= Holders(subs, pref, r)
  {
    if subs != [] {
      HoldersMono(subs[..|subs| - 1], pref, pref', r);
    }
  }

  lemma {:induction false} HoldersSame(subs: seq<Node>, pref: map<Node, Option<Node>>, pref': map<Node, Option<Node>>, r: Node)
    requires Covers(pref, subs) && Covers(pref', subs)
    requires forall i :: 0 <= i < |subs| ==> (pref'[subs[i]] == Some(r) <==> pref[subs[i]] == Some(r))
    ensures Holders(subs, pref', r) == Holders(subs, pref, r)
  {
    if subs != [] {
      HoldersSame(subs[..|subs| - 1], pref, pref', r);
    }
  }

  /** Phase 3 over the first n subscribers: each of them keeps its relay
      exactly when it lies in that relay's best beam, the others are as
      before, and each relay's counter grows by the number it keeps; it
      fails exactly when one of them prefers a relay without a best
      bearing. */
  lemma {:induction false} SettleAllCells(inst: Instance, a: Attrs, n: nat)
    requires WellFormed(inst) && n <= |inst.subscribers| && Shaped(inst, a)
    ensures match SettleAll(inst, a, n)
      case Done(b) =>
        && b.bestBearing == a.bestBearing
        && (forall i :: 0 <= i < n && a.preferred[inst.subscribers[i]].Some? ==> a.preferred[inst.subscribers[i]].value in a.bestBearing)
        && (forall i :: 0 <= i < n ==> b.preferred[inst.subscribers[i]] == Kept(inst, a, inst.subscribers[i]))
        && (forall i :: n <= i < |inst.subscribers| ==> b.preferred[inst.subscribers[i]] == a.preferred[inst.subscribers[i]])
        && (forall q :: q in inst.relays ==> b.allocatedChannels[q] == a.allocatedChannels[q] + Holders(inst.subscribers[..n], b.preferred, q))
      case NoBestBearing(q) =>
        exists i :: 0 <= i < n && a.preferred[inst.subscribers[i]] == Some(q) && q !in a.bestBearing
  {
    if n > 0 {
      SettleAllCells(inst, a, n - 1);
      match SettleAll(inst, a, n - 1)
      case NoBestBearing(q) =>
      case Done(b) =>
        assert SettleAll(inst, a, n) == Settle(inst, b, inst.subscribers[n - 1]);
        SettleCell(inst, a, b, n);
    }
  }

  /** One step of phase 3: settling the n-th subscriber after the first
      n - 1 extends SettleAllCells's description from n - 1 to n. */
  lemma SettleCell(inst: Instance, a: Attrs, b: Attrs, n: nat)
    requires WellFormed(inst) && 0 < n <= |inst.subscribers| && Shaped(inst, a) && Shaped(inst, b)
    requires b.bestBearing == a.bestBearing
    requires forall i :: 0 <= i < n - 1 && a.preferred[inst.subscribers[i]].Some? ==> a.preferred[inst.subscribers[i]].value in a.bestBearing
    requires forall i :: 0 <= i < n - 1 ==> b.preferred[inst.subscribers[i]] == Kept(inst, a, inst.subscribers[i])
    requires forall i :: n - 1 <= i < |inst.subscribers| ==> b.preferred[inst.subscribers[i]] == a.preferred[inst.subscribers[i]]
    requires forall q :: q in inst.relays ==> b.allocatedChannels[q] == a.allocatedChannels[q] + Holders(inst.subscribers[..n - 1], b.preferred, q)
    ensures match Settle(inst, b, inst.subscribers[n - 1])
      case Done(c) =>
        && c.bestBearing == a.bestBearing
        && (forall i :: 0 <= i < n && a.preferred[inst.subscribers[i]].Some? ==> a.preferred[inst.subscribers[i]].value in a.bestBearing)
        && (forall i :: 0 <= i < n ==> c.preferred[inst.subscribers[i]] == Kept(inst, a, inst.subscribers[i]))
        && (forall i :: n <= i < |inst.subscribers| ==> c.preferred[inst.subscribers[i]] == a.preferred[inst.subscribers[i]])
        && (forall q :: q in inst.relays ==> c.allocatedChannels[q] == a.allocatedChannels[q] + Holders(inst.subscribers[..n], c.preferred, q))
      case NoBestBearing(q) =>
        a.preferred[inst.subscribers[n - 1]] == Some(q) && q !in a.bestBearing
  {
    var subs := inst.subscribers;
    var o := Settle(inst, b, subs[n - 1]);
    if o.Done? {
      SettleCount(inst, a, b, o.value, n);
    }
  }

  /** The counters after settling the n-th subscriber count the holders
      among the first n. */
  lemma SettleCount(inst: Instance, a: Attrs, b: Attrs, c: Attrs, n: nat)
    requires WellFormed(inst) && 0 < n <= |inst.subscribers| && Shaped(inst, a) && Shaped(inst, b)
    requires Settle(inst, b, inst.subscribers[n - 1]) == Done(c)
    requires forall q :: q in inst.relays ==> b.allocatedChannels[q] == a.allocatedChannels[q] + Holders(inst.subscribers[..n - 1], b.preferred, q)
    ensures forall q :: q in inst.relays ==> c.allocatedChannels[q] == a.allocatedChannels[q] + Holders(inst.subscribers[..n], c.preferred, q)
  {
    var subs := inst.subscribers;
    forall q | q in inst.relays
      ensures c.allocatedChannels[q] == a.allocatedChannels[q] + Holders(subs[..n], c.preferred, q)
    {
      HoldersSnoc(subs, c.preferred, q, n - 1);
      var front := subs[..n - 1];
      assert forall k :: 0 <= k < |front| ==> c.preferred[front[k]] == b.preferred[front[k]];
      HoldersSame(subs[..n - 1], b.preferred, c.preferred, q);
    }
  }

  // ---------------------------------------------------------------------
  // Phase 4

  /** Relay entry e may take the subscriber: positive offer, spare channel. */
  predicate Fits(e: (Node, real), allocatedChannels: map<Node, int>, channels: int)
    requires e.0 in allocatedChannels
  {
    e.1 > 0.0 && allocatedChannels[e.0] < channels
  }

  /** Entry i fits and no entry before it does. */
  predicate FirstFit(order: seq<(Node, real)>, allocatedChannels: map<Node, int>, channels: int, i: nat)
    requires i < |order| && forall k :: 0 <= k < |order| ==> order[k].0 in allocatedChannels
  {
    && Fits(order[i], allocatedChannels, channels)
    && forall k :: 0 <= k < i ==> !Fits(order[k], allocatedChannels, channels)
  }

  /** The scan stops at the first fitting entry, and finds none only when
      no entry fits. */
  lemma {:induction false} PickFirstFit(order: seq<(Node, real)>, allocatedChannels: map<Node, int>, channels: int)
    requires forall i :: 0 <= i < |order| ==> order[i].0 in allocatedChannels
    ensures match Pick(order, allocatedChannels, channels)
      case None => forall i :: 0 <= i < |order| ==> !Fits(order[i], allocatedChannels, channels)
      case Some(r) => exists i :: 0 <= i < |order| && order[i].0 == r && FirstFit(order, allocatedChannels, channels, i)
  {
    if order != [] && !Fits(order[0], allocatedChannels, channels) {
      var tail := order[1..];
      PickFirstFit(tail, allocatedChannels, channels);
      match Pick(tail, allocatedChannels, channels)
      case None =>
        assert forall i :: 1 <= i < |order| ==> order[i] == tail[i - 1];
      case Some(r) =>
        var i :| 0 <= i < |tail| && tail[i].0 == r && FirstFit(tail, allocatedChannels, channels, i);
        assert order[i + 1] == tail[i];
        forall k | 0 <= k < i + 1
          ensures !Fits(order[k], allocatedChannels, channels)
        {
          if k > 0 {
            assert order[k] == tail[k - 1];
          }
        }
        assert FirstFit(order, allocatedChannels, channels, i + 1);
    }
  }

  /** Every relay's offer appears in the sorted offers, and every sorted
      entry is the offer of a relay. */
  lemma SortedOffers(inst: Instance, a: Attrs, s: Node, vv: seq<(Node, real)>)
    requires Offers(inst, a, s, |inst.relays|) == Done(vv)
    ensures forall q :: q in inst.relays ==> q in a.bestBearing
    ensures var order := SortBy(vv, true);
      && |order| == |vv|
      && (forall q :: q in inst.relays ==> exists j :: 0 <= j < |order| && order[j] == (q, Offer(inst, a, q, s)))
      && (forall i :: 0 <= i < |order| ==> order[i].0 in inst.relays && order[i].1 == Offer(inst, a, order[i].0, s))
  {
    var order := SortBy(vv, true);
    OffersAreRelays(inst, a, s, |inst.relays|);
    SortPermutes(vv, true);
    forall q | q in inst.relays
      ensures q in a.bestBearing
      ensures exists j :: 0 <= j < |order| && order[j] == (q, Offer(inst, a, q, s))
    {
      var m :| 0 <= m < |inst.relays| && inst.relays[m] == q;
      assert vv[m] in multiset(order);
      var j :| 0 <= j < |order| && order[j] == vv[m];
    }
    forall i | 0 <= i < |order|
      ensures order[i].0 in inst.relays && order[i].1 == Offer(inst, a, order[i].0, s)
    {
      assert order[i] in multiset(vv);
      var m :| 0 <= m < |vv| && vv[m] == order[i];
    }
  }

  /** The offers fail exactly at a relay without a best bearing. */
  lemma {:induction false} OffersFail(inst: Instance, a: Attrs, s: Node, n: nat)
    requires n <= |inst.relays|
    ensures Offers(inst, a, s, n).NoBestBearing? ==>
      Offers(inst, a, s, n).relay in inst.relays && Offers(inst, a, s, n).relay !in a.bestBearing
  {
    if n > 0 {
      OffersFail(inst, a, s, n - 1);
    }
  }

  /** When no sorted offer fits, no relay offers a positive value with a
      spare channel. */
  lemma NoRelayFits(inst: Instance, a: Attrs, s: Node, vv: seq<(Node, real)>)
    requires Shaped(inst, a) && Offers(inst, a, s, |inst.relays|) == Done(vv)
    requires forall i :: 0 <= i < |vv| ==> SortBy(vv, true)[i].0 in a.allocatedChannels
    requires Pick(SortBy(vv, true), a.allocatedChannels, inst.channels) == None
    ensures forall q :: q in inst.relays ==> q in a.bestBearing
    ensures forall q :: q in inst.relays ==> !(Offer(inst, a, q, s) > 0.0 && a.allocatedChannels[q] < inst.channels)
  {
    var order := SortBy(vv, true);
    SortedOffers(inst, a, s, vv);
    PickFirstFit(order, a.allocatedChannels, inst.channels);
    forall q | q in inst.relays
      ensures !(Offer(inst, a, q, s) > 0.0 && a.allocatedChannels[q] < inst.channels)
    {
      var j :| 0 <= j < |order| && order[j] == (q, Offer(inst, a, q, s));
      assert !Fits(order[j], a.allocatedChannels, inst.channels);
    }
  }

  /** The relay the scan picks offers a positive value, has a spare channel,
      and offers at least as much as every other such relay. */
  lemma PickedRelayBest(inst: Instance, a: Attrs, s: Node, vv: seq<(Node, real)>, r: Node)
    requires Shaped(inst, a) && Offers(inst, a, s, |inst.relays|) == Done(vv)
    requires forall i :: 0 <= i < |vv| ==> SortBy(vv, true)[i].0 in a.allocatedChannels
    requires Pick(SortBy(vv, true), a.allocatedChannels, inst.channels) == Some(r)
    ensures forall q :: q in inst.relays ==> q in a.bestBearing
    ensures r in inst.relays && Offer(inst, a, r, s) > 0.0 && a.allocatedChannels[r] < inst.channels
    ensures forall q :: q in inst.relays && Offer(inst, a, q, s) > 0.0 && a.allocatedChannels[q] < inst.channels ==>
      Offer(inst, a, q, s) <= Offer(inst, a, r, s)
  {
    var order := SortBy(vv, true);
    SortedOffers(inst, a, s, vv);
    SortOrdered(vv, true);
    PickFirstFit(order, a.allocatedChannels, inst.channels);
    var i :| 0 <= i < |order| && order[i].0 == r && FirstFit(order, a.allocatedChannels, inst.channels, i);
    forall q | q in inst.relays && Offer(inst, a, q, s) > 0.0 && a.allocatedChannels[q] < inst.channels
      ensures Offer(inst, a, q, s) <= Offer(inst, a, r, s)
    {
      var j :| 0 <= j < |order| && order[j] == (q, Offer(inst, a, q, s));
      assert Fits(order[j], a.allocatedChannels, inst.channels);
      if j != i {
        assert i < j;
        assert !Ahead(order[j].1, order[i].1, true);
      }
    }
  }

  /** The second chance of an unassigned subscriber s: it fails exactly when
      some relay has no best bearing; otherwise s either stays unassigned,
      and then no relay offers it a positive value with a spare channel, or
      it takes one relay r that does, with the largest offer among those,
      and only r's counter grows, by one. */
  lemma RescueChoice(inst: Instance, a: Attrs, s: Node)
    requires Shaped(inst, a) && s in inst.subscribers && a.preferred[s] == None
    ensures match Rescue(inst, a, s)
      case NoBestBearing(q) => q in inst.relays && q !in a.bestBearing
      case Done(b) =>
        && (forall q :: q in inst.relays ==> q in a.bestBearing)
        && (b.preferred[s] == None ==>
              && b == a
              && forall q :: q in inst.relays ==> !(Offer(inst, a, q, s) > 0.0 && a.allocatedChannels[q] < inst.channels))
        && (b.preferred[s] != None ==>
              var r := b.preferred[s].value;
              && r in inst.relays && Offer(inst, a, r, s) > 0.0 && a.allocatedChannels[r] < inst.channels
              && b == Attrs(a.preferred[s := Some(r)], a.allocatedChannels[r := a.allocatedChannels[r] + 1], a.bestBearing)
              && forall q :: q in inst.relays && Offer(inst, a, q, s) > 0.0 && a.allocatedChannels[q] < inst.channels ==>
                   Offer(inst, a, q, s) <= Offer(inst, a, r, s))
  {
    match Rescue(inst, a, s)
    case NoBestBearing(q) =>
      RescueFails(inst, a, s);
    case Done(b) =>
      if b.preferred[s] == None {
        RescueStays(inst, a, s);
      } else {
        RescueTakes(inst, a, s);
      }
  }

  /** The offers of an unassigned subscriber, sorted, name relays with counters. */
  lemma SortedOffersCounted(inst: Instance, a: Attrs, s: Node, vv: seq<(Node, real)>)
    requires Shaped(inst, a) && Offers(inst, a, s, |inst.relays|) == Done(vv)
    ensures forall i :: 0 <= i < |vv| ==> SortBy(vv, true)[i].0 in a.allocatedChannels
  {
    SortedOffersAreRelays(inst, a, s, vv);
    var order := SortBy(vv, true);
    forall i | 0 <= i < |vv|
      ensures order[i].0 in a.allocatedChannels
    {
      var q := order[i].0;
      assert q in inst.relays;
    }
  }

  lemma RescueFails(inst: Instance, a: Attrs, s: Node)
    requires Shaped(inst, a) && s in inst.subscribers && a.preferred[s] == None
    requires Rescue(inst, a, s).NoBestBearing?
    ensures var q := Rescue(inst, a, s).relay; q in inst.relays && q !in a.bestBearing
  {
    OffersFail(inst, a, s, |inst.relays|);
  }

  lemma RescueStays(inst: Instance, a: Attrs, s: Node)
    requires Shaped(inst, a) && s in inst.subscribers && a.preferred[s] == None
    requires Rescue(inst, a, s).Done? && Rescue(inst, a, s).value.preferred[s] == None
    ensures Rescue(inst, a, s).value == a
    ensures forall q :: q in inst.relays ==> q in a.bestBearing
    ensures forall q :: q in inst.relays ==> !(Offer(inst, a, q, s) > 0.0 && a.allocatedChannels[q] < inst.channels)
  {
    match Offers(inst, a, s, |inst.relays|)
    case Done(vv) =>
      SortedOffersCounted(inst, a, s, vv);
      match Pick(SortBy(vv, true), a.allocatedChannels, inst.channels)
      case None =>
        NoRelayFits(inst, a, s, vv);
      case Some(r) =>
        assert false;
  }

  lemma RescueTakes(inst: Instance, a: Attrs, s: Node)
    requires Shaped(inst, a) && s in inst.subscribers && a.preferred[s] == None
    requires Rescue(inst, a, s).Done? && Rescue(inst, a, s).value.preferred[s] != None
    ensures forall q :: q in inst.relays ==> q in a.bestBearing
    ensures var b := Rescue(inst, a, s).value; var r := b.preferred[s].value;
      && r in inst.relays && Offer(inst, a, r, s) > 0.0 && a.allocatedChannels[r] < inst.channels
      && b == Attrs(a.preferred[s := Some(r)], a.allocatedChannels[r := a.allocatedChannels[r] + 1], a.bestBearing)
      && forall q :: q in inst.relays && Offer(inst, a, q, s) > 0.0 && a.allocatedChannels[q] < inst.channels ==>
           Offer(inst, a, q, s) <= Offer(inst, a, r, s)
  {
    match Offers(inst, a, s, |inst.relays|)
    case Done(vv) =>
      SortedOffersCounted(inst, a, s, vv);
      match Pick(SortBy(vv, true), a.allocatedChannels, inst.channels)
      case Some(r) =>
        var b := Attrs(a.preferred[s := Some(r)], a.allocatedChannels[r := a.allocatedChannels[r] + 1], a.bestBearing);
        assert Rescue(inst, a, s) == Done(b);
        assert b.preferred[s] == Some(r);
        PickedRelayBest(inst, a, s, vv, r);
  }
}

=== FILE: beam_rules.dfy ===
/** The rules of the beam-scheduling greedy allocators (`greedy1`,
    `greedy2` in beam_scheduling.py), phase by phase, on values. Each node's
    mutable attributes are gathered in `Attrs`; an unsuccessful lookup of a
    relay's `best_bearing` (a KeyError in the source) is the outcome
    `NoBestBearing`. */
module BeamRules {
  import opened SeqSets
  import opened Sorting
  import Throughput
  import Links
  import opened Options

  type Node = Links.Node

  /** One beam of a relay: its bearing and the subscribers it covers. */
  type Beam = (int, seq<Node>)

  /** What the allocators read and never change: the subscriber and relay
      sets in iteration order, the channel count, each subscriber's queue
      length, the directional rate of every (relay, subscriber) pair, the
      slot length, and each relay's beamsets in iteration order. */
  datatype Instance = Instance(
    subscribers: seq<Node>,
    relays: seq<Node>,
    channels: int,
    queue: Node -> real,
    rate: (Node, Node) -> real,
    slot: real,
    beamset: map<Node, seq<Beam>>)

  /** The node attributes the allocators write: `preferred_relay` of the
      subscribers, `allocated_channels` and `best_bearing` of the relays. */
  datatype Attrs = Attrs(
    preferred: map<Node, Option<Node>>,
    allocatedChannels: map<Node, int>,
    bestBearing: map<Node, (int, real)>)

  datatype Outcome<T> = Done(value: T) | NoBestBearing(relay: Node)

  /** Whether an outcome failed, and where. */
  function Status<T>(o: Outcome<T>): Outcome<()> {
    match o
    case Done(_) => Done(())
    case NoBestBearing(q) => NoBestBearing(q)
  }

  /** Subscribers and relays are sets, and every beamset holds subscribers
      only (as `beamsets` builds them). */
  predicate WellFormed(inst: Instance) {
    && Distinct(inst.subscribers)
    && Distinct(inst.relays)
    && (forall r, b, s :: r in inst.beamset && b in inst.beamset[r] && s in b.1 ==> s in inst.subscribers)
  }

  /** Every node of `subs` has a `preferred_relay` entry. */
  predicate Covers(pref: map<Node, Option<Node>>, subs: seq<Node>) {
    forall i :: 0 <= i < |subs| ==> subs[i] in pref
  }

  /** Every subscriber has a `preferred_relay`, which is a relay when set. */
  predicate PrefShaped(inst: Instance, pref: map<Node, Option<Node>>) {
    forall i :: 0 <= i < |inst.subscribers| ==>
      var s := inst.subscribers[i];
      s in pref && (pref[s].Some? ==> pref[s].value in inst.relays)
  }

  /** Besides, every relay has an `allocated_channels` counter. */
  predicate Shaped(inst: Instance, a: Attrs) {
    && PrefShaped(inst, a.preferred)
    && (forall r :: r in inst.relays ==> r in a.allocatedChannels)
  }

  /** What serving s from relay r is worth in one slot:
      ql * min(ql, rate * slot_length). */
  function Value(inst: Instance, r: Node, s: Node): real {
    inst.queue(s) * Throughput.Min(inst.queue(s), inst.rate(r, s) * inst.slot)
  }

  // ---------------------------------------------------------------------
  // Phase 0: every subscriber's preferred relay is cleared.

  function Cleared(pref: map<Node, Option<Node>>, subs: seq<Node>): map<Node, Option<Node>> {
    if subs == [] then pref else Cleared(pref, subs[..|subs| - 1])[subs[|subs| - 1] := None]
  }

  /** After phase 0 every subscriber has `preferred_relay` None, and the
      entries of other nodes are as before. */
  lemma {:induction false} ClearedCells(pref: map<Node, Option<Node>>, subs: seq<Node>)
    ensures forall k :: k in Cleared(pref, subs) <==> k in pref || k in subs
    ensures forall s :: s in subs ==> Cleared(pref, subs)[s] == None
    ensures forall k :: k in pref && k !in subs ==> Cleared(pref, subs)[k] == pref[k]
  {
    if subs != [] {
      var front := subs[..|subs| - 1];
      ClearedCells(pref, front);
      assert forall k :: k in subs <==> k in front || k == subs[|subs| - 1];
    }
  }

  // ---------------------------------------------------------------------
  // Phase 1: relay by relay, subscribers move to the relay when that
  // gains the most.

  /** s's marginal value for r: r's value, less the value of s's current
      preferred relay when it has one. */
  function Marginal(inst: Instance, pref: map<Node, Option<Node>>, r: Node, s: Node): real
    requires s in pref
  {
    match pref[s]
    case None => Value(inst, r, s)
    case Some(spr) => Value(inst, r, s) - Value(inst, spr, s)
  }

  /** The `vv` dictionary of a relay's pass, as (subscriber, marginal value)
      pairs in subscriber iteration order. */
  function Margins(inst: Instance, pref: map<Node, Option<Node>>, r: Node, subs: seq<Node>): (vv: seq<(Node, real)>)
    requires Covers(pref, subs)
    ensures |vv| == |subs|
  {
    if subs == [] then []
    else
      var s := subs[|subs| - 1];
      Margins(inst, pref, r, subs[..|subs| - 1]) + [(s, Marginal(inst, pref, r, s))]
  }

  /** The subscribers the scan over `order` claims while `spare` channels
      remain: each one with a positive value takes one channel. */
  function Claimed(order: seq<(Node, real)>, spare: int): (c: seq<Node>)
    ensures |c| <= if spare > 0 then spare else 0
  {
    if order == [] then []
    else if order[0].1 > 0.0 && spare > 0 then [order[0].0] + Claimed(order[1..], spare - 1)
    else Claimed(order[1..], spare)
  }

  /** `pref` with every subscriber of cs now preferring r. */
  function Assign(pref: map<Node, Option<Node>>, cs: seq<Node>, r: Node): map<Node, Option<Node>>
    decreases |cs|
  {
    if cs == [] then pref else Assign(pref[cs[0] := Some(r)], cs[1..], r)
  }

  /** After `Assign`, the subscribers of cs prefer r and every other entry
      is as before. */
  lemma {:induction false} AssignCells(pref: map<Node, Option<Node>>, cs: seq<Node>, r: Node)
    ensures forall k :: k in Assign(pref, cs, r) <==> k in pref || k in cs
    ensures forall k :: k in cs ==> Assign(pref, cs, r)[k] == Some(r)
    ensures forall k :: k in pref && k !in cs ==> Assign(pref, cs, r)[k] == pref[k]
    decreases |cs|
  {
    if cs != [] {
      AssignCells(pref[cs[0] := Some(r)], cs[1..], r);
      assert forall k :: k in cs <==> k == cs[0] || k in cs[1..];
    }
  }

  /** The subscribers relay r's pass claims. */
  function ClaimedBy(inst: Instance, pref: map<Node, Option<Node>>, r: Node): seq<Node>
    requires Covers(pref, inst.subscribers)
  {
    Claimed(SortBy(Margins(inst, pref, r, inst.subscribers), true), inst.channels)
  }

  /** One relay's pass: its counter is reset, and the subscribers its
      descending-value scan claims now prefer it. */
  function ClaimStep(inst: Instance, a: Attrs, r: Node): (c: Attrs)
    requires PrefShaped(inst, a.preferred) && r in inst.relays
    ensures PrefShaped(inst, c.preferred)
  {
    var cs := ClaimedBy(inst, a.preferred, r);
    AssignCells(a.preferred, cs, r);
    Attrs(Assign(a.preferred, cs, r), a.allocatedChannels[r := 0], a.bestBearing)
  }

  /** Phase 1 over the first n relays. */
  function ClaimAll(inst: Instance, a: Attrs, n: nat): (c: Attrs)
    requires n <= |inst.relays| && PrefShaped(inst, a.preferred)
    ensures PrefShaped(inst, c.preferred)
    ensures forall q :: q in a.allocatedChannels ==> q in c.allocatedChannels
    ensures forall i :: 0 <= i < n ==> inst.relays[i] in c.allocatedChannels
  {
    if n == 0 then a else ClaimStep(inst, ClaimAll(inst, a, n - 1), inst.relays[n - 1])
  }

  // ---------------------------------------------------------------------
  // Phase 2: every relay picks the bearing of its most valuable beamset.

  /** `network.beamset[r]`: no beamsets for a relay without an entry. */
  function Beams(inst: Instance, r: Node): seq<Beam> {
    if r in inst.beamset then inst.beamset[r] else []
  }

  /** `network.beamset[r][b]`: the subscribers of the beam with bearing b,
      none when there is no such beam. */
  function Lookup(beams: seq<Beam>, b: int): seq<Node> {
    if beams == [] then [] else if beams[0].0 == b then beams[0].1 else Lookup(beams[1..], b)
  }

  /** The subscribers of relay r's best beam. */
  function BestBeam(inst: Instance, a: Attrs, r: Node): seq<Node>
    requires r in a.bestBearing
  {
    Lookup(Beams(inst, r), a.bestBearing[r].0)
  }

  /** Every subscriber in every beamset has a `preferred_relay` entry. */
  predicate BeamsCovered(inst: Instance, pref: map<Node, Option<Node>>) {
    forall r, b :: r in inst.beamset && b in inst.beamset[r] ==> Covers(pref, b.1)
  }

  /** When every subscriber has an entry, so does every beamset member. */
  lemma CoveredBeams(inst: Instance, pref: map<Node, Option<Node>>)
    requires WellFormed(inst) && Covers(pref, inst.subscribers)
    ensures BeamsCovered(inst, pref)
  {
    forall r, b | r in inst.beamset && b in inst.beamset[r]
      ensures Covers(pref, b.1)
    {
      forall i | 0 <= i < |b.1|
        ensures b.1[i] in pref
      {
        var s := b.1[i];
        assert s in inst.subscribers;
        var k :| 0 <= k < |inst.subscribers| && inst.subscribers[k] == s;
      }
    }
  }

  /** A beamset's value for r: the values of its members that prefer r. */
  function BeamValue(inst: Instance, pref: map<Node, Option<Node>>, r: Node, members: seq<Node>): real
    requires Covers(pref, members)
  {
    if members == [] then 0.0
    else
      var s := members[|members| - 1];
      BeamValue(inst, pref, r, members[..|members| - 1]) + (if pref[s] == Some(r) then Value(inst, r, s) else 0.0)
  }

  /** The scan over the beams that keeps (bearing, value) of the last beam
      whose value reaches the best value so far, starting from `best` and
      `bound`. */
  function Choose(inst: Instance, pref: map<Node, Option<Node>>, r: Node, beams: seq<Beam>,
                  best: Option<(int, real)>, bound: real): Option<(int, real)>
    requires forall b :: b in beams ==> Covers(pref, b.1)
  {
    if beams == [] then best
    else
      var v := BeamValue(inst, pref, r, beams[0].1);
      if v >= bound then Choose(inst, pref, r, beams[1..], Some((beams[0].0, v)), v)
      else Choose(inst, pref, r, beams[1..], best, bound)
  }

  /** One relay's bearing choice: its counter is reset and its best bearing
      is replaced when some beamset's value reaches 0.0; otherwise the
      earlier best bearing stays. */
  function BearingStep(inst: Instance, a: Attrs, r: Node): Attrs
    requires BeamsCovered(inst, a.preferred)
  {
    var found := Choose(inst, a.preferred, r, Beams(inst, r), None, 0.0);
    Attrs(a.preferred, a.allocatedChannels[r := 0],
          if found.Some? then a.bestBearing[r := found.value] else a.bestBearing)
  }

  /** Phase 2 over the first n relays (greedy1). */
  function BearingAll(inst: Instance, a: Attrs, n: nat): (c: Attrs)
    requires n <= |inst.relays| && BeamsCovered(inst, a.preferred)
    ensures c.preferred == a.preferred
    ensures forall q :: q in a.allocatedChannels ==> q in c.allocatedChannels
    ensures forall i :: 0 <= i < n ==> inst.relays[i] in c.allocatedChannels && c.allocatedChannels[inst.relays[i]] == 0
  {
    if n == 0 then a else BearingStep(inst, BearingAll(inst, a, n - 1), inst.relays[n - 1])
  }

  /** greedy2's relay loop over the first n relays: each relay's claims,
      then at once its bearing choice. */
  function ClaimChooseAll(inst: Instance, a: Attrs, n: nat): (c: Attrs)
    requires WellFormed(inst) && n <= |inst.relays| && PrefShaped(inst, a.preferred)
    ensures PrefShaped(inst, c.preferred)
    ensures forall q :: q in a.allocatedChannels ==> q in c.allocatedChannels
    ensures forall i :: 0 <= i < n ==> inst.relays[i] in c.allocatedChannels && c.allocatedChannels[inst.relays[i]] == 0
  {
    if n == 0 then a
    else
      var r := inst.relays[n - 1];
      var claimed := ClaimStep(inst, ClaimChooseAll(inst, a, n - 1), r);
      CoveredBeams(inst, claimed.preferred);
      BearingStep(inst, claimed, r)
  }

  // ---------------------------------------------------------------------
  // Phase 3 (greedy1 only): subscribers outside their relay's best beam
  // are released, the others counted.

  function Settle(inst: Instance, a: Attrs, s: Node): (o: Outcome<Attrs>)
    requires Shaped(inst, a) && s in inst.subscribers
    ensures o.Done? ==> Shaped(inst, o.value)
  {
    match a.preferred[s]
    case None => Done(a)
    case Some(r) =>
      if r !in a.bestBearing then NoBestBearing(r)
      else if s in BestBeam(inst, a, r) then Done(a.(allocatedChannels := a.allocatedChannels[r := a.allocatedChannels[r] + 1]))
      else Done(a.(preferred := a.preferred[s := None]))
  }

  /** Phase 3 over the first n subscribers. */
  function SettleAll(inst: Instance, a: Attrs, n: nat): (o: Outcome<Attrs>)
    requires n <= |inst.subscribers| && Shaped(inst, a)
    ensures o.Done? ==> Shaped(inst, o.value)
  {
    if n == 0 then Done(a)
    else
      match SettleAll(inst, a, n - 1)
      case NoBestBearing(q) => NoBestBearing(q)
      case Done(b) => Settle(inst, b, inst.subscribers[n - 1])
  }

  // ---------------------------------------------------------------------
  // Phase 4: every subscriber still without a relay gets a second chance.

  /** What relay r offers s: its value when s lies in r's best beam. */
  function Offer(inst: Instance, a: Attrs, r: Node, s: Node): real
    requires r in a.bestBearing
  {
    if s in BestBeam(inst, a, r) then Value(inst, r, s) else 0.0
  }

  /** The offers of the first n relays as (relay, offer) pairs, or the first
      of them without a best bearing. */
  function Offers(inst: Instance, a: Attrs, s: Node, n: nat): (o: Outcome<seq<(Node, real)>>)
    requires n <= |inst.relays|
    ensures o.Done? ==> |o.value| == n
    ensures o.Done? ==> forall i :: 0 <= i < n ==> inst.relays[i] in a.bestBearing
  {
    if n == 0 then Done([])
    else
      match Offers(inst, a, s, n - 1)
      case NoBestBearing(q) => NoBestBearing(q)
      case Done(vv) =>
        var r := inst.relays[n - 1];
        if r !in a.bestBearing then NoBestBearing(r) else Done(vv + [(r, Offer(inst, a, r, s))])
  }

  /** The first relay of `order` with a positive offer and a spare channel. */
  function Pick(order: seq<(Node, real)>, allocatedChannels: map<Node, int>, channels: int): (p: Option<Node>)
    requires forall i :: 0 <= i < |order| ==> order[i].0 in allocatedChannels
    ensures p.Some? ==> exists i :: 0 <= i < |order| && order[i].0 == p.value
  {
    if order == [] then None
    else if order[0].1 > 0.0 && allocatedChannels[order[0].0] < channels then Some(order[0].0)
    else Pick(order[1..], allocatedChannels, channels)
  }

  /** The relays of the offers, in relay order. */
  lemma {:induction false} OffersAreRelays(inst: Instance, a: Attrs, s: Node, n: nat)
    requires n <= |inst.relays|
    ensures Offers(inst, a, s, n).Done? ==>
      forall i :: 0 <= i < n ==> Offers(inst, a, s, n).value[i] == (inst.relays[i], Offer(inst, a, inst.relays[i], s))
  {
    if n > 0 {
      OffersAreRelays(inst, a, s, n - 1);
    }
  }

  /** Sorting the offers keeps them offers of relays. */
  lemma SortedOffersAreRelays(inst: Instance, a: Attrs, s: Node, vv: seq<(Node, real)>)
    requires Offers(inst, a, s, |inst.relays|) == Done(vv)
    ensures forall i :: 0 <= i < |vv| ==> SortBy(vv, true)[i].0 in inst.relays
  {
    OffersAreRelays(inst, a, s, |inst.relays|);
    SortPermutes(vv, true);
    forall i | 0 <= i < |vv|
      ensures SortBy(vv, true)[i].0 in inst.relays
    {
      assert SortBy(vv, true)[i] in multiset(vv);
    }
  }

  /** An unassigned subscriber takes the first relay, in descending offer
      order, whose offer is positive and which has a spare channel. */
  function Rescue(inst: Instance, a: Attrs, s: Node): (o: Outcome<Attrs>)
    requires Shaped(inst, a) && s in inst.subscribers
    ensures o.Done? ==> Shaped(inst, o.value)
  {
    if a.preferred[s].Some? then Done(a)
    else
      match Offers(inst, a, s, |inst.relays|)
      case NoBestBearing(q) => NoBestBearing(q)
      case Done(vv) =>
        var order := SortBy(vv, true);
        SortedOffersAreRelays(inst, a, s, vv);
        assert forall i :: 0 <= i < |order| ==> order[i].0 in a.allocatedChannels by {
          forall i | 0 <= i < |order|
            ensures order[i].0 in a.allocatedChannels
          {
            var q := order[i].0;
            assert q in inst.relays;
          }
        }
        match Pick(order, a.allocatedChannels, inst.channels)
        case None => Done(a)
        case Some(r) =>
          Done(Attrs(a.preferred[s := Some(r)], a.allocatedChannels[r := a.allocatedChannels[r] + 1], a.bestBearing))
  }

  /** Phase 4 over the first n subscribers. */
  function RescueAll(inst: Instance, a: Attrs, n: nat): (o: Outcome<Attrs>)
    requires n <= |inst.subscribers| && Shaped(inst, a)
    ensures o.Done? ==> Shaped(inst, o.value)
  {
    if n == 0 then Done(a)
    else
      match RescueAll(inst, a, n - 1)
      case NoBestBearing(q) => NoBestBearing(q)
      case Done(b) => Rescue(inst, b, inst.subscribers[n - 1])
  }

  // ---------------------------------------------------------------------
  // Phase 5: the objective.

  /** A subscriber's share of the objective: its value when it lies in its
      preferred relay's best beam. */
  function Share(inst: Instance, a: Attrs, s: Node): Outcome<real>
    requires s in a.preferred
  {
    match a.preferred[s]
    case None => Done(0.0)
    case Some(r) =>
      if r !in a.bestBearing then NoBestBearing(r)
      else Done(if s in BestBeam(inst, a, r) then Value(inst, r, s) else 0.0)
  }

  /** The objective over the first n subscribers. */
  function Objective(inst: Instance, a: Attrs, n: nat): Outcome<real>
    requires n <= |inst.subscribers| && Covers(a.preferred, inst.subscribers)
  {
    if n == 0 then Done(0.0)
    else
      match Objective(inst, a, n - 1)
      case NoBestBearing(q) => NoBestBearing(q)
      case Done(sum) =>
        match Share(inst, a, inst.subscribers[n - 1])
        case NoBestBearing(q) => NoBestBearing(q)
        case Done(v) => Done(sum + v)
  }

  // ---------------------------------------------------------------------
  // The allocators

  /** Phases 4 and 5, shared by both allocators: the final attributes and
      the objective. */
  function Finish(inst: Instance, a: Attrs): Outcome<(Attrs, real)>
    requires Shaped(inst, a)
  {
    match RescueAll(inst, a, |inst.subscribers|)
    case NoBestBearing(q) => NoBestBearing(q)
    case Done(b) =>
      match Objective(inst, b, |inst.subscribers|)
      case NoBestBearing(q) => NoBestBearing(q)
      case Done(obj) => Done((b, obj))
  }

  /** Phase 0 as both allocators start. */
  function Reset(a: Attrs, subs: seq<Node>): Attrs {
    a.(preferred := Cleared(a.preferred, subs))
  }

  lemma ResetShaped(inst: Instance, a: Attrs)
    ensures PrefShaped(inst, Reset(a, inst.subscribers).preferred)
  {
    ClearedCells(a.preferred, inst.subscribers);
  }

  /** `greedy1`: the final node attributes and the objective it returns. */
  function Greedy1Spec(inst: Instance, a0: Attrs): Outcome<(Attrs, real)>
    requires WellFormed(inst)
  {
    var a1 := Reset(a0, inst.subscribers);
    ResetShaped(inst, a0);
    var a2 := ClaimAll(inst, a1, |inst.relays|);
    CoveredBeams(inst, a2.preferred);
    var a3 := BearingAll(inst, a2, |inst.relays|);
    match SettleAll(inst, a3, |inst.subscribers|)
    case NoBestBearing(q) => NoBestBearing(q)
    case Done(a4) => Finish(inst, a4)
  }

  /** `greedy2`: as greedy1, with each relay's bearing chosen right after its
      claims and without phase 3. */
  function Greedy2Spec(inst: Instance, a0: Attrs): Outcome<(Attrs, real)>
    requires WellFormed(inst)
  {
    var a1 := Reset(a0, inst.subscribers);
    ResetShaped(inst, a0);
    Finish(inst, ClaimChooseAll(inst, a1, |inst.relays|))
  }
}

=== FILE: beam_totals.dfy ===
/** Whole-run properties of `greedy1` and `greedy2`: no relay's
    `allocated_channels` exceeds the channel count, and the objective is
    nonnegative. */
module BeamTotals {
  import opened SeqSets
  import opened Options
  import opened BeamRules
  import opened BeamProperties
  import Throughput

  // ---------------------------------------------------------------------
  // Counting holders

  lemma {:induction false} HoldersNone(subs: seq<Node>, pref: map<Node, Option<Node>>, r: Node)
    requires Covers(pref, subs)
    requires forall i :: 0 <= i < |subs| ==> pref[subs[i]] != Some(r)
    ensures Holders(subs, pref, r) == 0
  {
    if subs != [] {
      HoldersNone(subs[..|subs| - 1], pref, r);
    }
  }

  /** Making one more subscriber of subs prefer r adds exactly one holder of
      r, when subs has no repeated subscriber. */
  lemma {:induction false} HoldersBump(subs: seq<Node>, pref: map<Node, Option<Node>>, x: Node, r: Node)
    requires Covers(pref, subs) && Distinct(subs) && x in subs && pref[x] != Some(r)
    ensures Holders(subs, pref[x := Some(r)], r) == Holders(subs, pref, r) + 1
  {
    var front := subs[..|subs| - 1];
    var last := subs[|subs| - 1];
    if last == x {
      assert forall i :: 0 <= i < |front| ==> front[i] != x;
      HoldersSame(front, pref, pref[x := Some(r)], r);
    } else {
      assert x in front;
      HoldersBump(front, pref, x, r);
    }
  }

  /** Making one subscriber prefer r adds at most one holder of r. */
  lemma HoldersStep(subs: seq<Node>, pref: map<Node, Option<Node>>, x: Node, r: Node)
    requires Covers(pref, subs) && Distinct(subs)
    ensures Holders(subs, pref[x := Some(r)], r) <= Holders(subs, pref, r) + 1
  {
    if x in subs && pref[x] != Some(r) {
      HoldersBump(subs, pref, x, r);
    } else {
      HoldersSame(subs, pref, pref[x := Some(r)], r);
    }
  }

  /** Assigning the subscribers of cs to r adds at most |cs| holders of r. */
  lemma {:induction false} HoldersAssign(subs: seq<Node>, pref: map<Node, Option<Node>>, cs: seq<Node>, r: Node)
    requires Covers(pref, subs) && Distinct(subs)
    ensures Covers(Assign(pref, cs, r), subs)
    ensures Holders(subs, Assign(pref, cs, r), r) <= Holders(subs, pref, r) + |cs|
    decreases |cs|
  {
    AssignCells(pref, cs, r);
    if cs != [] {
      HoldersStep(subs, pref, cs[0], r);
      HoldersAssign(subs, pref[cs[0] := Some(r)], cs[1..], r);
    }
  }

  // ---------------------------------------------------------------------
  // Phase 1: every relay ends with at most `channels` holders

  /** After the passes of the first n relays, starting with no subscriber
      assigned, every subscriber prefers none or one of those relays, and
      each of them is preferred by at most `channels` subscribers: a relay
      claims at most that many in its own pass and later passes only take
      subscribers away from it. */
  lemma {:induction false} ClaimAllBounded(inst: Instance, a: Attrs, n: nat)
    requires WellFormed(inst) && n <= |inst.relays| && PrefShaped(inst, a.preferred)
    requires forall i :: 0 <= i < |inst.subscribers| ==> a.preferred[inst.subscribers[i]] == None
    ensures var c := ClaimAll(inst, a, n);
      && (forall i :: 0 <= i < |inst.subscribers| ==>
            c.preferred[inst.subscribers[i]] == None || c.preferred[inst.subscribers[i]].value in inst.relays[..n])
      && (forall k :: 0 <= k < n ==> Holders(inst.subscribers, c.preferred, inst.relays[k]) <= (if inst.channels > 0 then inst.channels else 0))
  {
    if n > 0 {
      ClaimAllBounded(inst, a, n - 1);
      var c := ClaimAll(inst, a, n - 1);
      assert ClaimAll(inst, a, n) == ClaimStep(inst, c, inst.relays[n - 1]);
      ClaimStepInRange(inst, c, n);
      ClaimStepBounded(inst, c, n);
    }
  }

  /** The n-th relay's pass leaves every subscriber preferring none or one
      of the first n relays, when before it they preferred none or one of
      the first n - 1. */
  lemma ClaimStepInRange(inst: Instance, c: Attrs, n: nat)
    requires WellFormed(inst) && 0 < n <= |inst.relays| && PrefShaped(inst, c.preferred)
    requires forall i :: 0 <= i < |inst.subscribers| ==>
               c.preferred[inst.subscribers[i]] == None || c.preferred[inst.subscribers[i]].value in inst.relays[..n - 1]
    ensures var pref' := ClaimStep(inst, c, inst.relays[n - 1]).preferred;
      forall i :: 0 <= i < |inst.subscribers| ==>
        pref'[inst.subscribers[i]] == None || pref'[inst.subscribers[i]].value in inst.relays[..n]
  {
    var subs := inst.subscribers;
    var r := inst.relays[n - 1];
    var cs := ClaimedBy(inst, c.preferred, r);
    var pref' := ClaimStep(inst, c, r).preferred;
    AssignCells(c.preferred, cs, r);
    assert inst.relays[..n][n - 1] == r;
    forall i | 0 <= i < |subs|
      ensures pref'[subs[i]] == None || pref'[subs[i]].value in inst.relays[..n]
    {
      if subs[i] !in cs && c.preferred[subs[i]] != None {
        var q := c.preferred[subs[i]].value;
        var k :| 0 <= k < n - 1 && inst.relays[..n - 1][k] == q;
        assert inst.relays[..n][k] == q;
      }
    }
  }

  /** The n-th relay's pass leaves it at most `channels` holders and takes
      none from it, and only takes holders away from the relays before it. */
  lemma ClaimStepBounded(inst: Instance, c: Attrs, n: nat)
    requires WellFormed(inst) && 0 < n <= |inst.relays| && PrefShaped(inst, c.preferred)
    requires forall i :: 0 <= i < |inst.subscribers| ==>
               c.preferred[inst.subscribers[i]] == None || c.preferred[inst.subscribers[i]].value in inst.relays[..n - 1]
    requires forall k :: 0 <= k < n - 1 ==> Holders(inst.subscribers, c.preferred, inst.relays[k]) <= (if inst.channels > 0 then inst.channels else 0)
    ensures var pref' := ClaimStep(inst, c, inst.relays[n - 1]).preferred;
      forall k :: 0 <= k < n ==> Holders(inst.subscribers, pref', inst.relays[k]) <= (if inst.channels > 0 then inst.channels else 0)
  {
    var subs := inst.subscribers;
    var r := inst.relays[n - 1];
    var cs := ClaimedBy(inst, c.preferred, r);
    var pref' := ClaimStep(inst, c, r).preferred;
    assert pref' == Assign(c.preferred, cs, r);
    AssignCells(c.preferred, cs, r);
    forall i | 0 <= i < |subs|
      ensures c.preferred[subs[i]] != Some(r)
    {
      if c.preferred[subs[i]] != None {
        var q := c.preferred[subs[i]].value;
        var k :| 0 <= k < n - 1 && inst.relays[..n - 1][k] == q;
      }
    }
    HoldersNone(subs, c.preferred, r);
    HoldersAssign(subs, c.preferred, cs, r);
    forall k | 0 <= k < n
      ensures Holders(subs, pref', inst.relays[k]) <= (if inst.channels > 0 then inst.channels else 0)
    {
      if k < n - 1 {
        HoldersMono(subs, c.preferred, pref', inst.relays[k]);
      }
    }
  }

  // ---------------------------------------------------------------------
  // Phase 4 keeps the counters within the channel count

  /** Every relay's counter is at most the channel count. */
  predicate Bounded(inst: Instance, a: Attrs)
    requires Shaped(inst, a)
  {
    forall q :: q in inst.relays ==> a.allocatedChannels[q] <= inst.channels
  }

  /** Besides, every relay's counter is the number of subscribers that
      prefer it. */
  predicate Tallied(inst: Instance, a: Attrs)
    requires Shaped(inst, a)
  {
    && Bounded(inst, a)
    && forall q :: q in inst.relays ==> a.allocatedChannels[q] == Holders(inst.subscribers, a.preferred, q)
  }

  lemma RescueBounded(inst: Instance, a: Attrs, s: Node)
    requires Shaped(inst, a) && s in inst.subscribers && Bounded(inst, a)
    ensures Rescue(inst, a, s).Done? ==> Bounded(inst, Rescue(inst, a, s).value)
  {
    if a.preferred[s] == None {
      RescueChoice(inst, a, s);
    }
  }

  lemma RescueTallied(inst: Instance, a: Attrs, s: Node)
    requires WellFormed(inst) && Shaped(inst, a) && s in inst.subscribers && Tallied(inst, a)
    ensures Rescue(inst, a, s).Done? ==> Tallied(inst, Rescue(inst, a, s).value)
  {
    if a.preferred[s] == None {
      RescueChoice(inst, a, s);
      var o := Rescue(inst, a, s);
      if o.Done? && o.value.preferred[s] != None {
        var b := o.value;
        var r := b.preferred[s].value;
        var subs := inst.subscribers;
        HoldersBump(subs, a.preferred, s, r);
        forall q | q in inst.relays && q != r
          ensures b.allocatedChannels[q] == Holders(subs, b.preferred, q)
        {
          HoldersSame(subs, a.preferred, b.preferred, q);
        }
      }
    }
  }

  lemma {:induction false} RescueAllBounded(inst: Instance, a: Attrs, n: nat)
    requires n <= |inst.subscribers| && Shaped(inst, a) && Bounded(inst, a)
    ensures RescueAll(inst, a, n).Done? ==> Bounded(inst, RescueAll(inst, a, n).value)
  {
    if n > 0 {
      RescueAllBounded(inst, a, n - 1);
      if RescueAll(inst, a, n - 1).Done? {
        RescueBounded(inst, RescueAll(inst, a, n - 1).value, inst.subscribers[n - 1]);
      }
    }
  }

  lemma {:induction false} RescueAllTallied(inst: Instance, a: Attrs, n: nat)
    requires WellFormed(inst) && n <= |inst.subscribers| && Shaped(inst, a) && Tallied(inst, a)
    ensures RescueAll(inst, a, n).Done? ==> Tallied(inst, RescueAll(inst, a, n).value)
  {
    if n > 0 {
      RescueAllTallied(inst, a, n - 1);
      if RescueAll(inst, a, n - 1).Done? {
        RescueTallied(inst, RescueAll(inst, a, n - 1).value, inst.subscribers[n - 1]);
      }
    }
  }

  // ---------------------------------------------------------------------
  // The allocators

  /** greedy1 leaves every relay's `allocated_channels` equal to the number
      of subscribers that prefer it, and at most the channel count. */
  lemma Greedy1Capacity(inst: Instance, a0: Attrs)
    requires WellFormed(inst) && inst.channels >= 0
    ensures Greedy1Spec(inst, a0).Done? ==>
      var a := Greedy1Spec(inst, a0).value.0;
      && Shaped(inst, a)
      && forall q :: q in inst.relays ==>
           a.allocatedChannels[q] == Holders(inst.subscribers, a.preferred, q) <= inst.channels
  {
    var subs := inst.subscribers;
    var a1 := Reset(a0, subs);
    ResetShaped(inst, a0);
    ClearedCells(a0.preferred, subs);
    var a2 := ClaimAll(inst, a1, |inst.relays|);
    ClaimAllBounded(inst, a1, |inst.relays|);
    CoveredBeams(inst, a2.preferred);
    var a3 := BearingAll(inst, a2, |inst.relays|);
    assert Shaped(inst, a3);
    forall q | q in inst.relays
      ensures a3.allocatedChannels[q] == 0 && Holders(subs, a3.preferred, q) <= inst.channels
    {
      var k :| 0 <= k < |inst.relays| && inst.relays[k] == q;
    }
    match SettleAll(inst, a3, |subs|)
    case NoBestBearing(_) =>
    case Done(a4) =>
      SettledTallied(inst, a3, a4);
      assert Greedy1Spec(inst, a0) == Finish(inst, a4);
      FinishTallied(inst, a4);
  }

  /** Phases 4 and 5 keep every counter equal to its relay's holders and
      within the channel count. */
  lemma FinishTallied(inst: Instance, a: Attrs)
    requires WellFormed(inst) && Shaped(inst, a) && Tallied(inst, a)
    ensures Finish(inst, a).Done? ==>
      var b := Finish(inst, a).value.0;
      && Shaped(inst, b)
      && forall q :: q in inst.relays ==>
           b.allocatedChannels[q] == Holders(inst.subscribers, b.preferred, q) <= inst.channels
  {
    RescueAllTallied(inst, a, |inst.subscribers|);
  }

  /** After phase 3 from fresh counters and claims within the channel
      count, every counter is the number of the relay's holders. */
  lemma SettledTallied(inst: Instance, a3: Attrs, a4: Attrs)
    requires WellFormed(inst) && Shaped(inst, a3)
    requires SettleAll(inst, a3, |inst.subscribers|) == Done(a4)
    requires forall q :: q in inst.relays ==>
               a3.allocatedChannels[q] == 0 && Holders(inst.subscribers, a3.preferred, q) <= inst.channels
    ensures Shaped(inst, a4) && Tallied(inst, a4)
  {
    var subs := inst.subscribers;
    SettleAllCells(inst, a3, |subs|);
    assert subs[..|subs|] == subs;
    forall q | q in inst.relays
      ensures a4.allocatedChannels[q] == Holders(subs, a4.preferred, q) <= inst.channels
    {
      HoldersMono(subs, a3.preferred, a4.preferred, q);
    }
  }

  /** greedy2 leaves every relay's `allocated_channels` at most the channel
      count (the subscribers a relay claims in its own pass are not counted
      in it). */
  lemma Greedy2Capacity(inst: Instance, a0: Attrs)
    requires WellFormed(inst) && inst.channels >= 0
    ensures Greedy2Spec(inst, a0).Done? ==>
      var a := Greedy2Spec(inst, a0).value.0;
      && Shaped(inst, a)
      && forall q :: q in inst.relays ==> a.allocatedChannels[q] <= inst.channels
  {
    var a1 := Reset(a0, inst.subscribers);
    ResetShaped(inst, a0);
    var a2 := ClaimChooseAll(inst, a1, |inst.relays|);
    assert Shaped(inst, a2);
    assert Bounded(inst, a2);
    RescueAllBounded(inst, a2, |inst.subscribers|);
  }

  // ---------------------------------------------------------------------
  // The objective

  /** Queue lengths, rates and the slot length are nonnegative. */
  ghost predicate NonnegativeInputs(inst: Instance) {
    && inst.slot >= 0.0
    && (forall s :: inst.queue(s) >= 0.0)
    && (forall r, s :: inst.rate(r, s) >= 0.0)
  }

  lemma ValueNonnegative(inst: Instance, r: Node, s: Node)
    requires NonnegativeInputs(inst)
    ensures Value(inst, r, s) >= 0.0
  {
    var q := inst.queue(s);
    var m := Throughput.Min(q, inst.rate(r, s) * inst.slot);
    assert inst.rate(r, s) * inst.slot >= 0.0;
    assert m >= 0.0;
    assert q * m >= 0.0;
  }

  /** The objective over the first n subscribers is nonnegative on
      nonnegative inputs. */
  lemma {:induction false} ObjectiveNonnegative(inst: Instance, a: Attrs, n: nat)
    requires n <= |inst.subscribers| && Covers(a.preferred, inst.subscribers) && NonnegativeInputs(inst)
    ensures Objective(inst, a, n).Done? ==> Objective(inst, a, n).value >= 0.0
  {
    if n > 0 {
      ObjectiveNonnegative(inst, a, n - 1);
      var s := inst.subscribers[n - 1];
      if a.preferred[s].Some? {
        ValueNonnegative(inst, a.preferred[s].value, s);
      }
    }
  }

  /** Both allocators return a nonnegative objective on nonnegative
      inputs. */
  lemma GreedyObjectiveNonnegative(inst: Instance, a0: Attrs)
    requires WellFormed(inst) && NonnegativeInputs(inst)
    ensures Greedy1Spec(inst, a0).Done? ==> Greedy1Spec(inst, a0).value.1 >= 0.0
    ensures Greedy2Spec(inst, a0).Done? ==> Greedy2Spec(inst, a0).value.1 >= 0.0
  {
    forall a | Shaped(inst, a)
      ensures Finish(inst, a).Done? ==> Finish(inst, a).value.1 >= 0.0
    {
      if RescueAll(inst, a, |inst.subscribers|).Done? {
        ObjectiveNonnegative(inst, RescueAll(inst, a, |inst.subscribers|).value, |inst.subscribers|);
      }
    }
  }
}

=== FILE: clique.dfy ===
/** `max_clique`: the largest run of entries that all interfere with the
    run's first entry, among the runs that end at or before `loc`. */
module Clique {
  import opened Links

  /** The end of the run that starts at position i, scanning from j: the
      first position at or after j that is past the end of `links` or whose
      entry does not interfere with links[i] on (f, c). */
  function RunEnd(net: Net, links: seq<Edge>, i: nat, j: nat, f: Band, c: int): (r: nat)
    requires i < j <= |links|
    ensures j <= r <= |links|
    decreases |links| - j
  {
    if j < |links| && CheckInterference(net, KEdge(links[i]), KEdge(links[j]), f, c)
    then RunEnd(net, links, i, j + 1, f, c)
    else j
  }

  /** The run starting at i: its end and the size the scan assigns it
      (end - i + 1, one more than the number of entries in it). */
  function WindowEnd(net: Net, links: seq<Edge>, i: nat, f: Band, c: int): nat
    requires i < |links|
  {
    RunEnd(net, links, i, i + 1, f, c)
  }

  function WindowSize(net: Net, links: seq<Edge>, i: nat, f: Band, c: int): nat
    requires i < |links|
  {
    WindowEnd(net, links, i, f, c) - i + 1
  }

  /** A run starting at i counts when both its start and its end are at or
      before loc. */
  predicate Eligible(net: Net, links: seq<Edge>, loc: int, i: nat, f: Band, c: int)
    requires i < |links|
  {
    i <= loc && WindowEnd(net, links, i, f, c) <= loc
  }

  /** The scan over the first n start positions, keeping the largest
      eligible size (a strictly larger one replaces the current one). */
  function MaxCliqueUpTo(net: Net, links: seq<Edge>, loc: int, f: Band, c: int, n: nat): nat
    requires n <= |links|
  {
    if n == 0 then 0
    else
      var prev := MaxCliqueUpTo(net, links, loc, f, c, n - 1);
      var size := WindowSize(net, links, n - 1, f, c);
      if Eligible(net, links, loc, n - 1, f, c) && size > prev then size else prev
  }

  function MaxClique(net: Net, links: seq<Edge>, loc: int, f: Band, c: int): nat {
    MaxCliqueUpTo(net, links, loc, f, c, |links|)
  }

  /** The scan's result is 0 exactly when no run among the first n is
      eligible; otherwise it is the size of an eligible run, at least the
      size of every eligible run, and between 2 and |links| + 1. */
  lemma {:induction false} MaxCliqueUpToIsMax(net: Net, links: seq<Edge>, loc: int, f: Band, c: int, n: nat)
    requires n <= |links|
    ensures var r := MaxCliqueUpTo(net, links, loc, f, c, n);
      && (r == 0 <==> forall i :: 0 <= i < n ==> !Eligible(net, links, loc, i, f, c))
      && (r != 0 ==> 2 <= r <= |links| + 1)
      && (r != 0 ==> exists i :: 0 <= i < n && Eligible(net, links, loc, i, f, c) && r == WindowSize(net, links, i, f, c))
      && (forall i :: 0 <= i < n && Eligible(net, links, loc, i, f, c) ==> WindowSize(net, links, i, f, c) <= r)
  {
    if n > 0 {
      MaxCliqueUpToIsMax(net, links, loc, f, c, n - 1);
    }
  }

  /** `max_clique` always ends; its result is 0 when no run ends at or
      before loc, and otherwise the largest eligible run size, which lies
      between 2 and |links| + 1. */
  lemma MaxCliqueBounds(net: Net, links: seq<Edge>, loc: int, f: Band, c: int)
    ensures var r := MaxClique(net, links, loc, f, c);
      && (r == 0 <==> forall i :: 0 <= i < |links| ==> !Eligible(net, links, loc, i, f, c))
      && (r != 0 ==> 2 <= r <= |links| + 1)
      && (forall i :: 0 <= i < |links| && Eligible(net, links, loc, i, f, c) ==> WindowSize(net, links, i, f, c) <= r)
  {
    MaxCliqueUpToIsMax(net, links, loc, f, c, |links|);
  }

  /** The inner scan of `max_clique`: walk forward from i + 1 while the
      entries interfere with links[i]. */
  method ScanRun(net: Net, links: seq<Edge>, i: nat, f: Band, c: int) returns (j: nat)
    requires i < |links|
    ensures j == WindowEnd(net, links, i, f, c)
  {
    j := i + 1;
    while j < |links| && CheckInterference(net, KEdge(links[i]), KEdge(links[j]), f, c)
      invariant i + 1 <= j <= |links|
      invariant RunEnd(net, links, i, j, f, c) == WindowEnd(net, links, i, f, c)
      decreases |links| - j
    {
      j := j + 1;
    }
  }

  /** `max_clique`, the two nested scans of the source. */
  method MaxCliqueScan(net: Net, links: seq<Edge>, loc: int, f: Band, c: int) returns (maxSize: nat)
    ensures maxSize == MaxClique(net, links, loc, f, c)
  {
    maxSize := 0;
    var i := 0;
    while i < |links|
      invariant 0 <= i <= |links|
      invariant maxSize == MaxCliqueUpTo(net, links, loc, f, c, i)
    {
      var j := ScanRun(net, links, i, f, c);
      var size := j - i + 1;
      if i <= loc && j <= loc && size > maxSize {
        maxSize := size;
      }
      i := i + 1;
    }
  }
}

=== FILE: codec.dfy ===
/** Bit-index encoding of subsets of an enumerated set (`encode_set`,
    `decode_set`): bit k of the index stands for the k-th element of the
    enumeration. */
module SubsetCodec {
  import opened SeqSets

  function Pow2(n: nat): (r: nat)
    ensures r >= 1
  {
    if n == 0 then 1 else 2 * Pow2(n - 1)
  }

  /** The index of `subset` relative to the enumeration `setIn`: the sum of
      2^k over the positions k whose element is in `subset`. It always fits
      in |setIn| bits. */
  function Encode<T(==)>(setIn: seq<T>, subset: seq<T>): (r: nat)
    ensures r < Pow2(|setIn|)
  {
    if setIn == [] then 0
    else (if setIn[0] in subset then 1 else 0) + 2 * Encode(setIn[1..], subset)
  }

  /** The subset an index stands for: the elements of `setIn` whose bit is
      set, in enumeration order; bits at or above |setIn| are ignored. */
  function Decode<T>(setIn: seq<T>, idx: nat): (r: seq<T>)
    ensures |r| <= |setIn|
  {
    if setIn == [] then []
    else (if idx % 2 == 1 then [setIn[0]] else []) + Decode(setIn[1..], idx / 2)
  }

  /** A decoded subset draws its elements from the enumeration. */
  lemma {:induction false} DecodeMembers<T>(setIn: seq<T>, idx: nat)
    ensures forall x :: x in Decode(setIn, idx) ==> x in setIn
  {
    if setIn != [] {
      DecodeMembers(setIn[1..], idx / 2);
      assert forall x :: x in setIn[1..] ==> x in setIn;
    }
  }

  /** The low bit and the rest of `b + 2 * rest`. */
  lemma HalfStep(b: nat, rest: nat)
    requires b < 2
    ensures (b + 2 * rest) % 2 == b && (b + 2 * rest) / 2 == rest
  {
  }

  /** Decoding an encoded subset gives back the part of it that lies in the
      enumeration, in enumeration order. */
  lemma {:induction false} DecodeEncode<T(!new)>(setIn: seq<T>, subset: seq<T>)
    ensures Decode(setIn, Encode(setIn, subset)) == Inter(setIn, subset)
  {
    if setIn != [] {
      var b := if setIn[0] in subset then 1 else 0;
      var rest := Encode(setIn[1..], subset);
      HalfStep(b, rest);
      DecodeEncode(setIn[1..], subset);
      assert Decode(setIn, b + 2 * rest) == (if b == 1 then [setIn[0]] else []) + Decode(setIn[1..], rest);
    }
  }

  /** The encoding reads the subset only through membership of the
      enumerated elements. */
  lemma {:induction false} EncodeCongruent<T(!new)>(setIn: seq<T>, a: seq<T>, b: seq<T>)
    requires forall x :: x in setIn ==> (x in a <==> x in b)
    ensures Encode(setIn, a) == Encode(setIn, b)
  {
    if setIn != [] {
      EncodeCongruent(setIn[1..], a, b);
    }
  }

  /** Every index below 2^|setIn| is the encoding of the subset it decodes
      to, when the enumeration has no repeated element. */
  lemma {:induction false} EncodeDecode<T(!new)>(setIn: seq<T>, idx: nat)
    requires Distinct(setIn)
    requires idx < Pow2(|setIn|)
    ensures Encode(setIn, Decode(setIn, idx)) == idx
  {
    if setIn != [] {
      var x, tail := setIn[0], setIn[1..];
      var head := if idx % 2 == 1 then [x] else [];
      var rest := Decode(tail, idx / 2);
      TailDistinct(setIn);
      DecodeMembers(tail, idx / 2);
      assert x !in rest;
      EncodeDecode(tail, idx / 2);
      EncodeCongruent(tail, head + rest, rest);
      assert (x in head + rest) <==> idx % 2 == 1;
    }
  }

  /** Peeling position k off the enumeration. */
  lemma EncodeAt<T>(setIn: seq<T>, subset: seq<T>, k: nat)
    requires k < |setIn|
    ensures Encode(setIn[k..], subset) ==
      (if setIn[k] in subset then 1 else 0) + 2 * Encode(setIn[k + 1..], subset)
  {
    assert setIn[k..][1..] == setIn[k + 1..];
  }

  lemma ScaleStep(bit: int, b: int, rest: int)
    ensures bit * (b + 2 * rest) == bit * b + (2 * bit) * rest
  {
  }

  /** `encode_set`, the loop over the enumeration that adds `1 << k` for
      every member. */
  method EncodeSet<T(==)>(setIn: seq<T>, subset: seq<T>) returns (idx: nat)
    ensures idx == Encode(setIn, subset)
    ensures idx < Pow2(|setIn|)
  {
    idx := 0;
    var k := 0;
    var bit := 1;  // 1 << k
    while k < |setIn|
      invariant 0 <= k <= |setIn|
      invariant bit >= 1
      invariant idx + bit * Encode(setIn[k..], subset) == Encode(setIn, subset)
    {
      var b := if setIn[k] in subset then 1 else 0;
      EncodeAt(setIn, subset, k);
      ScaleStep(bit, b, Encode(setIn[k + 1..], subset));
      if setIn[k] in subset {
        idx := idx + bit;
      }
      k := k + 1;
      bit := 2 * bit;
    }
    assert setIn[k..] == [];
  }

  /** `decode_set`, the loop that tests bit k of the index for every
      position k of the enumeration. */
  method DecodeSet<T>(setIn: seq<T>, idx: nat) returns (subset: seq<T>)
    ensures subset == Decode(setIn, idx)
  {
    subset := [];
    var k := 0;
    var shifted := idx;  // idx >> k
    while k < |setIn|
      invariant 0 <= k <= |setIn|
      invariant subset + Decode(setIn[k..], shifted) == Decode(setIn, idx)
    {
      assert setIn[k..][1..] == setIn[k + 1..];
      if shifted % 2 == 1 {
        subset := subset + [setIn[k]];
      }
      k := k + 1;
      shifted := shifted / 2;
    }
    assert setIn[k..] == [];
  }
}

=== FILE: dp.dfy ===
/** The skeleton of the subset dynamic program of `select_channels`
    (joint_routing_channel_selection.py): one table per hop, keyed by
    bridging-subset index; every state of a hop offers candidates to the
    next hop's table; the optimum is the best terminal candidate of the last
    table. What a state offers and how a terminal candidate is scored are
    parameters here and are fixed by the channel-selection rules. */
module SubsetDp {
  import opened Links
  import opened Options

  /** A scored partial assignment, as stored in a table cell: the selections
      of the hops committed so far and the throughput they were scored at. */
  datatype Scored = Scored(selected: seq<seq<Link>>, throughput: real)

  /** A run either ends with a value or stops on the lookup of a table cell
      that no earlier state reached. */
  datatype Result<T> = Ok(value: T) | MissingState(hop: nat, key: nat)

  /** One hop's table: bridging-subset index to the best candidate reaching it. */
  type Table = map<nat, Scored>

  /** The offers one state makes, as (key, candidate) pairs in order. */
  type Offers = seq<(nat, Scored)>

  /** A program: the throughput of a fresh path; the number of states of
      every hop (2 to the size of its bridging set); the offers state k of
      hop i-1, holding `prev`, makes to hop i; and the terminal score of
      state k of the last hop. */
  datatype Program = Program(
    init: real,
    sizes: seq<nat>,
    offers: (nat, Scored, nat) -> Offers,
    terminal: (Scored, nat) -> real)

  /** The cell update: the candidate goes into cell `key` when the cell is
      empty or the candidate's throughput is strictly higher; every other
      cell is untouched. */
  function Offer(t: Table, key: nat, cand: Scored): (r: Table)
    ensures key in r && r[key].throughput >= cand.throughput
    ensures key in t ==> r[key].throughput >= t[key].throughput
  {
    if key !in t || cand.throughput > t[key].throughput then t[key := cand] else t
  }

  lemma OfferCells(t: Table, key: nat, cand: Scored)
    ensures var r := Offer(t, key, cand);
      && r.Keys == t.Keys + {key}
      && (forall k :: k in t && k != key ==> r[k] == t[k])
      && (key !in t ==> r[key] == cand)
      && (key in t ==> r[key] == (if cand.throughput > t[key].throughput then cand else t[key]))
  {
  }

  /** The table after the offers are made one after the other. */
  function OfferAll(t: Table, offers: Offers): Table {
    if offers == [] then t
    else
      var last := offers[|offers| - 1];
      Offer(OfferAll(t, offers[..|offers| - 1]), last.0, last.1)
  }

  /** Fresh paths in the cells 0 .. n-1. */
  function FreshCells(init: real, n: nat): (t: Table)
    ensures forall k: nat :: k in t <==> k < n
    ensures forall k :: k in t ==> t[k] == Scored([], init)
  {
    if n == 0 then map[] else FreshCells(init, n - 1)[n - 1 := Scored([], init)]
  }

  /** Hop i's table after the states k < n of hop i-1's table `prev` have
      made their offers in order; a state missing from `prev` stops the run. */
  function HopUpTo(p: Program, i: nat, prev: Table, n: nat): Result<Table>
    requires i >= 1
  {
    if n == 0 then Ok(map[])
    else
      match HopUpTo(p, i, prev, n - 1)
      case MissingState(h, key) => MissingState(h, key)
      case Ok(t) =>
        if n - 1 !in prev then MissingState(i - 1, n - 1)
        else Ok(OfferAll(t, p.offers(i, prev[n - 1], n - 1)))
  }

  /** Hop i's table: fresh paths in every state of hop 0, and every later
      hop built from all the states of the one before. */
  function TableAt(p: Program, i: nat): Result<Table>
    requires i < |p.sizes|
  {
    if i == 0 then Ok(FreshCells(p.init, p.sizes[0]))
    else
      match TableAt(p, i - 1)
      case MissingState(h, key) => MissingState(h, key)
      case Ok(prev) => HopUpTo(p, i, prev, p.sizes[i - 1])
  }

  /** The terminal candidates of the states present in the last table. */
  function Terminals(p: Program, t: Table): (r: map<nat, real>)
    ensures r.Keys == t.Keys
    ensures forall k :: k in r ==> r[k] == p.terminal(t[k], k)
  {
    map k | k in t :: p.terminal(t[k], k)
  }

  /** The scan for the optimum over states k < n: a candidate replaces the
      current optimum only when it is strictly higher; a state missing from
      the last table (hop `last`) stops the run. */
  function BestUpTo(cands: map<nat, real>, last: nat, n: nat): Result<Option<real>> {
    if n == 0 then Ok(None)
    else
      match BestUpTo(cands, last, n - 1)
      case MissingState(h, key) => MissingState(h, key)
      case Ok(best) =>
        if n - 1 !in cands then MissingState(last, n - 1)
        else
          var c := cands[n - 1];
          Ok(if best.None? || c > best.value then Some(c) else best)
  }

  /** The optimum of a program, 0.0 when there is no terminal state. */
  function Run(p: Program): Result<real>
    requires |p.sizes| >= 1
  {
    var last := |p.sizes| - 1;
    match TableAt(p, last)
    case MissingState(h, key) => MissingState(h, key)
    case Ok(t) =>
      match BestUpTo(Terminals(p, t), last, p.sizes[last])
      case MissingState(h, key) => MissingState(h, key)
      case Ok(best) => Ok(if best.Some? then best.value else 0.0)
  }

  // ---------------------------------------------------------------------
  // Properties

  /** Making one more offer is one more cell update. */
  lemma OfferAllSnoc(t: Table, offers: Offers, key: nat, cand: Scored)
    ensures OfferAll(t, offers + [(key, cand)]) == Offer(OfferAll(t, offers), key, cand)
  {
    assert (offers + [(key, cand)])[..|offers|] == offers;
  }

  /** Once a hop stops on a missing state, scanning more states changes
      nothing. */
  lemma {:induction false} HopStops(p: Program, i: nat, prev: Table, m: nat, n: nat)
    requires i >= 1 && m <= n && HopUpTo(p, i, prev, m).MissingState?
    ensures HopUpTo(p, i, prev, n) == HopUpTo(p, i, prev, m)
    decreases n
  {
    if n > m {
      HopStops(p, i, prev, m, n - 1);
    }
  }

  /** Once a table stops on a missing state, every later table stops there. */
  lemma {:induction false} TableStops(p: Program, m: nat, n: nat)
    requires m <= n < |p.sizes| && TableAt(p, m).MissingState?
    ensures TableAt(p, n) == TableAt(p, m)
    decreases n
  {
    if n > m {
      TableStops(p, m, n - 1);
    }
  }

  lemma {:induction false} BestStops(cands: map<nat, real>, last: nat, m: nat, n: nat)
    requires m <= n && BestUpTo(cands, last, m).MissingState?
    ensures BestUpTo(cands, last, n) == BestUpTo(cands, last, m)
    decreases n
  {
    if n > m {
      BestStops(cands, last, m, n - 1);
    }
  }

  /** Every key of a table indexes one of `bound` states. */
  ghost predicate KeysInRange(t: Table, bound: nat) {
    forall key :: key in t ==> key < bound
  }

  /** Making offers keeps every cell and never makes one worse, and each
      offered key ends up holding a candidate at least as good as the one
      offered. */
  lemma {:induction false} OfferAllDominates(t: Table, offers: Offers)
    ensures var r := OfferAll(t, offers);
      && t.Keys <= r.Keys
      && (forall key :: key in t ==> r[key].throughput >= t[key].throughput)
      && (forall j :: 0 <= j < |offers| ==> offers[j].0 in r && r[offers[j].0].throughput >= offers[j].1.throughput)
  {
    if offers != [] {
      var front := offers[..|offers| - 1];
      OfferAllDominates(t, front);
      OfferCells(OfferAll(t, front), offers[|offers| - 1].0, offers[|offers| - 1].1);
      assert forall j :: 0 <= j < |front| ==> front[j] == offers[j];
    }
  }

  /** After the offers every cell holds its old candidate or an offered one
      under its own key. */
  lemma {:induction false} OfferAllOrigin(t: Table, offers: Offers)
    ensures var r := OfferAll(t, offers);
      forall key :: key in r ==>
        (key in t && r[key] == t[key]) || exists j :: 0 <= j < |offers| && offers[j] == (key, r[key])
  {
    if offers != [] {
      var front := offers[..|offers| - 1];
      OfferAllOrigin(t, front);
      OfferCells(OfferAll(t, front), offers[|offers| - 1].0, offers[|offers| - 1].1);
      assert forall j :: 0 <= j < |front| ==> front[j] == offers[j];
    }
  }

  /** Every offer to hop i is keyed below the number of states of hop i. */
  ghost predicate OffersInRange(p: Program) {
    forall i, prev, k, j :: 1 <= i < |p.sizes| && 0 <= j < |p.offers(i, prev, k)| ==>
      p.offers(i, prev, k)[j].0 < p.sizes[i]
  }

  lemma {:induction false} HopKeysInRange(p: Program, i: nat, prev: Table, n: nat)
    requires OffersInRange(p) && 1 <= i < |p.sizes|
    ensures HopUpTo(p, i, prev, n).Ok? ==> KeysInRange(HopUpTo(p, i, prev, n).value, p.sizes[i])
  {
    if n > 0 {
      HopKeysInRange(p, i, prev, n - 1);
      var r := HopUpTo(p, i, prev, n - 1);
      if r.Ok? && n - 1 in prev {
        OfferAllOrigin(r.value, p.offers(i, prev[n - 1], n - 1));
      }
    }
  }

  /** Every table is keyed by its hop's state indices. */
  lemma TableKeysInRange(p: Program, i: nat)
    requires OffersInRange(p) && i < |p.sizes|
    ensures TableAt(p, i).Ok? ==> KeysInRange(TableAt(p, i).value, p.sizes[i])
  {
    if i > 0 && TableAt(p, i - 1).Ok? {
      HopKeysInRange(p, i, TableAt(p, i - 1).value, p.sizes[i - 1]);
    }
  }

  /** A throughput no higher than the fresh-path throughput, and equal to it
      when that is not positive. */
  predicate Capped(v: real, init: real) {
    v <= init && (init <= 0.0 ==> v == init)
  }

  ghost predicate CellsCapped(t: Table, init: real) {
    forall key :: key in t ==> Capped(t[key].throughput, init)
  }

  /** Every candidate offered is capped. */
  ghost predicate OffersCapped(p: Program) {
    forall i, prev, k, j :: 0 <= j < |p.offers(i, prev, k)| ==> Capped(p.offers(i, prev, k)[j].1.throughput, p.init)
  }

  /** A capped state has capped terminal scores. */
  ghost predicate TerminalsCapped(p: Program) {
    forall cell: Scored, k :: Capped(cell.throughput, p.init) ==> Capped(p.terminal(cell, k), p.init)
  }

  lemma {:induction false} HopCapped(p: Program, i: nat, prev: Table, n: nat)
    requires OffersCapped(p) && i >= 1
    ensures HopUpTo(p, i, prev, n).Ok? ==> CellsCapped(HopUpTo(p, i, prev, n).value, p.init)
  {
    if n > 0 {
      HopCapped(p, i, prev, n - 1);
      var r := HopUpTo(p, i, prev, n - 1);
      if r.Ok? && n - 1 in prev {
        OfferAllOrigin(r.value, p.offers(i, prev[n - 1], n - 1));
      }
    }
  }

  /** Every cell of every table is capped. */
  lemma TableCapped(p: Program, i: nat)
    requires OffersCapped(p) && i < |p.sizes|
    ensures TableAt(p, i).Ok? ==> CellsCapped(TableAt(p, i).value, p.init)
  {
    if i > 0 && TableAt(p, i - 1).Ok? {
      HopCapped(p, i, TableAt(p, i - 1).value, p.sizes[i - 1]);
    }
  }

  /** The scan stops at the first state below n missing from the candidates;
      otherwise it finds a candidate as soon as it visits a state, and the
      one it returns is attained by some state and bounds all of them. */
  lemma {:induction false} BestIsMax(cands: map<nat, real>, last: nat, n: nat)
    ensures BestUpTo(cands, last, n) == Ok(None) <==> n == 0
    ensures BestUpTo(cands, last, n).MissingState? <==> exists k :: 0 <= k < n && k !in cands
    ensures var r := BestUpTo(cands, last, n);
      r.MissingState? ==> r.hop == last && r.key < n && r.key !in cands && forall k :: 0 <= k < r.key ==> k in cands
    ensures forall v :: BestUpTo(cands, last, n) == Ok(Some(v)) ==>
      && (exists k :: 0 <= k < n && k in cands && cands[k] == v)
      && (forall k :: 0 <= k < n ==> k in cands && cands[k] <= v)
  {
    if n > 0 {
      BestIsMax(cands, last, n - 1);
    }
  }

  /** The optimum is attained by a terminal state of the last table. */
  ghost predicate IsOptimum(p: Program, v: real)
    requires |p.sizes| >= 1
  {
    var last := |p.sizes| - 1;
    && TableAt(p, last).Ok?
    && (exists k :: k in TableAt(p, last).value && v == p.terminal(TableAt(p, last).value[k], k))
    && (forall k :: k in TableAt(p, last).value ==> p.terminal(TableAt(p, last).value[k], k) <= v)
  }

  /** A run over a last hop with at least one state, when it does not stop
      on a missing state, returns the largest terminal score over the last
      table, and, when every offer and every terminal score is capped, a
      capped value. */
  lemma RunOptimum(p: Program)
    requires |p.sizes| >= 1 && p.sizes[|p.sizes| - 1] >= 1 && OffersInRange(p)
    ensures Run(p).Ok? ==> IsOptimum(p, Run(p).value)
    ensures Run(p).Ok? && OffersCapped(p) && TerminalsCapped(p) ==> Capped(Run(p).value, p.init)
  {
    var last := |p.sizes| - 1;
    if Run(p).Ok? {
      var t := TableAt(p, last).value;
      var n := p.sizes[last];
      var cands := Terminals(p, t);
      TableKeysInRange(p, last);
      BestIsMax(cands, last, n);
      var best := BestUpTo(cands, last, n);
      assert best.Ok? && best.value.Some? && Run(p).value == best.value.value;
      var k :| 0 <= k < n && k in cands && Run(p).value == cands[k];
      if OffersCapped(p) && TerminalsCapped(p) {
        TableCapped(p, last);
      }
    }
  }
}

=== FILE: graph.dfy ===
/** The undirected graph under the network: each node's neighbours in
    adjacency order, and the edge list the graph hands out, which names
    every edge once, from the endpoint that comes first in node order. */
module Graphs {
  import opened SeqSets
  import Links

  type Node = Links.Node

  /** The edges a node contributes to the edge list: one per neighbour not
      already seen, in neighbour order. */
  function Pairs(n: Node, nbrs: seq<Node>, seen: seq<Node>): (r: seq<(Node, Node)>)
    ensures forall e :: e in r <==> e.0 == n && e.1 in nbrs && e.1 !in seen
  {
    if nbrs == [] then []
    else (if nbrs[0] in seen then [] else [(n, nbrs[0])]) + Pairs(n, nbrs[1..], seen)
  }

  lemma {:induction false} PairsDistinct(n: Node, nbrs: seq<Node>, seen: seq<Node>)
    requires Distinct(nbrs)
    ensures Distinct(Pairs(n, nbrs, seen))
  {
    if nbrs != [] {
      TailDistinct(nbrs);
      PairsDistinct(n, nbrs[1..], seen);
      if nbrs[0] !in seen {
        ConsDistinct((n, nbrs[0]), Pairs(n, nbrs[1..], seen));
      }
    }
  }

  /** Every node is a key of the adjacency map. */
  predicate Keyed(nodes: seq<Node>, adj: map<Node, seq<Node>>) {
    forall n :: n in nodes ==> n in adj
  }

  /** The edge list: node by node in order, the edges to neighbours that
      come no earlier in node order. */
  function EdgeList(nodes: seq<Node>, adj: map<Node, seq<Node>>): seq<(Node, Node)>
    requires Keyed(nodes, adj)
  {
    if nodes == [] then []
    else
      var front := nodes[..|nodes| - 1];
      var n := nodes[|nodes| - 1];
      EdgeList(front, adj) + Pairs(n, adj[n], front)
  }

  /** An edge is listed exactly when its first endpoint is the node at some
      position i and its second is a neighbour that is not before i. */
  lemma {:induction false} EdgeListMembers(nodes: seq<Node>, adj: map<Node, seq<Node>>, e: (Node, Node))
    requires Keyed(nodes, adj)
    ensures e in EdgeList(nodes, adj) <==>
            exists i :: 0 <= i < |nodes| && nodes[i] == e.0 && e.1 in adj[e.0] && e.1 !in nodes[..i]
  {
    if nodes != [] {
      var front := nodes[..|nodes| - 1];
      var n := nodes[|nodes| - 1];
      EdgeListMembers(front, adj, e);
      assert forall i :: 0 <= i < |front| ==> front[i] == nodes[i] && front[..i] == nodes[..i];
      if e in EdgeList(nodes, adj) && e !in EdgeList(front, adj) {
        assert e in Pairs(n, adj[n], front);
        assert nodes[|nodes| - 1] == e.0 && e.1 !in nodes[..|nodes| - 1];
      }
      if exists i :: 0 <= i < |nodes| && nodes[i] == e.0 && e.1 in adj[e.0] && e.1 !in nodes[..i] {
        var i :| 0 <= i < |nodes| && nodes[i] == e.0 && e.1 in adj[e.0] && e.1 !in nodes[..i];
        if i == |nodes| - 1 {
          assert e in Pairs(n, adj[n], front);
        } else {
          assert front[i] == e.0 && e.1 !in front[..i];
        }
      }
    }
  }

  /** The edge list of distinct nodes with distinct neighbour lists names
      no edge twice. */
  lemma {:induction false} EdgeListDistinct(nodes: seq<Node>, adj: map<Node, seq<Node>>)
    requires Keyed(nodes, adj) && Distinct(nodes)
    requires forall n :: n in adj ==> Distinct(adj[n])
    ensures Distinct(EdgeList(nodes, adj))
  {
    if nodes != [] {
      var front := nodes[..|nodes| - 1];
      var n := nodes[|nodes| - 1];
      assert Distinct(front);
      EdgeListDistinct(front, adj);
      PairsDistinct(n, adj[n], front);
      forall e | e in EdgeList(front, adj)
        ensures e !in Pairs(n, adj[n], front)
      {
        EdgeListMembers(front, adj, e);
        var i :| 0 <= i < |front| && front[i] == e.0 && e.1 in adj[e.0] && e.1 !in front[..i];
        assert nodes[i] == e.0 && e.0 != n;
      }
      AppendDistinct(EdgeList(front, adj), Pairs(n, adj[n], front));
    }
  }

  /** Every listed edge is an edge of the graph. */
  lemma EdgeListLinked(nodes: seq<Node>, adj: map<Node, seq<Node>>)
    requires Keyed(nodes, adj)
    ensures forall j :: 0 <= j < |EdgeList(nodes, adj)| ==>
              var e := EdgeList(nodes, adj)[j]; e.0 in adj && e.1 in adj[e.0]
  {
    var es := EdgeList(nodes, adj);
    forall j | 0 <= j < |es|
      ensures es[j].0 in adj && es[j].1 in adj[es[j].0]
    {
      EdgeListMembers(nodes, adj, es[j]);
    }
  }

  /** Names each edge once: no entry repeats, and an edge and its reverse
      are both listed only when they are the same self-loop. */
  predicate Oriented(es: seq<(Node, Node)>) {
    Distinct(es) && forall e :: e in es && (e.1, e.0) in es ==> e.0 == e.1
  }

  /** A node missing from the first j nodes sits at position j or later. */
  lemma NotSeenYet(nodes: seq<Node>, i: nat, j: nat)
    requires i < |nodes| && j <= |nodes| && nodes[i] !in nodes[..j]
    ensures j <= i
  {
    forall k | 0 <= k < j
      ensures nodes[k] != nodes[i]
    {
      assert nodes[..j][k] == nodes[k];
    }
  }

  lemma EdgeListOriented(nodes: seq<Node>, adj: map<Node, seq<Node>>)
    requires Keyed(nodes, adj) && Distinct(nodes)
    requires forall n :: n in adj ==> Distinct(adj[n])
    ensures Oriented(EdgeList(nodes, adj))
  {
    var es := EdgeList(nodes, adj);
    EdgeListDistinct(nodes, adj);
    forall e | e in es && (e.1, e.0) in es
      ensures e.0 == e.1
    {
      EdgeListMembers(nodes, adj, e);
      EdgeListMembers(nodes, adj, (e.1, e.0));
      var i :| 0 <= i < |nodes| && nodes[i] == e.0 && e.1 !in nodes[..i];
      var j :| 0 <= j < |nodes| && nodes[j] == e.1 && e.0 !in nodes[..j];
      NotSeenYet(nodes, i, j);
      NotSeenYet(nodes, j, i);
    }
  }

  /** The adjacency is that of an undirected graph whose nodes are exactly
      the keys. */
  ghost predicate Undirected(nodes: seq<Node>, adj: map<Node, seq<Node>>) {
    (forall n :: n in adj <==> n in nodes)
    && forall u, v :: u in adj && v in adj[u] ==> v in adj && u in adj[v]
  }

  /** The adjacency without the edge between u and v, taken out of both
      endpoints' neighbour lists. */
  function Unlink(adj: map<Node, seq<Node>>, u: Node, v: Node): map<Node, seq<Node>>
    requires u in adj && v in adj
  {
    var first := adj[u := Minus(adj[u], [v])];
    first[v := Minus(first[v], [u])]
  }

  /** The adjacency after unlinking n from each node of ms in turn; a pair
      whose endpoints are not both in the graph is passed over. */
  function UnlinkAll(adj: map<Node, seq<Node>>, n: Node, ms: seq<Node>): map<Node, seq<Node>> {
    if ms == [] then adj
    else
      var before := UnlinkAll(adj, n, ms[..|ms| - 1]);
      var m := ms[|ms| - 1];
      if n in before && m in before then Unlink(before, n, m) else before
  }

  /** Unlinking changes one neighbour list at a time: node a loses u when
      it is v, and v when it is u, and keeps its other neighbours. */
  lemma UnlinkAt(adj: map<Node, seq<Node>>, u: Node, v: Node, a: Node)
    requires u in adj && v in adj && a in adj && Distinct(adj[a])
    ensures var row := Unlink(adj, u, v)[a];
      && Distinct(row) && |row| <= |adj[a]|
      && forall b :: b in row <==> b in adj[a] && (a, b) != (u, v) && (a, b) != (v, u)
  {
    var first := adj[u := Minus(adj[u], [v])];
    MinusMembers(adj[u], [v]);
    if a == u {
      MinusDistinct(adj[u], [v]);
    }
    if a == v {
      MinusMembers(first[v], [u]);
      MinusDistinct(first[v], [u]);
    }
  }

  /** Unlinking keeps the graph undirected, with the same nodes and
      distinct neighbour lists no longer than before, and drops exactly the
      edge in its two directions. */
  lemma UnlinkEdges(nodes: seq<Node>, adj: map<Node, seq<Node>>, u: Node, v: Node)
    requires Undirected(nodes, adj) && u in adj && v in adj
    requires forall n :: n in adj ==> Distinct(adj[n])
    ensures var adj' := Unlink(adj, u, v);
      && Undirected(nodes, adj') && adj'.Keys == adj.Keys
      && (forall n :: n in adj' ==> Distinct(adj'[n]) && |adj'[n]| <= |adj[n]|)
      && (forall a, b :: a in adj' && b in adj'[a] <==> a in adj && b in adj[a] && (a, b) != (u, v) && (a, b) != (v, u))
  {
    var adj' := Unlink(adj, u, v);
    forall a | a in adj
      ensures && Distinct(adj'[a]) && |adj'[a]| <= |adj[a]|
              && forall b :: b in adj'[a] <==> b in adj[a] && (a, b) != (u, v) && (a, b) != (v, u)
    {
      UnlinkAt(adj, u, v, a);
    }
  }

  /** The graph has an edge from a to b. */
  predicate HasEdge(adj: map<Node, seq<Node>>, a: Node, b: Node) {
    a in adj && b in adj[a]
  }

  /** Unlinking n from each node of ms keeps the graph undirected over the
      same nodes, with distinct neighbour lists no longer than before, and
      drops exactly the edges between n and a node of ms. */
  lemma {:induction false} UnlinkAllEdges(nodes: seq<Node>, adj: map<Node, seq<Node>>, n: Node, ms: seq<Node>)
    requires Undirected(nodes, adj) && n in adj && forall m :: m in ms ==> m in adj
    requires forall a :: a in adj ==> Distinct(adj[a])
    ensures var r := UnlinkAll(adj, n, ms);
      && Undirected(nodes, r) && r.Keys == adj.Keys
      && (forall a :: a in r ==> Distinct(r[a]) && |r[a]| <= |adj[a]|)
      && (forall a, b :: HasEdge(r, a, b) <==> HasEdge(adj, a, b) && !(a == n && b in ms) && !(b == n && a in ms))
  {
    if ms == [] {
      assert UnlinkAll(adj, n, ms) == adj;
    } else {
      var front := ms[..|ms| - 1];
      var m := ms[|ms| - 1];
      assert ms == front + [m];
      UnlinkAllEdges(nodes, adj, n, front);
      var before := UnlinkAll(adj, n, front);
      var r := Unlink(before, n, m);
      assert UnlinkAll(adj, n, ms) == r;
      UnlinkEdges(nodes, before, n, m);
      forall a, b
        ensures HasEdge(r, a, b) <==> HasEdge(adj, a, b) && !(a == n && b in ms) && !(b == n && a in ms)
      {
        assert HasEdge(before, a, b) <==> HasEdge(adj, a, b) && !(a == n && b in front) && !(b == n && a in front);
        assert HasEdge(r, a, b) <==> a in before && b in before[a] && (a, b) != (n, m) && (a, b) != (m, n);
        UnlinkOneMore(adj, before, r, n, m, front, ms, a, b);
      }
    }
  }

  /** One more unlinked pair: an edge survives unlinking n from the nodes
      of front + [m] when it survives front and is not the edge between n
      and m. */
  lemma UnlinkOneMore(adj: map<Node, seq<Node>>, before: map<Node, seq<Node>>, r: map<Node, seq<Node>>,
                      n: Node, m: Node, front: seq<Node>, ms: seq<Node>, a: Node, b: Node)
    requires ms == front + [m]
    requires HasEdge(before, a, b) <==> HasEdge(adj, a, b) && !(a == n && b in front) && !(b == n && a in front)
    requires HasEdge(r, a, b) <==> HasEdge(before, a, b) && (a, b) != (n, m) && (a, b) != (m, n)
    ensures HasEdge(r, a, b) <==> HasEdge(adj, a, b) && !(a == n && b in ms) && !(b == n && a in ms)
  {
    assert a in ms <==> a in front || a == m;
    assert b in ms <==> b in front || b == m;
  }

  /** Every edge of the graph is listed in one of its two directions. */
  lemma EdgeListCovers(nodes: seq<Node>, adj: map<Node, seq<Node>>, u: Node, v: Node)
    requires Undirected(nodes, adj) && Distinct(nodes)
    requires u in adj && v in adj[u]
    ensures (u, v) in EdgeList(nodes, adj) || (v, u) in EdgeList(nodes, adj)
  {
    assert u in nodes && v in adj && v in nodes && u in adj[v];
    var i :| 0 <= i < |nodes| && nodes[i] == u;
    var j :| 0 <= j < |nodes| && nodes[j] == v;
    EdgeListMembers(nodes, adj, (u, v));
    EdgeListMembers(nodes, adj, (v, u));
    if v in nodes[..i] {
      var j' :| 0 <= j' < i && nodes[..i][j'] == v;
      assert nodes[j'] == v && j' == j;
      forall k | 0 <= k < j
        ensures nodes[..j][k] != u
      {
        assert nodes[k] != nodes[i];
      }
    }
  }

  lemma EdgeListCoversAll(nodes: seq<Node>, adj: map<Node, seq<Node>>)
    requires Undirected(nodes, adj) && Distinct(nodes)
    ensures forall u, v :: u in adj && v in adj[u] ==> (u, v) in EdgeList(nodes, adj) || (v, u) in EdgeList(nodes, adj)
  {
    forall u, v | u in adj && v in adj[u]
      ensures (u, v) in EdgeList(nodes, adj) || (v, u) in EdgeList(nodes, adj)
    {
      EdgeListCovers(nodes, adj, u, v);
    }
  }

  /** A node without neighbours can leave the graph: no other node lists
      it, so what remains is still undirected over the remaining nodes. */
  lemma DropIsolated(nodes: seq<Node>, adj: map<Node, seq<Node>>, n: Node)
    requires Undirected(nodes, adj) && Distinct(nodes) && n in adj && adj[n] == []
    ensures Undirected(Minus(nodes, [n]), adj - {n}) && Distinct(Minus(nodes, [n]))
  {
    MinusMembers(nodes, [n]);
    MinusDistinct(nodes, [n]);
    DropIsolatedEdges(adj, n);
  }

  lemma DropIsolatedEdges(adj: map<Node, seq<Node>>, n: Node)
    requires forall u, v :: u in adj && v in adj[u] ==> v in adj && u in adj[v]
    requires n in adj && adj[n] == []
    ensures var rest := adj - {n};
      forall u, v :: u in rest && v in rest[u] ==> v in rest && u in rest[v]
  {
    var rest := adj - {n};
    forall u, v | u in rest && v in rest[u]
      ensures v in rest && u in rest[v]
    {
      assert v in adj && u in adj[v];
    }
  }
}

=== FILE: greedy.dfy ===
/** `select_channels_greedy` (joint_routing_channel_selection.py): one pass
    that keeps a link set per hop, then a pass that lowers the path's
    throughput to each hop's raw capacity sum. */
module GreedyChannels {
  import opened SeqSets
  import opened Links
  import opened Throughput

  /** The greedy pass either scores the path or fails on the lookup of hop 0's
      available links, which an empty path does not have. */
  datatype Outcome = Scored(throughput: real) | NoFirstHop

  /** The probe links of hop i built from the previous hop's selection: same
      band and channel, with the hop index as the edge. */
  function RemoveSet(prev: seq<Link>, i: nat): (r: seq<Link>)
    ensures |r| == |prev|
    ensures forall l :: l in r ==> l.edge == Hop(i)
  {
    seq(|prev|, j requires 0 <= j < |prev| => Link(Hop(i), prev[j].freq, prev[j].channel))
  }

  /** The set kept for hop i: the available links not among the probes when
      that leaves any, and otherwise all of them. */
  function GreedyHop(avail: seq<Link>, prev: seq<Link>, i: nat): seq<Link> {
    var next := Minus(avail, RemoveSet(prev, i));
    if |next| > 0 then next else avail
  }

  /** The selections of the first n hops: hop 0's available links, then one
      greedy choice per later hop. */
  function GreedySelection(avail: seq<seq<Link>>, n: nat): (r: seq<seq<Link>>)
    requires 1 <= n <= |avail|
    ensures |r| == n
  {
    if n == 1 then [avail[0]]
    else
      var front := GreedySelection(avail, n - 1);
      front + [GreedyHop(avail[n - 1], front[n - 2], n - 1)]
  }

  /** The path throughput after the first n hops of `selected` have lowered
      it to their raw capacity sums, starting from `init`. */
  function GreedyThroughput(net: Net, selected: seq<seq<Link>>, init: real, n: nat): real
    requires n <= |selected|
  {
    if n == 0 then init else Min(GreedyThroughput(net, selected, init, n - 1), CapacitySum(net, selected[n - 1]))
  }

  /** What `select_channels_greedy` returns. */
  function SelectChannelsGreedySpec(net: Net, path: PathEdges, init: real): Outcome {
    if |path| == 0 then NoFirstHop
    else
      var avail := FindAvailableLinks(net, path);
      Scored(GreedyThroughput(net, GreedySelection(avail, |path|), init, |path|))
  }

  // ---------------------------------------------------------------------
  // Properties

  /** Every hop's choice lies within its available links. */
  lemma GreedyHopChoice(avail: seq<Link>, prev: seq<Link>, i: nat)
    ensures forall l :: l in GreedyHop(avail, prev, i) ==> l in avail
  {
    MinusMembers(avail, RemoveSet(prev, i));
  }

  /** When every available link has a node-pair edge, no probe matches and
      each hop keeps exactly its available links. */
  lemma GreedyHopKeepsAll(avail: seq<Link>, prev: seq<Link>, i: nat)
    requires forall l :: l in avail ==> l.edge.Pair?
    ensures GreedyHop(avail, prev, i) == avail
  {
    MinusNothing(avail, RemoveSet(prev, i));
  }

  /** Removing elements none of which is present changes nothing. */
  lemma {:induction false} MinusNothing<T>(a: seq<T>, b: seq<T>)
    requires forall x :: x in a ==> x !in b
    ensures Minus(a, b) == a
  {
    if a != [] {
      assert forall x :: x in a[1..] ==> x in a;
      MinusNothing(a[1..], b);
    }
  }

  /** The greedy selection has one set per hop, each within the hop's
      available links. */
  lemma {:induction false} GreedySelectionWithin(avail: seq<seq<Link>>, n: nat)
    requires 1 <= n <= |avail|
    ensures forall i, l :: 0 <= i < n && l in GreedySelection(avail, n)[i] ==> l in avail[i]
  {
    if n > 1 {
      var front := GreedySelection(avail, n - 1);
      GreedySelectionWithin(avail, n - 1);
      GreedyHopChoice(avail[n - 1], front[n - 2], n - 1);
      assert forall i :: 0 <= i < n - 1 ==> GreedySelection(avail, n)[i] == front[i];
    }
  }

  /** On links with node-pair edges the greedy selection is exactly the
      available links of every hop. */
  lemma {:induction false} GreedySelectionIsAvailable(avail: seq<seq<Link>>, n: nat)
    requires 1 <= n <= |avail| && RealLinks(avail)
    ensures GreedySelection(avail, n) == avail[..n]
  {
    if n > 1 {
      var front := GreedySelection(avail, n - 1);
      GreedySelectionIsAvailable(avail, n - 1);
      GreedyHopKeepsAll(avail[n - 1], front[n - 2], n - 1);
      assert avail[..n] == avail[..n - 1] + [avail[n - 1]];
    }
  }

  /** The throughput is never raised: it is at most `init` and at most every
      hop's capacity sum, and it is one of them. */
  lemma {:induction false} GreedyThroughputIsMin(net: Net, selected: seq<seq<Link>>, init: real, n: nat)
    requires n <= |selected|
    ensures var r := GreedyThroughput(net, selected, init, n);
      && r <= init
      && (forall i :: 0 <= i < n ==> r <= CapacitySum(net, selected[i]))
      && (r == init || exists i :: 0 <= i < n && r == CapacitySum(net, selected[i]))
  {
    if n > 0 {
      GreedyThroughputIsMin(net, selected, init, n - 1);
    }
  }

  /** On a path with at least one hop the greedy result is the smallest of
      `init` and the capacity sums of the hops' available links. */
  lemma SelectChannelsGreedyBound(net: Net, path: PathEdges, init: real)
    requires |path| >= 1
    ensures var r := SelectChannelsGreedySpec(net, path, init);
      var avail := FindAvailableLinks(net, path);
      && r.Scored?
      && r.throughput <= init
      && (forall i :: 0 <= i < |path| ==> r.throughput <= CapacitySum(net, avail[i]))
      && (r.throughput == init || exists i :: 0 <= i < |path| && r.throughput == CapacitySum(net, avail[i]))
  {
    var avail := FindAvailableLinks(net, path);
    AvailableLinksAreReal(net, path);
    GreedySelectionIsAvailable(avail, |path|);
    assert GreedySelection(avail, |path|) == avail by {
      assert avail[..|path|] == avail;
    }
    GreedyThroughputIsMin(net, avail, init, |path|);
  }

  // ---------------------------------------------------------------------
  // The passes as the source runs them

  /** The probes of hop i, one per link of the previous selection. */
  method ProbeLinks(prev: seq<Link>, i: nat) returns (removeSet: seq<Link>)
    ensures removeSet == RemoveSet(prev, i)
  {
    removeSet := [];
    var j := 0;
    while j < |prev|
      invariant 0 <= j <= |prev|
      invariant removeSet == RemoveSet(prev, i)[..j]
    {
      removeSet := removeSet + [Link(Hop(i), prev[j].freq, prev[j].channel)];
      j := j + 1;
    }
  }

  /** The first pass: appends one set per later hop to the path's selection. */
  method GreedySelect(avail: seq<seq<Link>>, greedy: Path)
    requires |avail| >= 1 && greedy.selected == [avail[0]]
    modifies greedy`selected
    ensures greedy.selected == GreedySelection(avail, |avail|)
  {
    var i := 1;
    while i < |avail|
      invariant 1 <= i <= |avail|
      invariant greedy.selected == GreedySelection(avail, i)
    {
      var removeSet := ProbeLinks(greedy.selected[i - 1], i);
      var nextSet := Minus(avail[i], removeSet);
      if |nextSet| > 0 {
        greedy.selected := greedy.selected + [nextSet];
      } else {
        greedy.selected := greedy.selected + [avail[i]];
      }
      i := i + 1;
    }
  }

  /** The raw capacity sum of one hop's selection. */
  method HopCapacity(net: Net, links: seq<Link>) returns (sum: real)
    ensures sum == CapacitySum(net, links)
  {
    sum := 0.0;
    var k := 0;
    while k < |links|
      invariant 0 <= k <= |links|
      invariant sum == CapacitySum(net, links[..k])
    {
      assert links[..k + 1][..k] == links[..k];
      sum := sum + Capacity(net, links[k]);
      k := k + 1;
    }
    assert links[..k] == links;
  }

  /** The second pass: lowers the path's throughput to every hop's sum. */
  method GreedyScore(net: Net, greedy: Path)
    modifies greedy`throughput
    ensures greedy.throughput == GreedyThroughput(net, greedy.selected, old(greedy.throughput), |greedy.selected|)
  {
    ghost var init := greedy.throughput;
    var i := 0;
    while i < |greedy.selected|
      invariant 0 <= i <= |greedy.selected|
      invariant greedy.throughput == GreedyThroughput(net, greedy.selected, init, i)
    {
      var sum := HopCapacity(net, greedy.selected[i]);
      greedy.throughput := Min(greedy.throughput, sum);
      i := i + 1;
    }
  }

  /** `select_channels_greedy`, with `init` as the throughput the path
      starts from. */
  method SelectChannelsGreedy(net: Net, path: PathEdges, init: real) returns (r: Outcome)
    ensures r == SelectChannelsGreedySpec(net, path, init)
  {
    if |path| == 0 {
      return NoFirstHop;
    }
    var avail := FindAvailableLinks(net, path);
    var greedy := new Path([avail[0]], init);
    GreedySelect(avail, greedy);
    GreedyScore(net, greedy);
    r := Scored(greedy.throughput);
  }
}

=== FILE: links.dfy ===
/** Links, the network snapshot the channel-selection engine reads, per-hop
    link discovery, the interference lookup and bridging sets
    (joint_routing_channel_selection.py). */
module Links {
  import opened SeqSets

  type Node = int

  /** The three frequency bands of the network, in the order it lists them:
      700 MHz, 2.4 GHz and 5.8 GHz. */
  datatype Band = B700 | B2_4 | B5_8

  const Bands: seq<Band> := [B700, B2_4, B5_8]

  /** The `edge` field of a link: a node pair taken from a path, or a bare hop
      index, which the throughput code puts in its probe links. */
  datatype Edge = Pair(u: Node, v: Node) | Hop(n: int)

  /** One candidate activation: an edge on one band and one channel. */
  datatype Link = Link(edge: Edge, freq: Band, channel: int)

  /** A key of the interference table: the table is probed with links and
      with the hop indices and edge tuples of a clique-candidate list. */
  datatype Key = KLink(link: Link) | KEdge(edge: Edge)

  /** The network collaborator as an immutable snapshot: the channel count,
      the per-edge per-band per-channel capacity table, and the interference
      table keyed by (key, key, band, channel). */
  datatype Net = Net(
    channels: nat,
    capacity: (Edge, Band, int) -> real,
    interference: map<(Key, Key, Band, int), bool>)

  /** A path: the node pairs of its hops. */
  type PathEdges = seq<(Node, Node)>

  /** `Link.__eq__`: field-by-field comparison. */
  function LinkEq(a: Link, b: Link): (r: bool)
    ensures r <==> a == b
  {
    a.edge == b.edge && a.freq == b.freq && a.channel == b.channel
  }

  /** `Link.__hash__`: the hash is taken of the (edge, freq, channel) triple. */
  function HashKey(l: Link): (Edge, Band, int) {
    (l.edge, l.freq, l.channel)
  }

  /** Equal links hash equally, and distinct links have distinct hash keys. */
  lemma HashKeyAgreesWithEq(a: Link, b: Link)
    ensures LinkEq(a, b) <==> HashKey(a) == HashKey(b)
  {
  }

  function Capacity(net: Net, l: Link): real {
    net.capacity(l.edge, l.freq, l.channel)
  }

  /** `check_interference`: the table entry when present, false otherwise. */
  function CheckInterference(net: Net, a: Key, b: Key, f: Band, c: int): (r: bool)
    ensures r ==> (a, b, f, c) in net.interference
    ensures (a, b, f, c) in net.interference ==> r == net.interference[(a, b, f, c)]
  {
    (a, b, f, c) in net.interference && net.interference[(a, b, f, c)]
  }

  /** The links of edge `e` on band `f` among channels 0 .. n-1 whose
      capacity is strictly positive, in channel order. */
  function BandLinks(net: Net, e: Edge, f: Band, n: nat): (r: seq<Link>)
    ensures forall l :: l in r <==>
      l.edge == e && l.freq == f && 0 <= l.channel < n && Capacity(net, l) > 0.0
  {
    if n == 0 then []
    else
      var c := n - 1;
      BandLinks(net, e, f, c) + (if net.capacity(e, f, c) > 0.0 then [Link(e, f, c)] else [])
  }

  /** The available links of one hop: every band, every channel. */
  function HopLinks(net: Net, e: Edge): (r: seq<Link>)
    ensures forall l :: l in r <==>
      l.edge == e && 0 <= l.channel < net.channels && Capacity(net, l) > 0.0
  {
    var a := BandLinks(net, e, B700, net.channels);
    var b := BandLinks(net, e, B2_4, net.channels);
    var c := BandLinks(net, e, B5_8, net.channels);
    assert forall l :: l in a + b + c ==> l.freq in Bands;
    a + b + c
  }

  /** `find_available_links`: one entry per hop index; the links of hop i
      are exactly the (edge, band, channel) activations of path[i] with
      strictly positive capacity. */
  function FindAvailableLinks(net: Net, path: PathEdges): (r: seq<seq<Link>>)
    ensures |r| == |path|
    ensures forall i, l :: 0 <= i < |path| ==>
      (l in r[i] <==> l.edge == Pair(path[i].0, path[i].1) && 0 <= l.channel < net.channels && Capacity(net, l) > 0.0)
  {
    seq(|path|, i requires 0 <= i < |path| => HopLinks(net, Pair(path[i].0, path[i].1)))
  }

  /** A band's links are listed once each: their channels increase. */
  lemma {:induction false} BandLinksDistinct(net: Net, e: Edge, f: Band, n: nat)
    ensures Distinct(BandLinks(net, e, f, n))
  {
    if n > 0 {
      BandLinksDistinct(net, e, f, n - 1);
      if net.capacity(e, f, n - 1) > 0.0 {
        AppendDistinct(BandLinks(net, e, f, n - 1), [Link(e, f, n - 1)]);
      }
    }
  }

  /** A hop's links are listed once each: the bands are disjoint. */
  lemma HopLinksDistinct(net: Net, e: Edge)
    ensures Distinct(HopLinks(net, e))
  {
    var a := BandLinks(net, e, B700, net.channels);
    var b := BandLinks(net, e, B2_4, net.channels);
    var c := BandLinks(net, e, B5_8, net.channels);
    BandLinksDistinct(net, e, B700, net.channels);
    BandLinksDistinct(net, e, B2_4, net.channels);
    BandLinksDistinct(net, e, B5_8, net.channels);
    AppendDistinct(a, b);
    AppendDistinct(a + b, c);
  }

  /** Every hop's available links are listed once each. */
  lemma AvailableLinksDistinct(net: Net, path: PathEdges)
    ensures forall i :: 0 <= i < |path| ==> Distinct(FindAvailableLinks(net, path)[i])
  {
    forall i | 0 <= i < |path| ensures Distinct(FindAvailableLinks(net, path)[i]) {
      HopLinksDistinct(net, Pair(path[i].0, path[i].1));
    }
  }

  /** Every link at every hop has a node-pair edge. */
  ghost predicate RealLinks(avail: seq<seq<Link>>) {
    forall i, l :: 0 <= i < |avail| && l in avail[i] ==> l.edge.Pair?
  }

  lemma AvailableLinksAreReal(net: Net, path: PathEdges)
    ensures RealLinks(FindAvailableLinks(net, path))
  {
  }

  /** The links of `left` that also occur in `right` and that the
      interference table marks as conflicting with themselves: the only pairs
      `l == r` that pass the identity-and-conflict test of the bridging loop. */
  function SelfConflicting(net: Net, left: seq<Link>, right: seq<Link>): (r: seq<Link>)
    ensures |r| <= |left|
  {
    if left == [] then []
    else
      var l := left[0];
      (if l in right && CheckInterference(net, KLink(l), KLink(l), l.freq, l.channel) then [l] else [])
        + SelfConflicting(net, left[1..], right)
  }

  lemma {:induction false} SelfConflictingMembers(net: Net, left: seq<Link>, right: seq<Link>)
    ensures forall l :: l in SelfConflicting(net, left, right) <==>
      l in left && l in right && CheckInterference(net, KLink(l), KLink(l), l.freq, l.channel)
  {
    if left != [] {
      SelfConflictingMembers(net, left[1..], right);
      assert forall l :: l in left <==> l == left[0] || l in left[1..];
    }
  }

  lemma {:induction false} SelfConflictingDistinct(net: Net, left: seq<Link>, right: seq<Link>)
    requires Distinct(left)
    ensures Distinct(SelfConflicting(net, left, right))
  {
    if left != [] {
      TailDistinct(left);
      SelfConflictingDistinct(net, left[1..], right);
      var l := left[0];
      if l in right && CheckInterference(net, KLink(l), KLink(l), l.freq, l.channel) {
        SelfConflictingMembers(net, left[1..], right);
        ConsDistinct(l, SelfConflicting(net, left[1..], right));
      }
    }
  }

  /** `compute_bridging_set`: the hop's own available links followed by the
      self-conflicting links shared by the hops up to idx and the hops after. */
  function BridgingSet(net: Net, avail: seq<seq<Link>>, idx: nat): (r: seq<Link>)
    requires idx < |avail|
    ensures |avail[idx]| <= |r| && r[..|avail[idx]|] == avail[idx]
  {
    Union(avail[idx], SelfConflicting(net, UnionAll(avail[..idx + 1]), UnionAll(avail[idx + 1..])))
  }

  /** A bridging set lists each link once when every hop does. */
  lemma BridgingSetDistinct(net: Net, avail: seq<seq<Link>>, idx: nat)
    requires idx < |avail|
    requires forall i :: 0 <= i < |avail| ==> Distinct(avail[i])
    ensures Distinct(BridgingSet(net, avail, idx))
  {
    var leftHops, rightHops := avail[..idx + 1], avail[idx + 1..];
    assert forall i :: 0 <= i < |leftHops| ==> leftHops[i] == avail[i];
    UnionAllDistinct(leftHops);
    SelfConflictingDistinct(net, UnionAll(leftHops), UnionAll(rightHops));
    UnionDistinct(avail[idx], SelfConflicting(net, UnionAll(leftHops), UnionAll(rightHops)));
  }

  /** A link is at some hop no later than idx. */
  ghost predicate AtOrBefore(avail: seq<seq<Link>>, idx: nat, l: Link) {
    exists i :: 0 <= i <= idx && i < |avail| && l in avail[i]
  }

  /** A link is at some hop after idx. */
  ghost predicate After(avail: seq<seq<Link>>, idx: nat, l: Link) {
    exists j :: idx < j < |avail| && l in avail[j]
  }

  /** The bridging set of hop idx is exactly the hop's available links plus
      the links found both at or before idx and after idx that conflict with
      themselves; so it lies within the union of all hops' links. */
  lemma BridgingSetMembers(net: Net, avail: seq<seq<Link>>, idx: nat, l: Link)
    requires idx < |avail|
    ensures l in BridgingSet(net, avail, idx) <==>
      l in avail[idx] ||
      (AtOrBefore(avail, idx, l) && After(avail, idx, l) &&
       CheckInterference(net, KLink(l), KLink(l), l.freq, l.channel))
    ensures l in BridgingSet(net, avail, idx) ==> exists i :: 0 <= i < |avail| && l in avail[i]
  {
    var left, right := UnionAll(avail[..idx + 1]), UnionAll(avail[idx + 1..]);
    LeftHopsMembers(avail, idx, l);
    RightHopsMembers(avail, idx, l);
    SelfConflictingMembers(net, left, right);
    UnionMembers(avail[idx], SelfConflicting(net, left, right));
    assert l in BridgingSet(net, avail, idx) <==> l in avail[idx] || l in SelfConflicting(net, left, right);
    if l in BridgingSet(net, avail, idx) && l !in avail[idx] {
      var i :| 0 <= i <= idx && i < |avail| && l in avail[i];
    }
  }

  /** The union of the hops up to idx holds exactly the links at or before idx. */
  lemma LeftHopsMembers(avail: seq<seq<Link>>, idx: nat, l: Link)
    requires idx < |avail|
    ensures l in UnionAll(avail[..idx + 1]) <==> AtOrBefore(avail, idx, l)
  {
    var hops := avail[..idx + 1];
    UnionAllMembers(hops);
    if AtOrBefore(avail, idx, l) {
      var i :| 0 <= i <= idx && i < |avail| && l in avail[i];
      assert l in hops[i];
    }
    if l in UnionAll(hops) {
      var i :| 0 <= i < |hops| && l in hops[i];
      assert l in avail[i];
    }
  }

  /** The union of the hops after idx holds exactly the links after idx. */
  lemma RightHopsMembers(avail: seq<seq<Link>>, idx: nat, l: Link)
    requires idx < |avail|
    ensures l in UnionAll(avail[idx + 1..]) <==> After(avail, idx, l)
  {
    var hops := avail[idx + 1..];
    UnionAllMembers(hops);
    if After(avail, idx, l) {
      var j :| idx < j < |avail| && l in avail[j];
      assert l in hops[j - idx - 1];
    }
    if l in UnionAll(hops) {
      var j :| 0 <= j < |hops| && l in hops[j];
      assert l in avail[idx + 1 + j];
    }
  }
}

=== FILE: network.dfy ===
/** The base network of network.py as an object: a graph whose nodes carry
    their active beams, whose edges carry channel tables, and whose relays
    carry beamsets. Pathloss, bearings, distances and beam indices come from
    the node positions, which the model takes as given functions. */
module NetworkBase {
  import opened SeqSets
  import opened Links
  import opened NetworkRules
  import opened Options
  import Graphs

  class Network {
    /** The nodes in iteration order, and each node's neighbours in
        adjacency order. */
    var nodes: seq<Node>
    var adj: map<Node, seq<Node>>
    /** Each edge's `channels` attribute, under both of its directions. */
    var tables: map<(Node, Node), Table>
    /** Each node's `active_beams` attribute. */
    var activeBeams: map<Node, set<int>>
    /** `self.beamset`: per relay, its beamsets by bearing. The source's
        inner mapping is a plain dict; the model lists it in the order the
        bearings were stored, which is ascending bearing. */
    var beamset: map<Node, seq<(int, set<Node>)>>

    const channels: int
    const theta: real
    const relays: seq<Node>
    const subscribers: seq<Node>
    const pathloss: (Node, Node, real, Band) -> real
    const bearing: (Node, Node) -> real
    const distance: (Node, Node) -> real

    predicate Linked(u: Node, v: Node)
      reads this`adj
    {
      u in adj && v in adj[u]
    }

    /** The edge's channels add up to a nonzero capacity. */
    predicate Live(u: Node, v: Node)
      reads this`tables
    {
      (u, v) in tables && TableSum(tables[(u, v)]) != 0.0
    }

    ghost predicate Valid()
      reads this
    {
      Distinct(nodes) && Graphs.Undirected(nodes, adj)
      && (forall n :: n in adj ==> Distinct(adj[n]) && n in activeBeams)
      && (forall u, v :: Linked(u, v) ==> (u, v) in tables && (v, u) in tables && tables[(u, v)] == tables[(v, u)])
      && Distinct(relays) && Distinct(subscribers)
    }

    /** A network over a given graph: every node starts with no active
        beams, and no relay has beamsets yet. */
    constructor (nodes: seq<Node>, adj: map<Node, seq<Node>>, tables: map<(Node, Node), Table>,
                 channels: int, theta: real, relays: seq<Node>, subscribers: seq<Node>,
                 pathloss: (Node, Node, real, Band) -> real, bearing: (Node, Node) -> real,
                 distance: (Node, Node) -> real)
      requires Distinct(nodes) && Graphs.Undirected(nodes, adj) && Distinct(relays) && Distinct(subscribers)
      requires forall n :: n in adj ==> Distinct(adj[n])
      requires forall u, v :: u in adj && v in adj[u] ==> (u, v) in tables && (v, u) in tables && tables[(u, v)] == tables[(v, u)]
      ensures Valid()
      ensures this.nodes == nodes && this.adj == adj && this.tables == tables
      ensures this.channels == channels && this.theta == theta && this.relays == relays && this.subscribers == subscribers
      ensures this.pathloss == pathloss && this.bearing == bearing && this.distance == distance
      ensures activeBeams == (map n | n in adj :: {}) && beamset == map[]
    {
      this.nodes := nodes;
      this.adj := adj;
      this.tables := tables;
      this.channels := channels;
      this.theta := theta;
      this.relays := relays;
      this.subscribers := subscribers;
      this.pathloss := pathloss;
      this.bearing := bearing;
      this.distance := distance;
      this.activeBeams := map n | n in adj :: {};
      this.beamset := map[];
    }

    // -------------------------------------------------------------------
    // Rates and channel tables

    /** `throughput`: the rate tier of the link's pathloss. */
    function Throughput(src: Node, dst: Node, beamwidth: real, freq: Band): (t: real)
      ensures t == 0.0 <==> pathloss(src, dst, beamwidth, freq) > 126.0
      ensures 0.0 <= t <= PeakRate
    {
      RateTier(pathloss(src, dst, beamwidth, freq))
    }

    /** The rate of each band on an edge, with an omnidirectional beam. */
    function EdgeRates(src: Node, dst: Node): Band -> real {
      b => Throughput(src, dst, 360.0, b)
    }

    /** `init_edge`: a fresh channel table for the edge, every channel of
        every band at that band's rate. */
    method InitEdge(src: Node, dst: Node)
      requires Valid() && Linked(src, dst)
      modifies this`tables
      ensures Valid()
      ensures InitialTable(tables[(src, dst)], channels, EdgeRates(src, dst))
      ensures tables == old(tables)[(src, dst) := tables[(src, dst)]][(dst, src) := tables[(src, dst)]]
    {
      var bands := [B700, B2_4, B5_8];
      var t: Table := [];
      var j := 0;
      while j < 3
        invariant 0 <= j <= 3 && |t| == j
        invariant forall k :: 0 <= k < j ==> t[k].0 == bands[k] && UniformRow(t[k].1, channels, Throughput(src, dst, 360.0, bands[k]))
      {
        var rate := Throughput(src, dst, 360.0, bands[j]);
        var row: Row := [];
        var i := 0;
        while i < channels
          invariant 0 <= i && |row| == i && (channels <= 0 ==> i == 0) && (channels > 0 ==> i <= channels)
          invariant forall c :: 0 <= c < i ==> row[c] == (c, rate)
        {
          row := row + [(i, rate)];
          i := i + 1;
        }
        t := t + [(bands[j], row)];
        j := j + 1;
      }
      tables := tables[(src, dst) := t][(dst, src) := t];
    }

    /** `bottleneck_capacity`: the sum of every entry of the edge's table. */
    method BottleneckCapacity(e: (Node, Node)) returns (total: real)
      requires e in tables
      ensures total == TableSum(tables[e])
      ensures EntriesWithin(tables[e], 0.0, PeakRate) ==> 0.0 <= total <= Entries(tables[e]) as real * PeakRate
    {
      var t := tables[e];
      total := 0.0;
      var i := 0;
      while i < |t|
        invariant 0 <= i <= |t|
        invariant total == TableSum(t[..i])
      {
        var row := t[i].1;
        var j := 0;
        while j < |row|
          invariant 0 <= j <= |row|
          invariant total == TableSum(t[..i]) + RowSum(row[..j])
        {
          assert row[..j + 1][..j] == row[..j];
          total := total + row[j].1;
          j := j + 1;
        }
        assert row[..j] == row;
        assert t[..i + 1][..i] == t[..i];
        i := i + 1;
      }
      assert t[..i] == t;
      if EntriesWithin(t, 0.0, PeakRate) {
        TableSumWithin(t, PeakRate);
      }
    }

    /** `bottleneck_weight`: what the edge's capacity falls short of the
        peak capacity by. */
    method BottleneckWeight(e: (Node, Node)) returns (w: real)
      requires e in tables
      ensures w + TableSum(tables[e]) == MaxCapacity(channels)
      ensures Entries(tables[e]) == 3 * channels && EntriesWithin(tables[e], 0.0, PeakRate) ==> 0.0 <= w <= MaxCapacity(channels)
    {
      var maxPossible := PeakRate;
      maxPossible := maxPossible * 3.0;
      maxPossible := maxPossible * channels as real;
      var capacity := BottleneckCapacity(e);
      w := maxPossible - 1.0 * capacity;
      if Entries(tables[e]) == 3 * channels && EntriesWithin(tables[e], 0.0, PeakRate) {
        WeightWithin(channels, tables[e]);
      }
    }

    // -------------------------------------------------------------------
    // Pruning

    /** `remove_edge`: the edge goes from both endpoints' neighbour lists.
        Its channel table stays in `tables`, where networkx drops the
        edge's attribute dictionary with it; nothing reads the table of an
        edge that is gone. */
    method RemoveEdge(u: Node, v: Node)
      requires Valid() && Linked(u, v)
      modifies this`adj
      ensures Valid() && adj.Keys == old(adj).Keys && u in old(adj) && v in old(adj)
      ensures adj == Graphs.Unlink(old(adj), u, v)
      ensures forall a, b :: Linked(a, b) <==> old(Linked(a, b)) && (a, b) != (u, v) && (a, b) != (v, u)
      ensures forall n :: n in adj ==> |adj[n]| <= |old(adj)[n]|
    {
      Graphs.UnlinkEdges(nodes, adj, u, v);
      adj := Graphs.Unlink(adj, u, v);
    }

    /** The edge loop's progress over the edge list es: the first i edges
        are kept exactly when live, the later ones are all still there, and
        no edge outside adj0 has appeared. */
    ghost predicate PrunedUpTo(adj0: map<Node, seq<Node>>, es: seq<(Node, Node)>, i: nat)
      reads this`adj, this`tables
    {
      && i <= |es|
      && (forall j :: i <= j < |es| ==> Linked(es[j].0, es[j].1))
      && (forall a, b :: Linked(a, b) ==> a in adj0 && b in adj0[a])
      && (forall j :: 0 <= j < i ==> (Linked(es[j].0, es[j].1) <==> Live(es[j].0, es[j].1)))
    }

    /** One turn of the edge loop: edge es[i] goes exactly when its table
        sums to zero, and no other listed edge is touched. */
    method PruneEdge(ghost adj0: map<Node, seq<Node>>, es: seq<(Node, Node)>, i: nat)
      requires Valid() && Graphs.Oriented(es) && i < |es| && PrunedUpTo(adj0, es, i)
      modifies this`adj
      ensures Valid() && adj.Keys == old(adj).Keys && PrunedUpTo(adj0, es, i + 1)
    {
      var (a, b) := es[i];
      forall j | 0 <= j < |es| && j != i
        ensures es[j] != (a, b) && es[j] != (b, a)
      {
        OrientedApart(es, i, j);
      }
      var capacity := BottleneckCapacity((a, b));
      if capacity == 0.0 {
        RemoveEdge(a, b);
      }
    }

    /** `prune_dead_edges`, and the edge loop of `initialize_edges`: every
        edge whose table sums to zero is removed, every other edge stays. */
    method PruneDeadEdges()
      requires Valid()
      modifies this`adj
      ensures Valid() && adj.Keys == old(adj).Keys
      ensures forall a, b :: Linked(a, b) <==> old(Linked(a, b)) && Live(a, b)
    {
      ghost var adj0 := adj;
      var es := Graphs.EdgeList(nodes, adj);
      Graphs.EdgeListOriented(nodes, adj);
      Graphs.EdgeListLinked(nodes, adj);
      Graphs.EdgeListCoversAll(nodes, adj);
      assert forall a, b :: a in adj0 && b in adj0[a] ==> (Live(a, b) <==> Live(b, a));
      var i := 0;
      while i < |es|
        invariant 0 <= i <= |es|
        invariant Valid() && adj.Keys == adj0.Keys && PrunedUpTo(adj0, es, i)
      {
        PruneEdge(adj0, es, i);
        i := i + 1;
      }
      PrunedAll(adj0, es);
    }

    /** Once every listed edge is kept exactly when it is live, so is every
        edge of the graph, since each is listed in one direction. */
    lemma PrunedAll(adj0: map<Node, seq<Node>>, es: seq<(Node, Node)>)
      requires Graphs.Undirected(nodes, adj)
      requires forall a, b :: a in adj0 && b in adj0[a] ==> (a, b) in es || (b, a) in es
      requires forall a, b :: a in adj0 && b in adj0[a] ==> (Live(a, b) <==> Live(b, a))
      requires forall j :: 0 <= j < |es| ==> (Linked(es[j].0, es[j].1) <==> Live(es[j].0, es[j].1))
      ensures forall a, b :: a in adj0 && b in adj0[a] ==> (Linked(a, b) <==> Live(a, b))
    {
      forall a, b | a in adj0 && b in adj0[a]
        ensures Linked(a, b) <==> Live(a, b)
      {
        if (a, b) in es {
          var j :| 0 <= j < |es| && es[j] == (a, b);
        } else {
          var j :| 0 <= j < |es| && es[j] == (b, a);
          assert Linked(b, a) <==> Live(b, a);
          assert Linked(a, b) <==> Linked(b, a);
        }
      }
    }

    /** `remove_node` on a node without neighbours: it goes from the node
        list, the graph and the attributes, and nothing else changes. */
    method RemoveNode(n: Node)
      requires Valid() && n in adj && adj[n] == []
      modifies this`nodes, this`adj, this`activeBeams
      ensures Valid() && nodes == Minus(old(nodes), [n])
      ensures adj == old(adj) - {n} && activeBeams == old(activeBeams) - {n}
    {
      Graphs.DropIsolated(nodes, adj, n);
      nodes := Minus(nodes, [n]);
      adj := adj - {n};
      activeBeams := activeBeams - {n};
    }

    /** The node loop of `initialize_edges`: every node left without
        neighbours is removed, with its attributes. */
    method PruneIsolatedNodes()
      requires Valid()
      modifies this`nodes, this`adj, this`activeBeams
      ensures Valid()
      ensures forall n :: n in adj <==> n in old(adj) && old(adj)[n] != []
      ensures forall n :: n in adj ==> adj[n] == old(adj)[n] && activeBeams[n] == old(activeBeams)[n]
    {
      var ns := nodes;
      var i := 0;
      while i < |ns|
        invariant 0 <= i <= |ns|
        invariant Valid()
        invariant forall n :: n in adj <==> n in old(adj) && (old(adj)[n] != [] || n !in ns[..i])
        invariant forall n :: n in adj ==> adj[n] == old(adj)[n] && activeBeams[n] == old(activeBeams)[n]
      {
        var n := ns[i];
        assert n !in ns[..i] by {
          forall k | 0 <= k < i
            ensures ns[..i][k] != n
          {
            assert ns[k] != ns[i];
          }
        }
        if |adj[n]| == 0 {
          RemoveNode(n);
        }
        assert ns[..i + 1] == ns[..i] + [n];
        i := i + 1;
      }
      assert ns[..i] == ns;
    }

    /** `initialize_edges` without its random interference: the dead edges
        go, then the nodes they leave isolated. */
    method InitializeEdges()
      requires Valid()
      modifies this`nodes, this`adj, this`activeBeams
      ensures Valid()
      ensures forall a, b :: Linked(a, b) <==> old(Linked(a, b)) && Live(a, b)
      ensures forall n :: n in adj <==> n in old(adj) && exists m :: old(Linked(n, m)) && Live(n, m)
      ensures forall n :: n in adj ==> activeBeams[n] == old(activeBeams)[n]
    {
      PruneDeadEdges();
      ghost var adj1 := adj;
      PruneIsolatedNodes();
      forall n | n in old(adj) && adj1[n] != []
        ensures exists m :: old(Linked(n, m)) && Live(n, m)
      {
        assert Linked(n, adj1[n][0]);
      }
    }

    // -------------------------------------------------------------------
    // Beamsets

    /** The bearings one relay reaches its subscribers at. */
    method RelayBearings(relay: Node) returns (items: seq<(real, Node)>)
      ensures items == Bearings(relay, subscribers, theta, pathloss, bearing)
    {
      items := [];
      var i := 0;
      while i < |subscribers|
        invariant 0 <= i <= |subscribers|
        invariant items == Bearings(relay, subscribers[..i], theta, pathloss, bearing)
      {
        var subscriber := subscribers[i];
        var b := bearing(relay, subscriber);
        var throughput := Throughput(relay, subscriber, theta, B2_4);
        assert subscribers[..i + 1][..i] == subscribers[..i];
        if throughput > 0.0 {
          items := Put(items, b, subscriber);
        }
        i := i + 1;
      }
      assert subscribers[..i] == subscribers;
    }

    /** The subscribers strictly between left and right. */
    method WindowMembers(items: seq<(real, Node)>, left: real, right: real) returns (w: set<Node>)
      ensures w == Window(items, left, right)
    {
      w := {};
      var i := 0;
      while i < |items|
        invariant 0 <= i <= |items|
        invariant w == Window(items[..i], left, right)
      {
        var (b, s) := items[i];
        assert items[..i + 1][..i] == items[..i];
        if b > left && b < right {
          w := w + {s};
        }
        i := i + 1;
      }
      assert items[..i] == items;
    }

    /** One bearing of one relay's turn: its window, stored when nonempty. */
    method StoreWindow(relay: Node, items: seq<(real, Node)>, b: int)
      modifies this`beamset
      ensures var w := Window(items, Left(b, theta), Right(b, theta));
              beamset == if w != {} then old(beamset)[relay := Put(RowOf(old(beamset), relay), b, w)] else old(beamset)
    {
      var right := Right(b, theta);
      var left := Left(b, theta);
      var w := WindowMembers(items, left, right);
      if |w| > 0 {
        beamset := beamset[relay := Put(RowOf(beamset, relay), b, w)];
      }
    }

    /** One relay's turn of `beamsets`. */
    method RelayBeamsets(relay: Node)
      modifies this`beamset
      ensures beamset == StoreWindows(old(beamset), relay, Bearings(relay, subscribers, theta, pathloss, bearing), theta, 360)
    {
      var items := RelayBearings(relay);
      var b := 0;
      while b < 360
        invariant 0 <= b <= 360
        invariant beamset == StoreWindows(old(beamset), relay, items, theta, b)
      {
        StoreWindow(relay, items, b);
        b := b + 1;
      }
    }

    /** `beamsets`: every relay gets, under each bearing whose window holds
        a subscriber, the subscribers of that window. */
    method Beamsets()
      requires Valid()
      modifies this`beamset
      ensures beamset == AllBeamsets(old(beamset), relays, subscribers, theta, pathloss, bearing)
      ensures SoundBeamsets(old(beamset), theta, pathloss, bearing) ==> SoundBeamsets(beamset, theta, pathloss, bearing)
      ensures forall i, k: int :: 0 <= i < |relays| && 0 <= k < 360 ==>
                var w := Window(Bearings(relays[i], subscribers, theta, pathloss, bearing), Left(k, theta), Right(k, theta));
                w != {} ==> relays[i] in beamset && Get(beamset[relays[i]], k) == Some(w)
    {
      var i := 0;
      while i < |relays|
        invariant 0 <= i <= |relays|
        invariant beamset == AllBeamsets(old(beamset), relays[..i], subscribers, theta, pathloss, bearing)
      {
        assert relays[..i + 1][..i] == relays[..i];
        RelayBeamsets(relays[i]);
        i := i + 1;
      }
      assert relays[..i] == relays;
      if SoundBeamsets(old(beamset), theta, pathloss, bearing) {
        AllBeamsetsSound(old(beamset), relays, subscribers, theta, pathloss, bearing);
      }
      forall i, k: int | 0 <= i < |relays| && 0 <= k < 360
        && Window(Bearings(relays[i], subscribers, theta, pathloss, bearing), Left(k, theta), Right(k, theta)) != {}
        ensures relays[i] in beamset
                && Get(beamset[relays[i]], k) == Some(Window(Bearings(relays[i], subscribers, theta, pathloss, bearing), Left(k, theta), Right(k, theta)))
      {
        AllBeamsetsAt(old(beamset), relays, subscribers, theta, pathloss, bearing, i, k);
      }
    }
  }

  /** Two different entries of an edge list that names each edge once are
      different edges. */
  lemma OrientedApart(es: seq<(Node, Node)>, i: nat, j: nat)
    requires Graphs.Oriented(es) && i < |es| && j < |es| && i != j
    ensures es[j] != es[i] && es[j] != (es[i].1, es[i].0)
  {
    assert es[i] in es && es[j] in es;
  }
}

=== FILE: network_rules.dfy ===
/** The rules of the base network (network.py) that are functions of their
    inputs: the PHY-rate tiers of `throughput`, the per-edge channel tables
    and their capacity and weight, ordered-dictionary assignment, and the
    angular windows of `beamsets`. Pathloss and bearings are inputs. */
module NetworkRules {
  import opened SeqSets
  import opened Options
  import opened Links

  // ---------------------------------------------------------------------
  // Rate tiers

  /** The rate of the best tier, 45 Mbit/s. */
  const PeakRate: real := 45000000.0

  /** The rate `throughput` gives a link of the given pathloss (in dB). */
  function RateTier(pathloss: real): (t: real)
    ensures t == 0.0 <==> pathloss > 126.0
    ensures t == 0.0 || t == 10000000.0 || t == 20000000.0 || t == 30000000.0 || t == 40000000.0 || t == PeakRate
    ensures 0.0 <= t <= PeakRate
  {
    if pathloss > 126.0 then 0.0
    else if pathloss > 121.5 then 10000000.0
    else if pathloss > 118.75 then 20000000.0
    else if pathloss > 114.5 then 30000000.0
    else if pathloss > 113.0 then 40000000.0
    else PeakRate
  }

  /** More pathloss never gives a better rate. */
  lemma RateTierMonotone(p: real, q: real)
    requires p <= q
    ensures RateTier(q) <= RateTier(p)
  {
  }

  // ---------------------------------------------------------------------
  // Channel tables

  /** One band of an edge's `channels` attribute: its (channel, rate)
      entries, listed in the order `init_edge` stores them. The source's
      dict has its own order; the sums below do not depend on it. */
  type Row = seq<(int, real)>

  /** An edge's `channels` attribute: the bands, each with its row, listed
      in the order `init_edge` stores them. */
  type Table = seq<(Band, Row)>

  function RowSum(row: Row): real {
    if row == [] then 0.0 else RowSum(row[..|row| - 1]) + row[|row| - 1].1
  }

  /** The sum of every entry of the table, band by band. */
  function TableSum(t: Table): real {
    if t == [] then 0.0 else TableSum(t[..|t| - 1]) + RowSum(t[|t| - 1].1)
  }

  /** The number of entries of the table. */
  function Entries(t: Table): nat {
    if t == [] then 0 else Entries(t[..|t| - 1]) + |t[|t| - 1].1|
  }

  /** Every entry of the table lies in [lo, hi]. */
  predicate EntriesWithin(t: Table, lo: real, hi: real) {
    forall k, c :: 0 <= k < |t| && 0 <= c < |t[k].1| ==> lo <= t[k].1[c].1 <= hi
  }

  lemma {:induction false} RowSumWithin(row: Row, hi: real)
    requires forall c :: 0 <= c < |row| ==> 0.0 <= row[c].1 <= hi
    ensures 0.0 <= RowSum(row) <= |row| as real * hi
  {
    if row != [] {
      var front := row[..|row| - 1];
      assert forall c :: 0 <= c < |front| ==> front[c] == row[c];
      RowSumWithin(front, hi);
    }
  }

  /** A table whose entries lie in [0, hi] sums to between 0 and hi per
      entry. */
  lemma {:induction false} TableSumWithin(t: Table, hi: real)
    requires EntriesWithin(t, 0.0, hi)
    ensures 0.0 <= TableSum(t) <= Entries(t) as real * hi
  {
    if t != [] {
      var front := t[..|t| - 1];
      var row := t[|t| - 1].1;
      forall k, c | 0 <= k < |front| && 0 <= c < |front[k].1|
        ensures 0.0 <= front[k].1[c].1 <= hi
      {
        assert front[k] == t[k];
      }
      forall c | 0 <= c < |row|
        ensures 0.0 <= row[c].1 <= hi
      {
        assert row[c] == t[|t| - 1].1[c];
      }
      TableSumWithin(front, hi);
      RowSumWithin(row, hi);
      LastRowBound(t, hi);
    }
  }

  /** The bound of the table without its last band and the bound of that
      band add up to the bound of the table. Kept apart from
      `TableSumWithin`, whose quantifiers make this product step costly. */
  lemma LastRowBound(t: Table, hi: real)
    requires t != []
    requires 0.0 <= TableSum(t[..|t| - 1]) <= Entries(t[..|t| - 1]) as real * hi
    requires 0.0 <= RowSum(t[|t| - 1].1) <= |t[|t| - 1].1| as real * hi
    ensures 0.0 <= TableSum(t) <= Entries(t) as real * hi
  {
    assert Entries(t) == Entries(t[..|t| - 1]) + |t[|t| - 1].1|;
    assert Entries(t) as real * hi == Entries(t[..|t| - 1]) as real * hi + |t[|t| - 1].1| as real * hi;
  }

  /** A row of `init_edge`: channels 0 .. channels-1 in order, each with
      the band's rate. */
  predicate UniformRow(row: Row, channels: int, rate: real) {
    |row| == (if channels > 0 then channels else 0)
    && forall c :: 0 <= c < |row| ==> row[c] == (c, rate)
  }

  /** The table `init_edge` builds: the three bands 700 MHz, 2.4 GHz and
      5.8 GHz in that order, each a uniform row of its own rate. */
  predicate InitialTable(t: Table, channels: int, rate: Band -> real) {
    |t| == 3 && t[0].0 == B700 && t[1].0 == B2_4 && t[2].0 == B5_8
    && forall k :: 0 <= k < 3 ==> UniformRow(t[k].1, channels, rate(t[k].0))
  }

  lemma {:induction false} UniformRowSum(row: Row, channels: int, rate: real)
    requires UniformRow(row, channels, rate)
    ensures RowSum(row) == |row| as real * rate
  {
    if row != [] {
      var front := row[..|row| - 1];
      assert UniformRow(front, |front|, rate);
      UniformRowSum(front, |front|, rate);
    }
  }

  /** The capacity of a fresh edge: every channel of every band at that
      band's rate. */
  lemma InitialTableSum(t: Table, channels: int, rate: Band -> real)
    requires InitialTable(t, channels, rate)
    ensures var n := if channels > 0 then channels as real else 0.0;
            TableSum(t) == n * rate(B700) + n * rate(B2_4) + n * rate(B5_8)
    ensures Entries(t) == 3 * (if channels > 0 then channels else 0)
  {
    UniformRowSum(t[0].1, channels, rate(B700));
    UniformRowSum(t[1].1, channels, rate(B2_4));
    UniformRowSum(t[2].1, channels, rate(B5_8));
    var t1, t2 := t[..1], t[..2];
    assert t1[..0] == [] && t2[..1] == t1 && t[..2] == t2;
    assert TableSum(t1) == RowSum(t[0].1);
    assert TableSum(t2) == RowSum(t[0].1) + RowSum(t[1].1);
    assert TableSum(t) == RowSum(t[0].1) + RowSum(t[1].1) + RowSum(t[2].1);
    assert Entries(t1) == |t[0].1|;
    assert Entries(t2) == |t[0].1| + |t[1].1|;
  }

  /** The capacity of an edge whose every channel of the three bands ran
      at the peak rate. */
  function MaxCapacity(channels: int): real {
    PeakRate * 3.0 * channels as real
  }

  /** `bottleneck_weight`: the capacity an edge falls short of the peak
      by. */
  function Weight(channels: int, t: Table): (w: real)
    ensures w + TableSum(t) == MaxCapacity(channels)
  {
    MaxCapacity(channels) - TableSum(t)
  }

  /** An edge with three entries per channel, each between 0 and the peak
      rate, has a weight between 0 and the peak capacity. */
  lemma WeightWithin(channels: int, t: Table)
    requires Entries(t) == 3 * channels && EntriesWithin(t, 0.0, PeakRate)
    ensures 0.0 <= Weight(channels, t) <= MaxCapacity(channels)
  {
    TableSumWithin(t, PeakRate);
  }

  /** A fresh edge whose rates are tiers has a weight in that range. */
  lemma InitialWeightWithin(t: Table, channels: int, rate: Band -> real)
    requires InitialTable(t, channels, rate) && channels >= 0
    requires forall b :: 0.0 <= rate(b) <= PeakRate
    ensures 0.0 <= Weight(channels, t) <= MaxCapacity(channels)
  {
    InitialTableSum(t, channels, rate);
    forall k, c | 0 <= k < |t| && 0 <= c < |t[k].1|
      ensures 0.0 <= t[k].1[c].1 <= PeakRate
    {
      assert t[k].1[c].1 == rate(t[k].0);
    }
    WeightWithin(channels, t);
  }

  // ---------------------------------------------------------------------
  // Ordered dictionaries

  /** The value an ordered dictionary, given as its (key, value) items,
      holds for key k. */
  function Get<K(==), V>(items: seq<(K, V)>, k: K): Option<V> {
    if items == [] then None
    else if items[0].0 == k then Some(items[0].1)
    else Get(items[1..], k)
  }

  /** `d[k] = v`: the value of a present key is replaced in place, a new
      key goes to the end. */
  function Put<K(==,!new), V>(items: seq<(K, V)>, k: K, v: V): (r: seq<(K, V)>)
    ensures Get(r, k) == Some(v)
    ensures forall k' :: k' != k ==> Get(r, k') == Get(items, k')
    ensures forall i :: 0 <= i < |r| ==> r[i] == (k, v) || r[i] in items
    ensures Get(items, k).None? ==> r == items + [(k, v)]
    ensures Get(items, k).Some? ==> |r| == |items| && forall i :: 0 <= i < |r| ==> r[i].0 == items[i].0
  {
    if items == [] then [(k, v)]
    else if items[0].0 == k then [(k, v)] + items[1..]
    else [items[0]] + Put(items[1..], k, v)
  }

  lemma {:induction false} GetFound<K, V>(items: seq<(K, V)>, k: K)
    requires Get(items, k).Some?
    ensures (k, Get(items, k).value) in items
  {
    if items[0].0 != k {
      GetFound(items[1..], k);
    }
  }

  lemma {:induction false} GetPresent<K, V>(items: seq<(K, V)>, k: K, v: V)
    requires (k, v) in items
    ensures Get(items, k).Some?
  {
    if items[0].0 != k {
      GetPresent(items[1..], k, v);
    }
  }

  // ---------------------------------------------------------------------
  // Beam windows

  /** Python's `x % 360` on a float: the remainder of flooring division,
      in [0, 360). */
  function Mod360(x: real): (r: real)
    ensures 0.0 <= r < 360.0
    ensures (x - r) / 360.0 == ((x - r) / 360.0).Floor as real
  {
    x - 360.0 * (x / 360.0).Floor as real
  }

  /** The right and left edges of the beam of width theta centred on an
      integer bearing. */
  function Right(bearing: int, theta: real): real {
    Mod360(bearing as real + theta / 2.0)
  }

  function Left(bearing: int, theta: real): real {
    Mod360(bearing as real - theta / 2.0)
  }

  /** `beam_index`: which of `beams` equal sectors, numbered from 1
      clockwise from north, holds the bearing. */
  function BeamOf(b: real, beams: int): int
    requires beams != 0
  {
    1 + (b * beams as real / 360.0).Floor
  }

  /** A bearing in [0, 360) falls in one of the sectors 1 .. beams. */
  lemma BeamOfInRange(b: real, beams: int)
    requires beams > 0 && 0.0 <= b < 360.0
    ensures 1 <= BeamOf(b, beams) <= beams
  {
    var n := beams as real;
    assert b * n < 360.0 * n;
    assert 0.0 <= b * n / 360.0 < n;
  }

  /** An input bearing of exactly 360 falls one past the last sector. */
  lemma BeamOfNorth(beams: int)
    requires beams > 0
    ensures BeamOf(360.0, beams) == beams + 1
  {
    var n := beams as real;
    assert 360.0 * n / 360.0 == n;
  }

  /** The subscribers whose recorded bearing lies strictly between left
      and right. */
  function Window(items: seq<(real, Node)>, left: real, right: real): set<Node> {
    if items == [] then {}
    else
      var last := items[|items| - 1];
      Window(items[..|items| - 1], left, right) + (if left < last.0 < right then {last.1} else {})
  }

  /** A subscriber is in the window exactly when some recorded bearing of
      it lies strictly between left and right. */
  lemma {:induction false} WindowHas(items: seq<(real, Node)>, left: real, right: real)
    ensures forall s :: s in Window(items, left, right) <==>
              exists i :: 0 <= i < |items| && left < items[i].0 < right && items[i].1 == s
  {
    if items != [] {
      var front := items[..|items| - 1];
      WindowHas(front, left, right);
      assert forall i :: 0 <= i < |front| ==> front[i] == items[i];
    }
  }

  /** A beam that straddles north, centred below theta/2 or above
      360 - theta/2, has its left edge at or past its right edge: its
      window holds no subscriber. */
  lemma NorthWindowEmpty(items: seq<(real, Node)>, bearing: int, theta: real)
    requires 0.0 < theta <= 360.0 && 0 <= bearing < 360
    requires (bearing as real) < theta / 2.0 || 360.0 - theta / 2.0 < bearing as real
    ensures Window(items, Left(bearing, theta), Right(bearing, theta)) == {}
  {
    var x := bearing as real - theta / 2.0;
    var y := bearing as real + theta / 2.0;
    if (bearing as real) < theta / 2.0 {
      assert (x / 360.0).Floor == -1;
      assert (y / 360.0).Floor == 0;
      assert Left(bearing, theta) == x + 360.0;
      assert Right(bearing, theta) == y;
    } else {
      assert (x / 360.0).Floor == 0;
      assert (y / 360.0).Floor == 1;
      assert Left(bearing, theta) == x;
      assert Right(bearing, theta) == y - 360.0;
    }
    WindowHas(items, Left(bearing, theta), Right(bearing, theta));
  }

  /** The bearings `beamsets` records for one relay: for each subscriber in
      turn that the relay reaches at a positive rate, the subscriber at its
      bearing, a later subscriber at the same bearing taking the earlier
      one's place. */
  function Bearings(relay: Node, subs: seq<Node>, theta: real,
                    pathloss: (Node, Node, real, Band) -> real, bearing: (Node, Node) -> real): seq<(real, Node)>
  {
    if subs == [] then []
    else
      var items := Bearings(relay, subs[..|subs| - 1], theta, pathloss, bearing);
      var s := subs[|subs| - 1];
      if RateTier(pathloss(relay, s, theta, B2_4)) > 0.0 then Put(items, bearing(relay, s), s) else items
  }

  /** Each recorded subscriber is reached at a positive rate and sits at
      its own bearing; every reached subscriber's bearing is recorded. */
  lemma {:induction false} BearingsSound(relay: Node, subs: seq<Node>, theta: real,
                                        pathloss: (Node, Node, real, Band) -> real, bearing: (Node, Node) -> real)
    ensures var items := Bearings(relay, subs, theta, pathloss, bearing);
            forall i :: 0 <= i < |items| ==>
              items[i].1 in subs && RateTier(pathloss(relay, items[i].1, theta, B2_4)) > 0.0
              && items[i].0 == bearing(relay, items[i].1)
    ensures var items := Bearings(relay, subs, theta, pathloss, bearing);
            forall s :: s in subs && RateTier(pathloss(relay, s, theta, B2_4)) > 0.0 ==>
              Get(items, bearing(relay, s)).Some?
  {
    if subs != [] {
      var front := subs[..|subs| - 1];
      var s := subs[|subs| - 1];
      BearingsSound(relay, front, theta, pathloss, bearing);
      var items := Bearings(relay, front, theta, pathloss, bearing);
      var items' := Bearings(relay, subs, theta, pathloss, bearing);
      forall i | 0 <= i < |items'|
        ensures items'[i].1 in subs && RateTier(pathloss(relay, items'[i].1, theta, B2_4)) > 0.0
                && items'[i].0 == bearing(relay, items'[i].1)
      {
        if items'[i] != (bearing(relay, s), s) {
          assert items'[i] in items;
          var j :| 0 <= j < |items| && items[j] == items'[i];
          assert items[j].1 in front;
        }
      }
      forall t | t in subs && RateTier(pathloss(relay, t, theta, B2_4)) > 0.0
        ensures Get(items', bearing(relay, t)).Some?
      {
        if t != s {
          assert t in front;
        }
      }
    }
  }

  /** A relay's beamsets as the defaultdict reads them: empty until the
      first store. */
  function RowOf(beamset: map<Node, seq<(int, set<Node>)>>, relay: Node): seq<(int, set<Node>)> {
    if relay in beamset then beamset[relay] else []
  }

  /** The beamsets after `beamsets` has looked at bearings 0 .. n-1 for one
      relay: every nonempty window is stored under its bearing, in the
      relay's dictionary, which the defaultdict creates at the first store.
      The model lists the stored bearings in the order they were stored. */
  function StoreWindows(beamset: map<Node, seq<(int, set<Node>)>>, relay: Node, items: seq<(real, Node)>,
                        theta: real, n: nat): map<Node, seq<(int, set<Node>)>>
  {
    if n == 0 then beamset
    else
      var m := StoreWindows(beamset, relay, items, theta, n - 1);
      var w := Window(items, Left(n - 1, theta), Right(n - 1, theta));
      if w != {} then m[relay := Put(RowOf(m, relay), n - 1, w)] else m
  }

  /** What StoreWindows leaves under bearing k: the window when k is below
      n and its window is nonempty, the earlier entry otherwise. */
  lemma {:induction false} StoreWindowsAt(beamset: map<Node, seq<(int, set<Node>)>>, relay: Node,
                                          items: seq<(real, Node)>, theta: real, n: nat, k: int)
    ensures var w := Window(items, Left(k, theta), Right(k, theta));
            Get(RowOf(StoreWindows(beamset, relay, items, theta, n), relay), k)
              == if 0 <= k < n && w != {} then Some(w) else Get(RowOf(beamset, relay), k)
  {
    if n == 0 {
      assert StoreWindows(beamset, relay, items, theta, n) == beamset;
    } else {
      StoreWindowsAt(beamset, relay, items, theta, n - 1, k);
      StoreWindowStep(beamset, relay, items, theta, n, k);
    }
  }

  /** Bearing n - 1's turn: it stores that bearing's window when nonempty
      and leaves every other bearing's entry alone. */
  lemma StoreWindowStep(beamset: map<Node, seq<(int, set<Node>)>>, relay: Node,
                        items: seq<(real, Node)>, theta: real, n: nat, k: int)
    requires n > 0
    ensures var w := Window(items, Left(k, theta), Right(k, theta));
            Get(RowOf(StoreWindows(beamset, relay, items, theta, n), relay), k)
              == if k == n - 1 && w != {} then Some(w)
                 else Get(RowOf(StoreWindows(beamset, relay, items, theta, n - 1), relay), k)
  {
    var m := StoreWindows(beamset, relay, items, theta, n - 1);
    var last := Window(items, Left(n - 1, theta), Right(n - 1, theta));
    if last != {} {
      assert StoreWindows(beamset, relay, items, theta, n) == m[relay := Put(RowOf(m, relay), n - 1, last)];
      PutRowAt(m, relay, n - 1, last, k);
    }
    if k == n - 1 {
      assert Window(items, Left(k, theta), Right(k, theta)) == last;
    }
  }

  /** Storing w under bearing b in a relay's row changes what that row
      holds under b and nothing else. */
  lemma PutRowAt(m: map<Node, seq<(int, set<Node>)>>, relay: Node, b: int, w: set<Node>, k: int)
    ensures Get(RowOf(m[relay := Put(RowOf(m, relay), b, w)], relay), k)
              == if k == b then Some(w) else Get(RowOf(m, relay), k)
  {
  }

  /** StoreWindows leaves the other relays alone. */
  lemma {:induction false} StoreWindowsOthers(beamset: map<Node, seq<(int, set<Node>)>>, relay: Node,
                                              items: seq<(real, Node)>, theta: real, n: nat, r: Node)
    requires r != relay
    ensures var m := StoreWindows(beamset, relay, items, theta, n);
            (r in m <==> r in beamset) && (r in m ==> m[r] == beamset[r])
  {
    if n > 0 {
      StoreWindowsOthers(beamset, relay, items, theta, n - 1, r);
    }
  }

  /** Every stored beamset is a nonempty window of a bearing in [0, 360)
      whose members the relay reaches at a positive rate, at a bearing
      strictly inside the window. */
  ghost predicate SoundBeamsets(beamset: map<Node, seq<(int, set<Node>)>>, theta: real,
                                pathloss: (Node, Node, real, Band) -> real, bearing: (Node, Node) -> real)
  {
    forall r, i :: r in beamset && 0 <= i < |beamset[r]| ==>
      var (k, w) := beamset[r][i];
      0 <= k < 360 && w != {}
      && forall s :: s in w ==>
           RateTier(pathloss(r, s, theta, B2_4)) > 0.0
           && Left(k, theta) < bearing(r, s) < Right(k, theta)
  }

  /** The members of a window of recorded bearings are reached at a
      positive rate and lie strictly inside it. */
  lemma WindowSound(relay: Node, subs: seq<Node>, theta: real, pathloss: (Node, Node, real, Band) -> real,
                    bearing: (Node, Node) -> real, k: int)
    ensures forall s :: s in Window(Bearings(relay, subs, theta, pathloss, bearing), Left(k, theta), Right(k, theta)) ==>
              RateTier(pathloss(relay, s, theta, B2_4)) > 0.0
              && Left(k, theta) < bearing(relay, s) < Right(k, theta)
  {
    BearingsSound(relay, subs, theta, pathloss, bearing);
    WindowHas(Bearings(relay, subs, theta, pathloss, bearing), Left(k, theta), Right(k, theta));
  }

  /** Storing a sound beamset keeps every beamset sound. */
  lemma StoreSound(m: map<Node, seq<(int, set<Node>)>>, relay: Node, k: int, w: set<Node>, theta: real,
                   pathloss: (Node, Node, real, Band) -> real, bearing: (Node, Node) -> real)
    requires SoundBeamsets(m, theta, pathloss, bearing)
    requires 0 <= k < 360 && w != {}
    requires forall s :: s in w ==> RateTier(pathloss(relay, s, theta, B2_4)) > 0.0
                                    && Left(k, theta) < bearing(relay, s) < Right(k, theta)
    ensures SoundBeamsets(m[relay := Put(RowOf(m, relay), k, w)], theta, pathloss, bearing)
  {
    var row := RowOf(m, relay);
    var m' := m[relay := Put(row, k, w)];
    forall r, i | r in m' && 0 <= i < |m'[r]|
      ensures var (k', v) := m'[r][i];
              0 <= k' < 360 && v != {}
              && forall s :: s in v ==>
                   RateTier(pathloss(r, s, theta, B2_4)) > 0.0
                   && Left(k', theta) < bearing(r, s) < Right(k', theta)
    {
      if r == relay && m'[r][i] != (k, w) {
        assert m'[r][i] in row;
        var j :| 0 <= j < |row| && row[j] == m'[r][i];
        assert row[j] == m[relay][j];
      }
    }
  }

  lemma {:induction false} StoreWindowsSound(beamset: map<Node, seq<(int, set<Node>)>>, relay: Node, subs: seq<Node>,
                                             theta: real, pathloss: (Node, Node, real, Band) -> real,
                                             bearing: (Node, Node) -> real, n: nat)
    requires n <= 360 && SoundBeamsets(beamset, theta, pathloss, bearing)
    ensures SoundBeamsets(StoreWindows(beamset, relay, Bearings(relay, subs, theta, pathloss, bearing), theta, n),
                          theta, pathloss, bearing)
  {
    var items := Bearings(relay, subs, theta, pathloss, bearing);
    var after := StoreWindows(beamset, relay, items, theta, n);
    if n == 0 {
      assert after == beamset;
    } else {
      StoreWindowsSound(beamset, relay, subs, theta, pathloss, bearing, n - 1);
      var m := StoreWindows(beamset, relay, items, theta, n - 1);
      var w := Window(items, Left(n - 1, theta), Right(n - 1, theta));
      if w != {} {
        WindowSound(relay, subs, theta, pathloss, bearing, n - 1);
        StoreSound(m, relay, n - 1, w, theta, pathloss, bearing);
        assert after == m[relay := Put(RowOf(m, relay), n - 1, w)];
      } else {
        assert after == m;
      }
    }
  }

  /** The beamsets after `beamsets` has handled every relay of `relays` in
      turn. */
  function AllBeamsets(beamset: map<Node, seq<(int, set<Node>)>>, relays: seq<Node>, subs: seq<Node>, theta: real,
                       pathloss: (Node, Node, real, Band) -> real, bearing: (Node, Node) -> real)
    : map<Node, seq<(int, set<Node>)>>
  {
    if relays == [] then beamset
    else
      var m := AllBeamsets(beamset, relays[..|relays| - 1], subs, theta, pathloss, bearing);
      var r := relays[|relays| - 1];
      StoreWindows(m, r, Bearings(r, subs, theta, pathloss, bearing), theta, 360)
  }

  /** Every relay ends up with each nonempty window of its recorded
      bearings stored under that window's bearing. */
  lemma {:induction false} AllBeamsetsAt(beamset: map<Node, seq<(int, set<Node>)>>, relays: seq<Node>, subs: seq<Node>,
                                         theta: real, pathloss: (Node, Node, real, Band) -> real,
                                         bearing: (Node, Node) -> real, i: nat, k: int)
    requires Distinct(relays) && i < |relays| && 0 <= k < 360
    requires Window(Bearings(relays[i], subs, theta, pathloss, bearing), Left(k, theta), Right(k, theta)) != {}
    ensures var m := AllBeamsets(beamset, relays, subs, theta, pathloss, bearing);
            relays[i] in m
            && Get(m[relays[i]], k) == Some(Window(Bearings(relays[i], subs, theta, pathloss, bearing), Left(k, theta), Right(k, theta)))
  {
    var front := relays[..|relays| - 1];
    var r := relays[|relays| - 1];
    if i < |front| {
      assert relays[i] == front[i] && relays[i] != r;
      AllBeamsetsAt(beamset, front, subs, theta, pathloss, bearing, i, k);
      AllBeamsetsOthers(beamset, relays, subs, theta, pathloss, bearing, relays[i]);
    } else {
      AllBeamsetsLast(beamset, relays, subs, theta, pathloss, bearing, k);
    }
  }

  /** The last relay's turn leaves the others' beamsets as they were. */
  lemma AllBeamsetsOthers(beamset: map<Node, seq<(int, set<Node>)>>, relays: seq<Node>, subs: seq<Node>,
                          theta: real, pathloss: (Node, Node, real, Band) -> real,
                          bearing: (Node, Node) -> real, x: Node)
    requires relays != [] && x != relays[|relays| - 1]
    ensures var m := AllBeamsets(beamset, relays[..|relays| - 1], subs, theta, pathloss, bearing);
            var m' := AllBeamsets(beamset, relays, subs, theta, pathloss, bearing);
            (x in m' <==> x in m) && (x in m ==> m'[x] == m[x])
  {
    var r := relays[|relays| - 1];
    var m := AllBeamsets(beamset, relays[..|relays| - 1], subs, theta, pathloss, bearing);
    StoreWindowsOthers(m, r, Bearings(r, subs, theta, pathloss, bearing), theta, 360, x);
  }

  /** The last relay's turn stores each nonempty window of its own. */
  lemma AllBeamsetsLast(beamset: map<Node, seq<(int, set<Node>)>>, relays: seq<Node>, subs: seq<Node>,
                        theta: real, pathloss: (Node, Node, real, Band) -> real,
                        bearing: (Node, Node) -> real, k: int)
    requires relays != [] && 0 <= k < 360
    requires Window(Bearings(relays[|relays| - 1], subs, theta, pathloss, bearing), Left(k, theta), Right(k, theta)) != {}
    ensures var r := relays[|relays| - 1];
            var m' := AllBeamsets(beamset, relays, subs, theta, pathloss, bearing);
            r in m' && Get(m'[r], k) == Some(Window(Bearings(r, subs, theta, pathloss, bearing), Left(k, theta), Right(k, theta)))
  {
    var r := relays[|relays| - 1];
    var m := AllBeamsets(beamset, relays[..|relays| - 1], subs, theta, pathloss, bearing);
    var items := Bearings(r, subs, theta, pathloss, bearing);
    StoreWindowsAt(m, r, items, theta, 360, k);
    assert r in AllBeamsets(beamset, relays, subs, theta, pathloss, bearing);
  }

  lemma {:induction false} AllBeamsetsSound(beamset: map<Node, seq<(int, set<Node>)>>, relays: seq<Node>, subs: seq<Node>,
                                            theta: real, pathloss: (Node, Node, real, Band) -> real,
                                            bearing: (Node, Node) -> real)
    requires SoundBeamsets(beamset, theta, pathloss, bearing)
    ensures SoundBeamsets(AllBeamsets(beamset, relays, subs, theta, pathloss, bearing), theta, pathloss, bearing)
  {
    if relays != [] {
      var front := relays[..|relays| - 1];
      AllBeamsetsSound(beamset, front, subs, theta, pathloss, bearing);
      StoreWindowsSound(AllBeamsets(beamset, front, subs, theta, pathloss, bearing), relays[|relays| - 1], subs,
                        theta, pathloss, bearing, 360);
    }
  }
}

=== FILE: options.dfy ===
/** An optional value, for lookups that may find nothing. */
module Options {
  datatype Option<T> = None | Some(value: T)
}

=== FILE: select.dfy ===
/** `select_channels` (joint_routing_channel_selection.py): the rules of the
    bridging-set subset dynamic program that picks a link set for every hop
    of a fixed path. */
module ChannelSelection {
  import opened SeqSets
  import opened Options
  import opened Links
  import opened SubsetCodec
  import opened Throughput
  import opened SubsetDp

  /** The inputs every step reads: the network, each hop's available links
      and bridging set, the throughput a fresh `Path` starts from, and the
      estimator that scores the last hop of a selection against a bridging
      context. */
  datatype Setup = Setup(
    net: Net,
    avail: seq<seq<Link>>,
    bridging: seq<seq<Link>>,
    init: real,
    score: (seq<seq<Link>>, seq<Link>) -> real)

  predicate WellFormed(s: Setup) {
    |s.avail| == |s.bridging| >= 1
  }

  /** Every available link has strictly positive capacity. */
  predicate PositiveAvail(s: Setup) {
    forall i, l :: 0 <= i < |s.avail| && l in s.avail[i] ==> Capacity(s.net, l) > 0.0
  }

  /** The estimator in the setup is `throughput_for_path`'s hop score. */
  ghost predicate ScoresByEstimator(s: Setup) {
    forall selected, context {:trigger HopScore(s.net, selected, context, |s.avail|, s.avail)} :: |selected| >= 1 ==>
      s.score(selected, context) == HopScore(s.net, selected, context, |s.avail|, s.avail)
  }

  /** The estimator never goes below zero on a selection whose last hop's
      links all have nonnegative capacity. */
  ghost predicate ScoresNonnegative(s: Setup) {
    forall selected, context ::
      |selected| >= 1 && (forall l :: l in selected[|selected| - 1] ==> Capacity(s.net, l) >= 0.0) ==>
      s.score(selected, context) >= 0.0
  }

  /** The available links and bridging sets of every hop of the path, and
      `throughput_for_path`'s hop score as the estimator. */
  function MakeSetup(net: Net, path: PathEdges, init: real): (s: Setup)
    requires |path| >= 1
    ensures WellFormed(s) && |s.avail| == |path| && PositiveAvail(s)
    ensures s.net == net && s.init == init
  {
    var avail := FindAvailableLinks(net, path);
    var score := (selected: seq<seq<Link>>, context: seq<Link>) =>
      if |selected| >= 1 then HopScore(net, selected, context, |avail|, avail) else 0.0;
    Setup(net, avail, seq(|path|, i requires 0 <= i < |path| => BridgingSet(net, avail, i)), init, score)
  }

  /** A hop's score is nonnegative when every link of the hop's selection
      has nonnegative capacity. */
  lemma HopScoreNonnegative(net: Net, selected: seq<seq<Link>>, context: seq<Link>, pathLen: nat, avail: seq<seq<Link>>)
    requires |selected| >= 1 && pathLen <= |avail|
    requires forall l :: l in selected[|selected| - 1] ==> Capacity(net, l) >= 0.0
    ensures HopScore(net, selected, context, pathLen, avail) >= 0.0
  {
    SharesBounds(net, selected, context, pathLen, avail, |selected[|selected| - 1]|);
  }

  lemma MakeSetupScores(net: Net, path: PathEdges, init: real)
    requires |path| >= 1
    ensures ScoresByEstimator(MakeSetup(net, path, init))
    ensures ScoresNonnegative(MakeSetup(net, path, init))
  {
    var s := MakeSetup(net, path, init);
    forall selected, context |
      |selected| >= 1 && (forall l :: l in selected[|selected| - 1] ==> Capacity(s.net, l) >= 0.0)
      ensures s.score(selected, context) >= 0.0
    {
      HopScoreNonnegative(s.net, selected, context, |s.avail|, s.avail);
    }
  }

  /** Every bridging set of the setup lists each link once. */
  lemma MakeSetupDistinct(net: Net, path: PathEdges, init: real)
    requires |path| >= 1
    ensures forall i :: 0 <= i < |path| ==> Distinct(MakeSetup(net, path, init).bridging[i])
  {
    var s := MakeSetup(net, path, init);
    AvailableLinksDistinct(net, path);
    forall i | 0 <= i < |path| ensures Distinct(s.bridging[i]) {
      BridgingSetDistinct(net, s.avail, i);
    }
  }

  /** The links of bridging set i also in bridging set i-1, and the rest. */
  function OldPart(s: Setup, i: nat): seq<Link>
    requires WellFormed(s) && 1 <= i < |s.avail|
  {
    Inter(s.bridging[i], s.bridging[i - 1])
  }

  function NewPart(s: Setup, i: nat): seq<Link>
    requires WellFormed(s) && 1 <= i < |s.avail|
  {
    Minus(s.bridging[i], s.bridging[i - 1])
  }

  /** The candidate built from state k of hop i-1: its selections extended
      with the decoded subset's links available at hop i-1, scored from the
      fresh-path throughput with `context` as the bridging set. */
  function Extend(s: Setup, i: nat, prev: Scored, k: nat, context: seq<Link>): Scored
    requires WellFormed(s) && 1 <= i < |s.avail|
  {
    var selected := prev.selected + [Inter(Decode(s.bridging[i - 1], k), s.avail[i - 1])];
    Scored(selected, Min(s.init, s.score(selected, context)))
  }

  /** The l-th successor when the bridging set of hop i has new links: the
      l-th subset of the new part together with the whole old part. */
  function NewSuccessor(s: Setup, i: nat, prev: Scored, k: nat, l: nat): (nat, Scored)
    requires WellFormed(s) && 1 <= i < |s.avail|
  {
    var next := Union(Decode(NewPart(s, i), l), OldPart(s, i));
    (Encode(s.bridging[i], next), Extend(s, i, prev, k, next))
  }

  /** The first n successors of state k, one per subset index l < n. */
  function NewSuccessors(s: Setup, i: nat, prev: Scored, k: nat, n: nat): (r: Offers)
    requires WellFormed(s) && 1 <= i < |s.avail|
    ensures |r| == n
  {
    if n == 0 then [] else NewSuccessors(s, i, prev, k, n - 1) + [NewSuccessor(s, i, prev, k, n - 1)]
  }

  /** All offers of state k of hop i-1. Without new links there is one,
      keyed by the old part's members in the decoded subset, and scored
      against the decoded subset itself; otherwise one per subset of the
      new part. */
  function StateOffers(s: Setup, i: nat, prev: Scored, k: nat): Offers
    requires WellFormed(s) && 1 <= i < |s.avail|
  {
    if |NewPart(s, i)| == 0 then
      var previous := Decode(s.bridging[i - 1], k);
      [(Encode(s.bridging[i], Inter(OldPart(s, i), previous)), Extend(s, i, prev, k, previous))]
    else
      NewSuccessors(s, i, prev, k, Pow2(|NewPart(s, i)|))
  }

  /** The terminal candidate of state k of the last hop: the decoded subset's
      available links appended, scored from the state's own throughput with
      an empty bridging set. */
  function TerminalCandidate(s: Setup, cell: Scored, k: nat): real
    requires WellFormed(s)
  {
    var last := |s.avail| - 1;
    var selected := cell.selected + [Inter(Decode(s.bridging[last], k), s.avail[last])];
    Min(cell.throughput, s.score(selected, []))
  }

  /** The dynamic program of a setup: one state per subset of each bridging
      set, the offers above between consecutive hops, and the terminal
      candidates at the last hop. */
  function MakeProgram(s: Setup): (p: Program)
    requires WellFormed(s)
    ensures p.init == s.init && |p.sizes| == |s.avail|
    ensures forall i :: 0 <= i < |p.sizes| ==> p.sizes[i] == Pow2(|s.bridging[i]|)
  {
    Program(
      s.init,
      seq(|s.bridging|, i requires 0 <= i < |s.bridging| => Pow2(|s.bridging[i]|)),
      (i: nat, prev: Scored, k: nat) => if 1 <= i < |s.avail| then StateOffers(s, i, prev, k) else [],
      (cell: Scored, k: nat) => TerminalCandidate(s, cell, k))
  }

  /** `p` is the program of the setup's rules. Each rule is reached through
      its own name, so reasoning about `p` alone does not unfold the rules. */
  ghost predicate Implements(s: Setup, p: Program)
    requires WellFormed(s)
  {
    && p.init == s.init
    && |p.sizes| == |s.avail|
    && (forall i :: 0 <= i < |p.sizes| ==> p.sizes[i] == Pow2(|s.bridging[i]|))
    && (forall i, prev, k {:trigger StateOffers(s, i, prev, k)} ::
         1 <= i < |s.avail| ==> p.offers(i, prev, k) == StateOffers(s, i, prev, k))
    && (forall cell, k {:trigger TerminalCandidate(s, cell, k)} ::
         p.terminal(cell, k) == TerminalCandidate(s, cell, k))
  }

  lemma MakeProgramImplements(s: Setup)
    requires WellFormed(s)
    ensures Implements(s, MakeProgram(s))
  {
  }

  /** What `select_channels` returns. */
  function SelectChannelsSpec(net: Net, path: PathEdges, init: real): Result<real> {
    if |path| == 0 then Ok(0.0) else Run(MakeProgram(MakeSetup(net, path, init)))
  }

  // ---------------------------------------------------------------------
  // The rules meet the conditions of the skeleton's properties

  lemma {:induction false} NewSuccessorsAt(s: Setup, i: nat, prev: Scored, k: nat, n: nat)
    requires WellFormed(s) && 1 <= i < |s.avail|
    ensures forall l :: 0 <= l < n ==> NewSuccessors(s, i, prev, k, n)[l] == NewSuccessor(s, i, prev, k, l)
  {
    if n > 0 {
      NewSuccessorsAt(s, i, prev, k, n - 1);
      var front := NewSuccessors(s, i, prev, k, n - 1);
      var last := NewSuccessor(s, i, prev, k, n - 1);
      assert NewSuccessors(s, i, prev, k, n) == front + [last];
      forall l | 0 <= l < n
        ensures NewSuccessors(s, i, prev, k, n)[l] == NewSuccessor(s, i, prev, k, l)
      {
        if l < n - 1 {
          assert (front + [last])[l] == front[l];
        }
      }
    }
  }

  /** Every key state k offers indexes a subset of bridging set i. */
  lemma StateOfferKeys(s: Setup, i: nat, prev: Scored, k: nat)
    requires WellFormed(s) && 1 <= i < |s.avail|
    ensures forall j :: 0 <= j < |StateOffers(s, i, prev, k)| ==> StateOffers(s, i, prev, k)[j].0 < Pow2(|s.bridging[i]|)
  {
    if |NewPart(s, i)| != 0 {
      NewSuccessorsAt(s, i, prev, k, Pow2(|NewPart(s, i)|));
    }
  }

  /** Candidates built from a state never score above the fresh-path
      throughput, and score exactly that when it is not positive. */
  lemma ExtendCapped(s: Setup, i: nat, prev: Scored, k: nat, context: seq<Link>)
    requires WellFormed(s) && PositiveAvail(s) && ScoresNonnegative(s) && 1 <= i < |s.avail|
    ensures Capped(Extend(s, i, prev, k, context).throughput, s.init)
  {
    var selected := prev.selected + [Inter(Decode(s.bridging[i - 1], k), s.avail[i - 1])];
    InterMembers(Decode(s.bridging[i - 1], k), s.avail[i - 1]);
    assert forall l :: l in selected[|selected| - 1] ==> Capacity(s.net, l) >= 0.0;
  }

  lemma StateOffersCapped(s: Setup, i: nat, prev: Scored, k: nat)
    requires WellFormed(s) && PositiveAvail(s) && ScoresNonnegative(s) && 1 <= i < |s.avail|
    ensures forall j :: 0 <= j < |StateOffers(s, i, prev, k)| ==> Capped(StateOffers(s, i, prev, k)[j].1.throughput, s.init)
  {
    if |NewPart(s, i)| == 0 {
      ExtendCapped(s, i, prev, k, Decode(s.bridging[i - 1], k));
    } else {
      var n := Pow2(|NewPart(s, i)|);
      NewSuccessorsAt(s, i, prev, k, n);
      forall l | 0 <= l < n
        ensures Capped(NewSuccessors(s, i, prev, k, n)[l].1.throughput, s.init)
      {
        ExtendCapped(s, i, prev, k, Union(Decode(NewPart(s, i), l), OldPart(s, i)));
      }
    }
  }

  /** A terminal candidate never exceeds its state's throughput, and equals
      it when the fresh-path throughput is not positive. */
  lemma TerminalCapped(s: Setup, cell: Scored, k: nat)
    requires WellFormed(s) && PositiveAvail(s) && ScoresNonnegative(s) && Capped(cell.throughput, s.init)
    ensures Capped(TerminalCandidate(s, cell, k), s.init)
  {
    var last := |s.avail| - 1;
    var selected := cell.selected + [Inter(Decode(s.bridging[last], k), s.avail[last])];
    InterMembers(Decode(s.bridging[last], k), s.avail[last]);
    assert forall l :: l in selected[|selected| - 1] ==> Capacity(s.net, l) >= 0.0;
  }

  lemma MakeProgramKeys(s: Setup)
    requires WellFormed(s)
    ensures OffersInRange(MakeProgram(s))
  {
    var p := MakeProgram(s);
    forall i: nat, prev: Scored, k: nat | 1 <= i < |p.sizes|
      ensures forall j :: 0 <= j < |p.offers(i, prev, k)| ==> p.offers(i, prev, k)[j].0 < p.sizes[i]
    {
      StateOfferKeys(s, i, prev, k);
    }
  }

  lemma MakeProgramCapped(s: Setup)
    requires WellFormed(s) && PositiveAvail(s) && ScoresNonnegative(s)
    ensures OffersCapped(MakeProgram(s)) && TerminalsCapped(MakeProgram(s))
  {
    var p := MakeProgram(s);
    forall i: nat, prev: Scored, k: nat
      ensures forall j :: 0 <= j < |p.offers(i, prev, k)| ==> Capped(p.offers(i, prev, k)[j].1.throughput, p.init)
    {
      if 1 <= i < |s.avail| {
        StateOffersCapped(s, i, prev, k);
      }
    }
    forall cell: Scored, k | Capped(cell.throughput, p.init)
      ensures Capped(p.terminal(cell, k), p.init)
    {
      TerminalCapped(s, cell, k);
    }
  }

  /** `select_channels` on a nonempty path, when it does not stop on a
      missing cell, returns the largest terminal candidate over the states
      of the last table; that value never exceeds the throughput a fresh
      `Path` starts from, and equals it when that start is not positive (as
      the source's 0.0 is). */
  lemma SelectChannelsOptimum(net: Net, path: PathEdges, init: real)
    requires |path| >= 1
    ensures var r := SelectChannelsSpec(net, path, init);
      r.Ok? ==> IsOptimum(MakeProgram(MakeSetup(net, path, init)), r.value) && Capped(r.value, init)
  {
    var s := MakeSetup(net, path, init);
    MakeSetupScores(net, path, init);
    MakeProgramKeys(s);
    MakeProgramCapped(s);
    RunOptimum(MakeProgram(s));
  }

  // ---------------------------------------------------------------------
  // The program as the source runs it

  /** A candidate as `select_channels` builds it: a fresh `Path` holding the
      previous selections and the decoded subset's available links, scored
      by `throughput_for_path` against `context`. */
  method ScoreCandidate(s: Setup, i: nat, prev: Scored, k: nat, context: seq<Link>) returns (c: Scored)
    requires WellFormed(s) && ScoresByEstimator(s) && 1 <= i < |s.avail|
    ensures c == Extend(s, i, prev, k, context)
  {
    var previous := DecodeSet(s.bridging[i - 1], k);
    var path := new Path(prev.selected + [Inter(previous, s.avail[i - 1])], s.init);
    ThroughputForPath(s.net, path, context, |s.avail|, s.avail);
    c := Scored(path.selected, path.throughput);
  }

  /** The single offer of state k when bridging set i has no new links:
      keyed by the old part's members in the decoded subset, and scored
      against the decoded subset. */
  method OnlyOffer(s: Setup, i: nat, prev: Scored, k: nat) returns (key: nat, cand: Scored)
    requires WellFormed(s) && ScoresByEstimator(s) && 1 <= i < |s.avail|
    requires |NewPart(s, i)| == 0
    ensures StateOffers(s, i, prev, k) == [(key, cand)]
  {
    var previous := DecodeSet(s.bridging[i - 1], k);
    key := EncodeSet(s.bridging[i], Inter(OldPart(s, i), previous));
    cand := ScoreCandidate(s, i, prev, k, previous);
  }

  /** The l-th offer of state k when bridging set i has new links. */
  method NextOffer(s: Setup, i: nat, prev: Scored, k: nat, l: nat) returns (key: nat, cand: Scored)
    requires WellFormed(s) && ScoresByEstimator(s) && 1 <= i < |s.avail|
    ensures NewSuccessor(s, i, prev, k, l) == (key, cand)
  {
    var decoded := DecodeSet(NewPart(s, i), l);
    var next := Union(decoded, OldPart(s, i));
    key := EncodeSet(s.bridging[i], next);
    cand := ScoreCandidate(s, i, prev, k, next);
  }

  lemma StateOffersNew(s: Setup, i: nat, prev: Scored, k: nat)
    requires WellFormed(s) && 1 <= i < |s.avail| && |NewPart(s, i)| != 0
    ensures StateOffers(s, i, prev, k) == NewSuccessors(s, i, prev, k, Pow2(|NewPart(s, i)|))
  {
  }

  /** The loop over the subsets of the new part of bridging set i: each
      successor of state k is scored and offered to its cell in turn. */
  method OfferNew(s: Setup, i: nat, prev: Scored, k: nat, t0: Table) returns (t: Table)
    requires WellFormed(s) && ScoresByEstimator(s) && 1 <= i < |s.avail|
    ensures t == OfferAll(t0, NewSuccessors(s, i, prev, k, Pow2(|NewPart(s, i)|)))
  {
    var count := Pow2(|NewPart(s, i)|);
    t := t0;
    var l := 0;
    while l < count
      invariant 0 <= l <= count
      invariant t == OfferAll(t0, NewSuccessors(s, i, prev, k, l))
    {
      var key, cand := NextOffer(s, i, prev, k, l);
      OfferAllSnoc(t0, NewSuccessors(s, i, prev, k, l), key, cand);
      t := Offer(t, key, cand);
      l := l + 1;
    }
  }

  /** The body of the loop over the states k of hop i-1: every successor
      subset of state k is scored and offered to its cell. */
  method OfferState(s: Setup, ghost p: Program, i: nat, prev: Scored, k: nat, t0: Table) returns (t: Table)
    requires WellFormed(s) && ScoresByEstimator(s) && Implements(s, p) && 1 <= i < |s.avail|
    ensures t == OfferAll(t0, p.offers(i, prev, k))
  {
    assert p.offers(i, prev, k) == StateOffers(s, i, prev, k);
    if |NewPart(s, i)| == 0 {
      var key, cand := OnlyOffer(s, i, prev, k);
      OfferAllSnoc(t0, [], key, cand);
      assert [] + [(key, cand)] == [(key, cand)];
      t := Offer(t0, key, cand);
    } else {
      t := OfferNew(s, i, prev, k, t0);
      StateOffersNew(s, i, prev, k);
    }
  }

  /** Hop i's table, built from every state of hop i-1's table in index
      order; a missing state stops the run. */
  method BuildHop(s: Setup, ghost p: Program, i: nat, prev: Table) returns (r: Result<Table>)
    requires WellFormed(s) && ScoresByEstimator(s) && Implements(s, p) && 1 <= i < |s.avail|
    ensures r == HopUpTo(p, i, prev, p.sizes[i - 1])
  {
    var count := Pow2(|s.bridging[i - 1]|);
    var t: Table := map[];
    var k := 0;
    while k < count
      invariant 0 <= k <= count
      invariant HopUpTo(p, i, prev, k) == Ok(t)
    {
      if k !in prev {
        HopStops(p, i, prev, k + 1, count);
        return MissingState(i - 1, k);
      }
      t := OfferState(s, p, i, prev[k], k, t);
      k := k + 1;
    }
    r := Ok(t);
  }

  /** Hop 0's table: a fresh `Path` in each of its n states. */
  method FreshTable(init: real, n: nat) returns (t: Table)
    ensures t == FreshCells(init, n)
  {
    t := map[];
    var k := 0;
    while k < n
      invariant 0 <= k <= n
      invariant t == FreshCells(init, k)
    {
      t := t[k := Scored([], init)];
      k := k + 1;
    }
  }

  /** The terminal candidate of one state of the last hop: a `Path` that
      starts from the state's throughput, scored with an empty bridging set. */
  method TerminalScore(s: Setup, ghost p: Program, cell: Scored, k: nat) returns (v: real)
    requires WellFormed(s) && ScoresByEstimator(s) && Implements(s, p)
    ensures v == p.terminal(cell, k)
  {
    var last := |s.avail| - 1;
    var subset := DecodeSet(s.bridging[last], k);
    var path := new Path(cell.selected + [Inter(subset, s.avail[last])], cell.throughput);
    ThroughputForPath(s.net, path, [], |s.avail|, s.avail);
    v := path.throughput;
    assert v == TerminalCandidate(s, cell, k);
  }

  /** The tables of the dynamic program hop by hop, up to the last hop's;
      a missing state stops the run. */
  method LastTable(s: Setup, ghost p: Program) returns (r: Result<Table>)
    requires WellFormed(s) && ScoresByEstimator(s) && Implements(s, p)
    ensures r == TableAt(p, |p.sizes| - 1)
  {
    var last := |s.avail| - 1;
    var table := FreshTable(s.init, Pow2(|s.bridging[0]|));
    var i := 1;
    while i < |s.avail|
      invariant 1 <= i <= |s.avail|
      invariant TableAt(p, i - 1) == Ok(table)
    {
      var next := BuildHop(s, p, i, table);
      if next.MissingState? {
        TableStops(p, i, last);
        return next;
      }
      table := next.value;
      i := i + 1;
    }
    r := Ok(table);
  }

  /** The scan of the last table for the best terminal candidate; a strictly
      higher candidate replaces the best so far. */
  method BestTerminal(s: Setup, ghost p: Program, table: Table) returns (r: Result<Option<real>>)
    requires WellFormed(s) && ScoresByEstimator(s) && Implements(s, p)
    ensures r == BestUpTo(Terminals(p, table), |p.sizes| - 1, p.sizes[|p.sizes| - 1])
  {
    ghost var cands := Terminals(p, table);
    var last := |s.avail| - 1;
    var best: Option<real> := None;
    var count := Pow2(|s.bridging[last]|);
    var k := 0;
    while k < count
      invariant 0 <= k <= count
      invariant BestUpTo(cands, last, k) == Ok(best)
    {
      if k !in table {
        BestStops(cands, last, k + 1, count);
        return MissingState(last, k);
      }
      var c := TerminalScore(s, p, table[k], k);
      if best.None? || c > best.value {
        best := Some(c);
      }
      k := k + 1;
    }
    r := Ok(best);
  }

  /** The dynamic program of the setup's rules, as the source runs it. */
  method RunRules(s: Setup, ghost p: Program) returns (r: Result<real>)
    requires WellFormed(s) && ScoresByEstimator(s) && Implements(s, p)
    ensures r == Run(p)
  {
    var table := LastTable(s, p);
    if table.MissingState? {
      return MissingState(table.hop, table.key);
    }
    var best := BestTerminal(s, p, table.value);
    if best.MissingState? {
      return MissingState(best.hop, best.key);
    }
    r := Ok(if best.value.Some? then best.value.value else 0.0);
  }

  /** `select_channels`: 0.0 on an empty path; otherwise the dynamic program
      over the path's available links and bridging sets. */
  method SelectChannels(net: Net, path: PathEdges, init: real) returns (r: Result<real>)
    ensures r == SelectChannelsSpec(net, path, init)
  {
    if |path| == 0 {
      return Ok(0.0);
    }
    var s := MakeSetup(net, path, init);
    MakeSetupScores(net, path, init);
    MakeProgramImplements(s);
    r := RunRules(s, MakeProgram(s));
  }
}

=== FILE: seqsets.dfy ===
/** Finite sets whose iteration order matters to the program, kept as
    sequences of distinct elements in that iteration order. */
module SeqSets {

  predicate Distinct<T(==,!new)>(s: seq<T>) {
    forall i, j :: 0 <= i < j < |s| ==> s[i] != s[j]
  }

  /** `a & b`: the elements of `a` that are also in `b`, in the order of `a`. */
  function Inter<T(==)>(a: seq<T>, b: seq<T>): (r: seq<T>)
    ensures |r| <= |a|
  {
    if a == [] then [] else (if a[0] in b then [a[0]] else []) + Inter(a[1..], b)
  }

  lemma {:induction false} InterMembers<T>(a: seq<T>, b: seq<T>)
    ensures forall x :: x in Inter(a, b) <==> x in a && x in b
  {
    if a != [] {
      InterMembers(a[1..], b);
      assert forall x :: x in a <==> x == a[0] || x in a[1..];
    }
  }

  /** `a - b`: the elements of `a` that are not in `b`, in the order of `a`. */
  function Minus<T(==)>(a: seq<T>, b: seq<T>): (r: seq<T>)
    ensures |r| <= |a|
  {
    if a == [] then [] else (if a[0] !in b then [a[0]] else []) + Minus(a[1..], b)
  }

  lemma {:induction false} MinusMembers<T>(a: seq<T>, b: seq<T>)
    ensures forall x :: x in Minus(a, b) <==> x in a && x !in b
  {
    if a != [] {
      MinusMembers(a[1..], b);
      assert forall x :: x in a <==> x == a[0] || x in a[1..];
    }
  }

  /** `a | b`: `a` followed by the elements of `b` it lacks. */
  function Union<T(==)>(a: seq<T>, b: seq<T>): (r: seq<T>)
    ensures |a| <= |r| && r[..|a|] == a
  {
    a + Minus(b, a)
  }

  lemma UnionMembers<T>(a: seq<T>, b: seq<T>)
    ensures forall x :: x in Union(a, b) <==> x in a || x in b
  {
    MinusMembers(b, a);
  }

  /** The union of every sequence of `ss`, the first one's order first. */
  function UnionAll<T(==)>(ss: seq<seq<T>>): seq<T> {
    if ss == [] then [] else Union(UnionAll(ss[..|ss| - 1]), ss[|ss| - 1])
  }

  lemma {:induction false} UnionAllMembers<T>(ss: seq<seq<T>>)
    ensures forall x :: x in UnionAll(ss) <==> exists i :: 0 <= i < |ss| && x in ss[i]
  {
    if ss != [] {
      var init := ss[..|ss| - 1];
      UnionAllMembers(init);
      UnionMembers(UnionAll(init), ss[|ss| - 1]);
      forall x ensures x in UnionAll(ss) <==> exists i :: 0 <= i < |ss| && x in ss[i] {
        if x in UnionAll(ss) && x !in ss[|ss| - 1] {
          var i :| 0 <= i < |init| && x in init[i];
          assert x in ss[i];
        }
        if exists i :: 0 <= i < |ss| && x in ss[i] {
          var i :| 0 <= i < |ss| && x in ss[i];
          if i < |ss| - 1 { assert x in init[i]; }
        }
      }
    }
  }

  /** A distinct sequence with one more element in front, absent from it,
      is still distinct. */
  lemma ConsDistinct<T(!new)>(x: T, s: seq<T>)
    requires Distinct(s) && x !in s
    ensures Distinct([x] + s)
  {
    forall i, j | 0 <= i < j < |[x] + s| ensures ([x] + s)[i] != ([x] + s)[j] {
      if i > 0 {
        assert ([x] + s)[i] == s[i - 1] && ([x] + s)[j] == s[j - 1];
      } else {
        assert ([x] + s)[j] == s[j - 1];
      }
    }
  }

  lemma TailDistinct<T(!new)>(s: seq<T>)
    requires s != [] && Distinct(s)
    ensures Distinct(s[1..]) && s[0] !in s[1..]
  {
    forall i, j | 0 <= i < j < |s[1..]| ensures s[1..][i] != s[1..][j] {
      assert s[1..][i] == s[i + 1] && s[1..][j] == s[j + 1];
    }
  }

  /** Filtering keeps distinctness: the intersection of a distinct `a`. */
  lemma {:induction false} InterDistinct<T(!new)>(a: seq<T>, b: seq<T>)
    requires Distinct(a)
    ensures Distinct(Inter(a, b))
  {
    if a != [] {
      TailDistinct(a);
      InterDistinct(a[1..], b);
      InterMembers(a[1..], b);
      if a[0] in b {
        ConsDistinct(a[0], Inter(a[1..], b));
      }
    }
  }

  lemma {:induction false} MinusDistinct<T(!new)>(a: seq<T>, b: seq<T>)
    requires Distinct(a)
    ensures Distinct(Minus(a, b))
  {
    if a != [] {
      TailDistinct(a);
      MinusDistinct(a[1..], b);
      MinusMembers(a[1..], b);
      if a[0] !in b {
        ConsDistinct(a[0], Minus(a[1..], b));
      }
    }
  }

  /** Two distinct sequences with no element in common concatenate to a
      distinct sequence. */
  lemma AppendDistinct<T(!new)>(a: seq<T>, b: seq<T>)
    requires Distinct(a) && Distinct(b)
    requires forall x :: x in a ==> x !in b
    ensures Distinct(a + b)
  {
    forall i, j | 0 <= i < j < |a + b| ensures (a + b)[i] != (a + b)[j] {
      if j >= |a| {
        assert (a + b)[j] == b[j - |a|];
        if i >= |a| {
          assert (a + b)[i] == b[i - |a|];
        } else {
          assert b[j - |a|] in b;
        }
      }
    }
  }

  lemma UnionDistinct<T(!new)>(a: seq<T>, b: seq<T>)
    requires Distinct(a) && Distinct(b)
    ensures Distinct(Union(a, b))
  {
    MinusDistinct(b, a);
    MinusMembers(b, a);
    AppendDistinct(a, Minus(b, a));
  }

  lemma {:induction false} UnionAllDistinct<T(!new)>(ss: seq<seq<T>>)
    requires forall i :: 0 <= i < |ss| ==> Distinct(ss[i])
    ensures Distinct(UnionAll(ss))
  {
    if ss != [] {
      var init := ss[..|ss| - 1];
      UnionAllDistinct(init);
      UnionDistinct(UnionAll(init), ss[|ss| - 1]);
    }
  }

  /** Putting a new element anywhere into a distinct sequence keeps it
      distinct. */
  lemma SpliceDistinct<T(!new)>(ys: seq<T>, x: T, k: nat)
    requires k <= |ys| && Distinct(ys) && x !in ys
    ensures Distinct(ys[..k] + [x] + ys[k..])
  {
    var a, b := ys[..k], ys[k..];
    forall i, j | 0 <= i < j < |a| ensures a[i] != a[j] {
      assert a[i] == ys[i] && a[j] == ys[j];
    }
    forall i, j | 0 <= i < j < |b| ensures b[i] != b[j] {
      assert b[i] == ys[k + i] && b[j] == ys[k + j];
    }
    assert x !in b;
    ConsDistinct(x, b);
    forall y | y in a ensures y !in [x] + b {
      var i :| 0 <= i < |a| && a[i] == y;
      assert y == ys[i];
      forall j | 0 <= j < |b| ensures b[j] != y {
        assert b[j] == ys[k + j];
      }
    }
    AppendDistinct(a, [x] + b);
    assert a + [x] + b == a + ([x] + b);
  }

  /** Taking out an element that is there shortens the sequence. */
  lemma {:induction false} MinusShorter<T>(b: seq<T>, x: T)
    requires x in b
    ensures |Minus(b, [x])| < |b|
  {
    if b[0] != x {
      MinusShorter(b[1..], x);
    }
  }

  /** A distinct sequence all of whose elements are in b is no longer
      than b. */
  lemma {:induction false} DistinctShorter<T(!new)>(a: seq<T>, b: seq<T>)
    requires Distinct(a) && forall x :: x in a ==> x in b
    ensures |a| <= |b|
  {
    if a != [] {
      TailDistinct(a);
      MinusMembers(b, [a[0]]);
      MinusShorter(b, a[0]);
      DistinctShorter(a[1..], Minus(b, [a[0]]));
    }
  }
}

=== FILE: sorting.dfy ===
/** Python's `sorted` on (item, key) pairs: a stable sort by the key,
    ascending or (with `reverse=True`) descending. Stable means that pairs
    with equal keys keep their original relative order, in both
    directions. */
module Sorting {
  import opened SeqSets

  /** Key a goes strictly before key b: the smaller first when ascending,
      the larger first when descending. */
  predicate Ahead(a: real, b: real, desc: bool) {
    if desc then a > b else a < b
  }

  /** Inserts x, which came before every pair of ys, in front of the first
      pair of ys that is not strictly ahead of it. */
  function Insert<T>(x: (T, real), ys: seq<(T, real)>, desc: bool): (r: seq<(T, real)>)
    ensures |r| == |ys| + 1
  {
    if ys == [] || !Ahead(ys[0].1, x.1, desc) then [x] + ys
    else [ys[0]] + Insert(x, ys[1..], desc)
  }

  function SortBy<T>(xs: seq<(T, real)>, desc: bool): (r: seq<(T, real)>)
    ensures |r| == |xs|
  {
    if xs == [] then [] else Insert(xs[0], SortBy(xs[1..], desc), desc)
  }

  /** No pair is strictly ahead of a pair in front of it. */
  predicate Ordered<T>(xs: seq<(T, real)>, desc: bool) {
    forall i, j :: 0 <= i < j < |xs| ==> !Ahead(xs[j].1, xs[i].1, desc)
  }

  /** The item column of a sequence of pairs. */
  function Items<T>(xs: seq<(T, real)>): (r: seq<T>)
    ensures |r| == |xs|
    ensures forall i :: 0 <= i < |xs| ==> r[i] == xs[i].0
  {
    if xs == [] then [] else [xs[0].0] + Items(xs[1..])
  }

  lemma {:induction false} InsertPermutes<T>(x: (T, real), ys: seq<(T, real)>, desc: bool)
    ensures multiset(Insert(x, ys, desc)) == multiset(ys) + multiset{x}
  {
    if ys != [] && Ahead(ys[0].1, x.1, desc) {
      InsertPermutes(x, ys[1..], desc);
      assert ys == [ys[0]] + ys[1..];
    }
  }

  lemma {:induction false} InsertOrdered<T>(x: (T, real), ys: seq<(T, real)>, desc: bool)
    requires Ordered(ys, desc)
    ensures Ordered(Insert(x, ys, desc), desc)
  {
    if ys != [] && Ahead(ys[0].1, x.1, desc) {
      var rest := Insert(x, ys[1..], desc);
      InsertOrdered(x, ys[1..], desc);
      InsertPermutes(x, ys[1..], desc);
      forall e | e in rest
        ensures !Ahead(e.1, ys[0].1, desc)
      {
        assert e in multiset(rest);
      }
    }
  }

  /** `sorted` returns a permutation of its input. */
  lemma {:induction false} SortPermutes<T>(xs: seq<(T, real)>, desc: bool)
    ensures multiset(SortBy(xs, desc)) == multiset(xs)
  {
    if xs != [] {
      SortPermutes(xs[1..], desc);
      InsertPermutes(xs[0], SortBy(xs[1..], desc), desc);
      assert xs == [xs[0]] + xs[1..];
    }
  }

  /** `sorted` returns its input in key order. */
  lemma {:induction false} SortOrdered<T>(xs: seq<(T, real)>, desc: bool)
    ensures Ordered(SortBy(xs, desc), desc)
  {
    if xs != [] {
      SortOrdered(xs[1..], desc);
      InsertOrdered(xs[0], SortBy(xs[1..], desc), desc);
    }
  }

  /** Where Insert puts x: after exactly the leading pairs of ys that are
      strictly ahead of it. */
  lemma {:induction false} InsertSplits<T>(x: (T, real), ys: seq<(T, real)>, desc: bool)
    returns (k: nat)
    ensures k <= |ys| && Insert(x, ys, desc) == ys[..k] + [x] + ys[k..]
    ensures forall m :: 0 <= m < k ==> Ahead(ys[m].1, x.1, desc)
  {
    if ys == [] || !Ahead(ys[0].1, x.1, desc) {
      k := 0;
    } else {
      var k' := InsertSplits(x, ys[1..], desc);
      k := k' + 1;
      assert ys[..k] == [ys[0]] + ys[1..][..k'];
      assert ys[k..] == ys[1..][k'..];
    }
  }

  /** Positions after an insertion at k: x sits at k, and the pair at m
      moves up by one when it was at or past k. */
  lemma Shifted<T>(ys: seq<T>, x: T, k: nat, m: nat)
    requires k <= |ys| && m < |ys|
    ensures (ys[..k] + [x] + ys[k..])[k] == x
    ensures (ys[..k] + [x] + ys[k..])[if m < k then m else m + 1] == ys[m]
  {
  }

  /** Insert puts x in front of every pair of ys with the same key. */
  lemma InsertBeforeEqual<T>(x: (T, real), ys: seq<(T, real)>, desc: bool, m: nat)
    requires m < |ys| && ys[m].1 == x.1
    ensures exists p, q :: 0 <= p < q <= |ys| && Insert(x, ys, desc)[p] == x && Insert(x, ys, desc)[q] == ys[m]
  {
    var k := InsertSplits(x, ys, desc);
    assert !Ahead(ys[m].1, x.1, desc);
    Shifted(ys, x, k, m);
  }

  /** Insert keeps the pairs of ys in their order. */
  lemma InsertKeepsOrder<T>(x: (T, real), ys: seq<(T, real)>, desc: bool, p: nat, q: nat)
    requires p < q < |ys|
    ensures exists p', q' :: 0 <= p' < q' <= |ys| && Insert(x, ys, desc)[p'] == ys[p] && Insert(x, ys, desc)[q'] == ys[q]
  {
    var k := InsertSplits(x, ys, desc);
    Shifted(ys, x, k, p);
    Shifted(ys, x, k, q);
  }

  /** `sorted` is stable: of two input pairs with the same key, the earlier
      one comes first in the output too. */
  lemma {:induction false} SortStable<T>(xs: seq<(T, real)>, desc: bool, i: nat, j: nat)
    requires i < j < |xs| && xs[i].1 == xs[j].1
    ensures exists p, q :: 0 <= p < q < |xs| && SortBy(xs, desc)[p] == xs[i] && SortBy(xs, desc)[q] == xs[j]
  {
    var rest := SortBy(xs[1..], desc);
    assert SortBy(xs, desc) == Insert(xs[0], rest, desc);
    if i == 0 {
      SortStableHead(xs[0], xs[1..], desc, j - 1);
    } else {
      SortStable(xs[1..], desc, i - 1, j - 1);
      var p, q :| 0 <= p < q < |rest| && rest[p] == xs[1..][i - 1] && rest[q] == xs[1..][j - 1];
      InsertKeepsOrder(xs[0], rest, desc, p, q);
    }
  }

  /** A pair inserted in front of a sorted tail lands before every tail
      pair with the same key. */
  lemma SortStableHead<T>(x: (T, real), tail: seq<(T, real)>, desc: bool, j: nat)
    requires j < |tail| && tail[j].1 == x.1
    ensures var r := Insert(x, SortBy(tail, desc), desc);
      exists p, q :: 0 <= p < q < |r| && r[p] == x && r[q] == tail[j]
  {
    var rest := SortBy(tail, desc);
    SortPermutes(tail, desc);
    assert tail[j] in multiset(rest);
    var m :| 0 <= m < |rest| && rest[m] == tail[j];
    InsertBeforeEqual(x, rest, desc, m);
  }

  /** `sorted` of distinct pairs has distinct pairs. */
  lemma {:induction false} SortDistinct<T(!new)>(xs: seq<(T, real)>, desc: bool)
    requires Distinct(xs)
    ensures Distinct(SortBy(xs, desc))
  {
    if xs != [] {
      var rest := SortBy(xs[1..], desc);
      TailDistinct(xs);
      SortDistinct(xs[1..], desc);
      SortPermutes(xs[1..], desc);
      assert xs[0] !in multiset(rest);
      var k := InsertSplits(xs[0], rest, desc);
      SpliceDistinct(rest, xs[0], k);
    }
  }
}

=== FILE: throughput.dfy ===
/** The bottleneck throughput estimator: `Path` and `throughput_for_path`
    (joint_routing_channel_selection.py). */
module Throughput {
  import opened SeqSets
  import opened Links
  import opened Clique

  /** `Path`: the link sets selected at the hops scored so far, and the
      running bottleneck throughput, which only ever takes a minimum. */
  class Path {
    var selected: seq<seq<Link>>
    var throughput: real

    constructor (selected: seq<seq<Link>>, throughput: real)
      ensures this.selected == selected && this.throughput == throughput
    {
      this.selected := selected;
      this.throughput := throughput;
    }
  }

  function Min(a: real, b: real): (r: real)
    ensures r <= a && r <= b && (r == a || r == b)
  {
    if a <= b then a else b
  }

  function Max(a: int, b: int): (r: int)
    ensures r >= a && r >= b && (r == a || r == b)
  {
    if a >= b then a else b
  }

  /** Some link of `a` uses the same (band, channel) pair as some link of `b`. */
  predicate SharesChannel(a: seq<Link>, b: seq<Link>) {
    exists x, y :: x in a && y in b && x.freq == y.freq && x.channel == y.channel
  }

  /** The clique size every link of the hop starts from: 1 on a one-hop
      path, 2 otherwise, and 3 on an inner hop (index 2 or more, not the
      last) whose previous selection shares a (band, channel) pair with the
      next hop's available links that lie in the bridging set. */
  function BaseClique(selected: seq<seq<Link>>, bridging: seq<Link>, pathLen: nat, avail: seq<seq<Link>>): (r: int)
    requires |selected| >= 1 && pathLen <= |avail|
    ensures 1 <= r <= 3
    ensures pathLen > 1 ==> r >= 2
  {
    var i := |selected| - 1;
    var base := if pathLen > 1 then 2 else 1;
    if i > 1 && i < pathLen - 1 && SharesChannel(selected[i - 1], Inter(avail[i + 1], bridging)) then 3 else base
  }

  /** The earlier hops j < n whose selection holds the probe link
      Link(Hop(j), f, c) with the link's band and channel. */
  function Probes(selected: seq<seq<Link>>, link: Link, n: nat): seq<Edge>
    requires n <= |selected|
  {
    if n == 0 then []
    else
      Probes(selected, link, n - 1) +
      (if Link(Hop(n - 1), link.freq, link.channel) in selected[n - 1] then [Hop(n - 1)] else [])
  }

  /** No probe link matches when every selected link has a node-pair
      edge: a probe's edge is a hop index. */
  lemma {:induction false} ProbesNeverMatch(selected: seq<seq<Link>>, link: Link, n: nat)
    requires n <= |selected|
    requires forall j, l :: 0 <= j < |selected| && l in selected[j] ==> l.edge.Pair?
    ensures Probes(selected, link, n) == []
  {
    if n > 0 {
      ProbesNeverMatch(selected, link, n - 1);
    }
  }

  /** Python 2's `edge > i`: every tuple compares above every integer. */
  predicate GreaterThanHop(e: Edge, i: int) {
    match e
    case Pair(_, _) => true
    case Hop(n) => n > i
  }

  /** One copy of the link's own edge for every link among the first n of
      the bridging set that has the same band and channel and whose edge
      compares above the hop index. */
  function Following(bridging: seq<Link>, link: Link, i: int, n: nat): seq<Edge>
    requires n <= |bridging|
  {
    if n == 0 then []
    else
      var other := bridging[n - 1];
      Following(bridging, link, i, n - 1) +
      (if link.channel == other.channel && link.freq == other.freq && GreaterThanHop(other.edge, i) then [link.edge] else [])
  }

  /** The clique-candidate list of a link at hop i. */
  function Candidates(selected: seq<seq<Link>>, bridging: seq<Link>, link: Link, i: nat): seq<Edge>
    requires i <= |selected|
  {
    Probes(selected, link, i) + [Hop(i)] + Following(bridging, link, i, |bridging|)
  }

  /** The divisor of a link's capacity at the last hop of `selected`. */
  function Divisor(net: Net, selected: seq<seq<Link>>, bridging: seq<Link>, pathLen: nat, avail: seq<seq<Link>>, link: Link): (r: int)
    requires |selected| >= 1 && pathLen <= |avail|
    ensures r >= 1
    ensures r >= BaseClique(selected, bridging, pathLen, avail)
  {
    var i := |selected| - 1;
    Max(BaseClique(selected, bridging, pathLen, avail),
        MaxClique(net, Candidates(selected, bridging, link, i), i, link.freq, link.channel))
  }

  /** The sum, over the first n links of the last hop's selection, of each
      link's capacity divided by its divisor. */
  function SharesUpTo(net: Net, selected: seq<seq<Link>>, bridging: seq<Link>, pathLen: nat, avail: seq<seq<Link>>, n: nat): real
    requires |selected| >= 1 && pathLen <= |avail|
    requires n <= |selected[|selected| - 1]|
  {
    if n == 0 then 0.0
    else
      var link := selected[|selected| - 1][n - 1];
      SharesUpTo(net, selected, bridging, pathLen, avail, n - 1) +
      Capacity(net, link) / (Divisor(net, selected, bridging, pathLen, avail, link) as real)
  }

  /** The aggregate throughput of the last hop of `selected`. */
  function HopScore(net: Net, selected: seq<seq<Link>>, bridging: seq<Link>, pathLen: nat, avail: seq<seq<Link>>): real
    requires |selected| >= 1 && pathLen <= |avail|
  {
    SharesUpTo(net, selected, bridging, pathLen, avail, |selected[|selected| - 1]|)
  }

  /** Links of nonnegative capacity give a nonnegative hop score, and never
      more than the sum of their raw capacities. */
  lemma {:induction false} SharesBounds(net: Net, selected: seq<seq<Link>>, bridging: seq<Link>, pathLen: nat, avail: seq<seq<Link>>, n: nat)
    requires |selected| >= 1 && pathLen <= |avail|
    requires n <= |selected[|selected| - 1]|
    requires forall l :: l in selected[|selected| - 1] ==> Capacity(net, l) >= 0.0
    ensures 0.0 <= SharesUpTo(net, selected, bridging, pathLen, avail, n) <= CapacitySum(net, selected[|selected| - 1][..n])
  {
    if n > 0 {
      var hop := selected[|selected| - 1];
      SharesBounds(net, selected, bridging, pathLen, avail, n - 1);
      var link := hop[n - 1];
      var d := Divisor(net, selected, bridging, pathLen, avail, link);
      ShareBounds(Capacity(net, link), d);
      assert SharesUpTo(net, selected, bridging, pathLen, avail, n)
          == SharesUpTo(net, selected, bridging, pathLen, avail, n - 1) + Capacity(net, link) / (d as real);
      assert hop[..n][..n - 1] == hop[..n - 1];
      assert CapacitySum(net, hop[..n]) == CapacitySum(net, hop[..n - 1]) + Capacity(net, link);
    }
  }

  /** One link's share: its nonnegative capacity over a divisor of at least
      one lies between zero and the capacity. */
  lemma ShareBounds(c: real, d: int)
    requires c >= 0.0 && d >= 1
    ensures 0.0 <= c / (d as real) <= c
  {
    assert c <= c * (d as real);
  }

  /** The sum of the raw capacities of a list of links. */
  function CapacitySum(net: Net, links: seq<Link>): real {
    if links == [] then 0.0 else CapacitySum(net, links[..|links| - 1]) + Capacity(net, links[|links| - 1])
  }

  /** The loops of `throughput_for_path` that build a link's clique-candidate
      list: the probe hops, the hop itself, then the bridging-set matches. */
  method CliqueCandidates(selected: seq<seq<Link>>, bridging: seq<Link>, link: Link, i: nat) returns (links: seq<Edge>)
    requires i <= |selected|
    ensures links == Candidates(selected, bridging, link, i)
  {
    links := [];
    var j := 0;
    while j < i
      invariant 0 <= j <= i
      invariant links == Probes(selected, link, j)
    {
      if Link(Hop(j), link.freq, link.channel) in selected[j] {
        links := links + [Hop(j)];
      }
      j := j + 1;
    }
    links := links + [Hop(i)];
    var b := 0;
    while b < |bridging|
      invariant 0 <= b <= |bridging|
      invariant links == Probes(selected, link, i) + [Hop(i)] + Following(bridging, link, i, b)
    {
      var other := bridging[b];
      if link.channel == other.channel && link.freq == other.freq && GreaterThanHop(other.edge, i) {
        links := links + [link.edge];
      }
      b := b + 1;
    }
  }

  /** One link's share of the hop's throughput: its capacity divided by the
      larger of the hop's base clique size and the link's channel clique. */
  method LinkShare(net: Net, selected: seq<seq<Link>>, bridging: seq<Link>, pathLen: nat, avail: seq<seq<Link>>, link: Link, maxCliqueSize: int)
    returns (share: real)
    requires |selected| >= 1 && pathLen <= |avail|
    requires maxCliqueSize == BaseClique(selected, bridging, pathLen, avail)
    ensures share == Capacity(net, link) / (Divisor(net, selected, bridging, pathLen, avail, link) as real)
  {
    var i := |selected| - 1;
    var links := CliqueCandidates(selected, bridging, link, i);
    var clique := MaxCliqueScan(net, links, i, link.freq, link.channel);
    var maxChannelCliqueSize := Max(maxCliqueSize, clique);
    share := Capacity(net, link) / (maxChannelCliqueSize as real);
  }

  /** `throughput_for_path`: scores the last hop of the path and lowers the
      path's throughput to that score when the score is smaller. */
  method ThroughputForPath(net: Net, path: Path, bridging: seq<Link>, pathLen: nat, avail: seq<seq<Link>>)
    requires |path.selected| >= 1 && pathLen <= |avail|
    modifies path`throughput
    ensures path.throughput == Min(old(path.throughput), HopScore(net, path.selected, bridging, pathLen, avail))
    ensures path.throughput <= old(path.throughput)
  {
    var selected := path.selected;
    var i := |selected| - 1;
    var maxCliqueSize := 1;
    if pathLen > 1 {
      maxCliqueSize := 2;
    }
    if i > 1 && i < pathLen - 1 && SharesChannel(selected[i - 1], Inter(avail[i + 1], bridging)) {
      maxCliqueSize := 3;
    }
    assert maxCliqueSize == BaseClique(selected, bridging, pathLen, avail);

    var linkThroughput := 0.0;
    var k := 0;
    while k < |selected[i]|
      invariant 0 <= k <= |selected[i]|
      invariant linkThroughput == SharesUpTo(net, selected, bridging, pathLen, avail, k)
      invariant path.throughput == old(path.throughput)
    {
      var share := LinkShare(net, selected, bridging, pathLen, avail, selected[i][k], maxCliqueSize);
      linkThroughput := linkThroughput + share;
      k := k + 1;
    }
    assert linkThroughput == HopScore(net, selected, bridging, pathLen, avail);
    path.throughput := Min(path.throughput, linkThroughput);
  }
}
